=== FILE: README.md ===
# Asset securitisation chaincode — a Dafny model

This project models the Hyperledger Fabric chaincode that securitises
assets. It covers the following.

- **Onboarding.** Asset owners and financial institutions (fininsts) register
  a login record and an identity record. The platform reviews both.
- **Asset lifecycle.** An asset moves through two-digit status codes:
  - 00 init → 02 approved or 03 rejected;
  - → 10 underwriting ⇄ 11 halted;
  - → 12 succeeded or 13 failed;
  - → 20 units initialised → 21 ownership effective → 22 repurchased;
  - 99 is a soft delete.
- **Underwriting ledger.** Institutions append claims on units of an asset
  during its window.
- **Share issuer.** It splits a successfully underwritten asset into one share
  per claim (contiguous unit runs from 1) plus a frozen remainder. It hashes
  them and later hands the claimed shares to their institutions.
- **Payment bookings.** A double-entry booking has up to two debit legs and
  two credit legs.
- **Ledger helpers.** Namespaced document keys, composite index entries, and
  the JSON arrays of query and history results.
- **Application controllers.** These live in the second chaincode tree:
  - the argument filters;
  - the subscription status classifier;
  - asset particulars and asset progress records with their list selectors;
  - the demo user store.

The world state is an immutable value. The asset, share and booking records
each have a map of their own, keyed by the document's key, and the claims are
a sequence in the order they were appended; their namespaces are pairwise
apart, so no two of their ledger keys can meet. The records of each role are
different: the login namespace (`asset_owner_`, `fininst_`) is a prefix of the
identity namespace (`asset_owner_detail_`, `fininst_detail_`), so the login
record of `detail_bob` and the identity record of `bob` share one ledger key.
Each role therefore has one map from the full ledger key to the stored
document, login or identity, and a read decodes whatever is stored there the
way `json.Unmarshal` does: the fields both structs share are kept, the
others are empty. The layout is a field of the world: `AsWritten` has the
source's namespaces, `Separated` gives the login records the namespaces
`asset_owner_login_` and `fininst_login_`. The world also holds the set of
index entries. Where the source iterates a rich query, the order the database
returns is a parameter with the same elements as the stored documents.

Every operation is a pure function from a world and its arguments to a
`Reply`, which is an outcome plus the world the transaction leaves.

- The asset chaincode reports application errors inside a successful peer
  response. So a write made before such an error commits, and the returned
  world keeps it: `deleteAssetOwner` and `enableUnderwroteAssetSharesOwnerships`
  do this.
- The application controllers also answer inside a successful response, with
  a numeric code: 2000 arguments, 2010 data exists, 2020 data does not exist,
  9970 database, 9980 other.

The modules follow the source files:

| module | source |
|---|---|
| `Results` | outcomes |
| `Ledger` | `chaincode_utils.go` |
| `Codes` | status constants |
| `Float64` | Go's `float64` rounding |
| `State` | documents and world |
| `Onboarding` | `asset_owner_mngt.go`, `fininst_mngt.go` |
| `Lifecycle` | `asset_securitized_mngt.go` |
| `Underwriting` | `underwrite` |
| `Decimal`, `Split`, `Shares` | `asset_security_share_mngt.go` |
| `Payment` | `payment_txn_booking_mngt.go` |
| `ParamsFilter` | `params_filter.go` |
| `AppStore` | application documents |
| `AssetManage` | `assist.go`, `asset_manage.go` |
| `AssetProcess` | `asset_process.go` |
| `DemoUser` | `demo_user.go` |

The owner and fininst sides of onboarding are one set of functions taking a
`Role`. The model table cites the owner file. The fininst file repeats the
same code at the lines `fininst_mngt.go:57-757`.

## Model

| member | source | states |
|---|---|---|
| Ledger.DocKey | chaincode/go/asset_mngt/chaincode_utils.go:129-145 | a document key is the namespace followed by the key, and the key can be read back from it |
| Ledger.CompositeKeyRoundTrip | chaincode/go/asset_mngt/chaincode_utils.go:147-159 | splitting a composite index key built from valid components gives back its object type and attributes |
| Ledger.CompositeKeyInjective | chaincode/go/asset_mngt/chaincode_utils.go:147-159 | two index entries with the same key have the same object type and attributes, so index entries never collide |
| Ledger.CompositeKeyIsNotDocKey | chaincode/go/asset_mngt/chaincode_utils.go:147-159 | an index key never coincides with a document key under a namespace that does not start with the NUL byte |
| Ledger.IndexOfInjective | chaincode/go/asset_mngt/chaincode_utils.go:147-159 | within one namespace, two index entries coincide only for the same index name and the same attributes |
| Ledger.SelectorInjective | chaincode/go/asset_mngt/chaincode_utils.go:12-16 | distinct looked-up values give distinct index query selectors |
| Ledger.WriteArray | chaincode/go/asset_mngt/chaincode_utils.go:33-58 | the buffer loop builds "[" + the items joined by "," + "]", with "[]" for none |
| Ledger.QueryResultJson | chaincode/go/asset_mngt/chaincode_utils.go:22-62 | the query result is the JSON array of `{"Key":k, "Record":v}` objects in iteration order |
| Ledger.HistoryJson | chaincode/go/asset_mngt/chaincode_utils.go:63-123 | history of an empty key is an error; otherwise it is the JSON array of the entries in order |
| Ledger.DeletedValueHidden | chaincode/go/asset_mngt/chaincode_utils.go:99-103 | a deleted history entry does not reveal its stored value: two deleted entries of the same transaction and time read the same |
| State.KeysMeetOnlyUnderPrefix | chaincode/go/asset_mngt/chaincode_utils.go:129-137 | two documents stored under the same ledger key have namespaces one of which is a prefix of the other |
| State.DocNamespacesApart | chaincode/go/asset_mngt/asset_securitized_mngt.go:35-40 | the asset, claim, share and booking namespaces are pairwise apart: neither of two is a prefix of the other |
| State.RoleNamespacesApart | chaincode/go/asset_mngt/asset_owner_mngt.go:15-18 | the namespaces of either role's records are apart from the asset, claim, share and booking namespaces, in either layout |
| State.RolesApart | chaincode/go/asset_mngt/fininst_mngt.go:15-18 | the owner and fininst namespaces are apart; within one role the login namespace is apart from the identity namespace iff the layout is separated |
| State.LoginKeyIsIdentityKey | chaincode/go/asset_mngt/asset_owner_mngt.go:15-18 | the login key of e and the identity key of x are the same ledger key iff the layout is as written and e is "detail_" followed by x |
| State.SubscribedAfterClaim | chaincode/go/asset_mngt/asset_securitized_mngt.go:1126-1167 | appending a claim adds its units to the subscribed total of its own asset and to no other |
| Onboarding.ReadParty | chaincode/go/asset_mngt/asset_owner_mngt.go:220-239 | the read returns the document stored under the login key exactly when there is one, and it decodes to the login view of the e-mail (an identity document stored there decodes to its e-mail and comment) |
| Onboarding.InitParty | chaincode/go/asset_mngt/asset_owner_mngt.go:62-108 | registration succeeds iff there are three non-empty arguments and nothing is stored under the login key; the record is status 00 "init", indexed by (status, e-mail), and no other key of the role is written |
| Onboarding.InitDetail | chaincode/go/asset_mngt/asset_owner_mngt.go:141-188 | the identity record needs the names, one identity and one proof picture, an approved login view and nothing under the identity key; an unapproved party gets the not-approved error; only the identity key is written |
| Onboarding.ChangePartyStatus | chaincode/go/asset_mngt/asset_owner_mngt.go:461-482 | only 01, 02, 03 and 99 are accepted, for whatever is stored under the login key; the login view takes the status and comment, only that key is written, and an identical status and comment writes nothing |
| Onboarding.ApproveParty | chaincode/go/asset_mngt/asset_owner_mngt.go:306-318 | approval succeeds iff something is stored under the login key, and leaves the login view in 02 |
| Onboarding.RejectParty | chaincode/go/asset_mngt/asset_owner_mngt.go:339-351 | rejection succeeds iff something is stored under the login key, and leaves the login view in 03 |
| Onboarding.ChangeDetailStatus | chaincode/go/asset_mngt/asset_owner_mngt.go:593-615 | the identity review takes only 01/02/03/99 for whatever is stored under the identity key, records the platform signature, writes only that key, and an identical decision writes nothing |
| Onboarding.ChangeParty | chaincode/go/asset_mngt/asset_owner_mngt.go:542-562 | login edits have no status gate and write only the login key; no difference means no write, and a rejected record that changes returns to 00 "init with change" |
| Onboarding.ChangeDetail | chaincode/go/asset_mngt/asset_owner_mngt.go:687-742 | identity edits only in 00 or 03 and write only the identity key; no difference means no write; a rejected record that changes returns to 00 and loses its signature |
| Onboarding.DeleteParty | chaincode/go/asset_mngt/asset_owner_mngt.go:379-440 | nothing under the login key is not-found without a write; otherwise whatever is stored there is rewritten as a login record in 99, and then nothing under the identity key is an error that keeps that write; otherwise the identity view ends in 99; only those two keys are written, each skipped if already 99 |
| Onboarding.ChangePartyStatusIdempotent | chaincode/go/asset_mngt/asset_owner_mngt.go:461-482 | repeating a review decision is a success without a write |
| Onboarding.DeletePartyIdempotent | chaincode/go/asset_mngt/asset_owner_mngt.go:393-440 | deleting a party a second time writes nothing |
| Onboarding.InitPartyThenRead | chaincode/go/asset_mngt/asset_owner_mngt.go:57-239 | a registered party reads back exactly as registered, in 00 |
| Onboarding.DetailNeedsApproval | chaincode/go/asset_mngt/asset_owner_mngt.go:158-188 | for a fresh registration with no identity record under the e-mail, identity documents are refused until the party is approved, and then accepted |
| Onboarding.RejectedEditReturnsToInit | chaincode/go/asset_mngt/asset_owner_mngt.go:542-562 | a rejected party that edits its login record is back in 00 "init with change" |
| Onboarding.RejectedDetailEditReturnsToInit | chaincode/go/asset_mngt/asset_owner_mngt.go:593-742 | an identity record the platform rejected, once edited, is back in 00 "init with change" without the platform signature |
| Onboarding.ChangeDetailIdempotent | chaincode/go/asset_mngt/asset_owner_mngt.go:687-742 | repeating an identity edit is a success that writes nothing |
| Onboarding.DeleteAliasDestroysIdentity | chaincode/go/asset_mngt/asset_owner_mngt.go:379-416 | as written: deleting the login "detail_x" while x has an identity record (and "detail_x" has none) answers not-found, yet commits x's identity record rewritten as a voided login record, which reads back as an identity with empty names, pictures and status and the comment "niled" |
| Onboarding.AliasedLoginAndIdentityExclude | chaincode/go/asset_mngt/asset_owner_mngt.go:83-188 | as written: while x has an identity record, registering the login "detail_x" is refused as existing; and once "detail_x" is registered, x's identity documents are refused |
| Onboarding.SeparatedLoginKeepsIdentities | chaincode/go/asset_mngt/asset_owner_mngt.go:62-482 | as intended, with separated namespaces: registering, reviewing or editing any login, and deleting any other party, leave every identity record as it was |
| Onboarding.LoginWriteKeepsIdentities | chaincode/go/asset_mngt/asset_owner_mngt.go:62-108 | with separated namespaces, a write to one login key leaves every identity record as it was |
| Lifecycle.DeadlineReached | chaincode/go/asset_mngt/asset_securitized_mngt.go:911-921 | the gate passes iff told to ignore it, or the stored due time parses and is not after now; an unparsable time and an early call are distinct errors |
| Lifecycle.InitAsset | chaincode/go/asset_mngt/asset_securitized_mngt.go:95-276 | registration needs valid terms, an approved owner with an approved identity record and a new name; the asset starts in 00 with percent 0 and no due times |
| Lifecycle.ChangeAssetStatus | chaincode/go/asset_mngt/asset_securitized_mngt.go:416-442 | only 01/02/03/99, written over any current status with comment and platform signature; an identical status and comment writes nothing; only this asset changes |
| Lifecycle.ApproveAsset | chaincode/go/asset_mngt/asset_securitized_mngt.go:324-337 | approval succeeds for any stored asset, whatever its status, and leaves it in 02 |
| Lifecycle.RejectAsset | chaincode/go/asset_mngt/asset_securitized_mngt.go:342-353 | rejection succeeds for any stored asset and leaves it in 03 |
| Lifecycle.DeleteAsset | chaincode/go/asset_mngt/asset_securitized_mngt.go:367-396 | a soft delete to 99; a voided asset is a success without a write; a missing asset is an error |
| Lifecycle.ChangeAsset | chaincode/go/asset_mngt/asset_securitized_mngt.go:563-640 | edits only in 00 or 03 and only by the recorded owner; no difference means no write; a rejected asset that changes returns to 00 "init with change" without platform signature |
| Lifecycle.StartUnderwrite | chaincode/go/asset_mngt/asset_securitized_mngt.go:720-743 | an asset already underwriting is refused; otherwise only 02 starts; the window closes underwrite-period days after now, repurchase is due repurchase-period days later, and percent restarts at 0 |
| Lifecycle.HaltUnderwrite | chaincode/go/asset_mngt/asset_securitized_mngt.go:786-800 | an asset already halted is a success without a write; otherwise only 10 halts, to 11 |
| Lifecycle.ResumeUnderwrite | chaincode/go/asset_mngt/asset_securitized_mngt.go:841-855 | an asset already underwriting is a success without a write; otherwise only 11 resumes, to 10 |
| Lifecycle.StopUnderwrite | chaincode/go/asset_mngt/asset_securitized_mngt.go:903-932 | only from 10 or 11 and past the due time unless overridden; the result is 13 iff percent is below the floor, else 12 (the floor itself succeeds); nothing but status, comment and signature changes |
| Lifecycle.Repurchase | chaincode/go/asset_mngt/asset_securitized_mngt.go:1231-1260 | an asset already repurchased is refused; otherwise only 21, past the repurchase due time unless overridden, moves to 22 |
| Lifecycle.ChangeAssetStatusIdempotent | chaincode/go/asset_mngt/asset_securitized_mngt.go:434-437 | repeating a review decision is a success without a write |
| Lifecycle.DeleteAssetIdempotent | chaincode/go/asset_mngt/asset_securitized_mngt.go:367-396 | deleting a second time writes nothing |
| Lifecycle.HaltIdempotent | chaincode/go/asset_mngt/asset_securitized_mngt.go:786-800 | halting a second time writes nothing, whatever signature it carries |
| Lifecycle.ResumeIdempotent | chaincode/go/asset_mngt/asset_securitized_mngt.go:841-855 | resuming a second time writes nothing |
| Lifecycle.HaltResumeRoundTrip | chaincode/go/asset_mngt/asset_securitized_mngt.go:786-855 | halting and resuming an underwriting asset restores it, apart from the platform signature |
| Lifecycle.StartTwiceRefused | chaincode/go/asset_mngt/asset_securitized_mngt.go:720-727 | a second start while underwriting is refused and writes nothing |
| Lifecycle.RepurchaseTwiceRefused | chaincode/go/asset_mngt/asset_securitized_mngt.go:1231-1238 | a second repurchase is refused and writes nothing |
| Lifecycle.StopWaitsForDueTime | chaincode/go/asset_mngt/asset_securitized_mngt.go:735-736 | without the override, a window opened at start can be stopped iff underwrite-period days have passed |
| Lifecycle.InitAssetThenRegisterRefused | chaincode/go/asset_mngt/asset_securitized_mngt.go:95-276 | a registered asset is stored as registered, and its name cannot be registered again |
| Lifecycle.StartNeedsApproval | chaincode/go/asset_mngt/asset_securitized_mngt.go:95-743 | a newly registered asset cannot start underwriting until approved, and can once approved |
| Lifecycle.ChangeAssetByOtherRefused | chaincode/go/asset_mngt/asset_securitized_mngt.go:563-640 | anyone other than the recorded owner is refused and nothing is written |
| Lifecycle.ChangeAssetIdempotent | chaincode/go/asset_mngt/asset_securitized_mngt.go:563-640 | repeating an edit is a success that writes nothing |
| Underwriting.Trunc | chaincode/go/asset_mngt/asset_securitized_mngt.go:1065 | Go's float-to-int conversion truncates toward zero |
| Underwriting.Wrap | chaincode/go/asset_mngt/asset_securitized_mngt.go:1064 | a Go `int` result: always in [-2^63, 2^63), equal to the exact value when that is in range, and congruent to it modulo 2^64 |
| Underwriting.WrapAdd | chaincode/go/asset_mngt/asset_securitized_mngt.go:1146-1160 | wrapping after every addition, as the count loop and the total at line 1111 do, gives the wrap of the exact total |
| Float64.Round | chaincode/go/asset_mngt/asset_securitized_mngt.go:1111-1112 | Go's float64 rounding to nearest, ties to even, stays within a relative error of 2^-53 of the exact result (so it is faithful: `Float64.RoundFaithful`) |
| Float64.QuotientTimesDivisor | chaincode/go/asset_mngt/asset_securitized_mngt.go:1064-1066 | for any faithful rounding, `float64(n) / float64(d) * float64(d)` lands strictly within one of n when abs(n) is at most 2^50, and on 0 exactly when n is 0 |
| Float64.TwentyNineHundredths | chaincode/go/asset_mngt/asset_securitized_mngt.go:1064-1066 | with Go's rounding, 29.0 / 100 * 100 is 8162774324609023 * 2^-48, below 29, so the read-back can fall short |
| Underwriting.Ratio | chaincode/go/asset_mngt/asset_securitized_mngt.go:1111-1112 | the cached percent is the ratio of the units to the parts, rounded: with a faithful rounding it is within 2^-53 relatively of the exact ratio |
| Underwriting.Admission | chaincode/go/asset_mngt/asset_securitized_mngt.go:966-1061 | a claim is admitted iff the institution and its identity record are approved, the asset is underwriting, the claim id is new and the due time parses and has not passed |
| Underwriting.Record | chaincode/go/asset_mngt/asset_securitized_mngt.go:1075-1121 | the claim is appended with its three index entries; the subscribed total grows by the claim's units; the cached percent becomes the rounded ratio of (earlier claims + this one), taken as a 64-bit `int`, to the parts, so the cache is consistent, with the current claim id |
| Underwriting.Underwrite | chaincode/go/asset_mngt/asset_securitized_mngt.go:947-1124 | as written: a unit count outside the Go `int` range is refused as bad arguments; otherwise succeeds iff admitted, the asset has parts, and the new units plus the cached percent times the parts, rounded and truncated, summed as a 64-bit `int` that wraps around, stay within the parts; an asset of zero parts that passes the guard aborts on the percent it cannot marshal; an error or abort writes nothing |
| Underwriting.UnderwriteChecked | chaincode/go/asset_mngt/asset_securitized_mngt.go:947-1124 | as intended: the same argument check, a positive unit count, an asset with parts, and the stored claims plus the new one compared with the parts without overflow, so success leaves the asset within its parts |
| Underwriting.UnderwriteCheckedKeepsSupply | chaincode/go/asset_mngt/asset_securitized_mngt.go:1064-1071 | the corrected operation preserves, for every asset, that its claims are positive and fit in its parts |
| Underwriting.CachedGuardReadBack | chaincode/go/asset_mngt/asset_securitized_mngt.go:1064-1071 | when an asset's cached percent is the rounded ratio of n units to its parts, the guard reads back n or n - 1 for n >= 0 (n or n + 1 for n <= 0) |
| Underwriting.UnderwriteOvershootsAtMostOne | chaincode/go/asset_mngt/asset_securitized_mngt.go:1064-1071 | while the cache is consistent, a successful as-written claim keeps it consistent, and it leaves more than one unit claimed beyond the parts only if the guard's sum of units and read-back lies outside the 64-bit `int` range and wraps |
| Underwriting.NonPositiveClaimAccepted | chaincode/go/asset_mngt/asset_securitized_mngt.go:958-961 | with any faithful rounding, every claim of zero or fewer units that `strconv.Atoi` accepts passes the as-written guard, and the corrected operation refuses it |
| Underwriting.OversubscribedByRounding | chaincode/go/asset_mngt/asset_securitized_mngt.go:1064-1071 | with Go's rounding, claims of 29 and then 72 units on 100 parts in one window both succeed, leaving 101 units claimed |
| Underwriting.CheckedRefusesRoundedClaim | chaincode/go/asset_mngt/asset_securitized_mngt.go:1064-1071 | the corrected operation refuses the claim of 72 as oversubscribed |
| Underwriting.OversubscribedAfterRestart | chaincode/go/asset_mngt/asset_securitized_mngt.go:1064-1071 | eight units, re-approval, restart and eight more units all succeed, leaving 16 units claimed against 10 parts |
| Underwriting.CheckedRefusesAfterRestart | chaincode/go/asset_mngt/asset_securitized_mngt.go:1064-1071 | the corrected operation refuses the second claim of that sequence as oversubscribed |
| Underwriting.OversubscribedByWrap | chaincode/go/asset_mngt/asset_securitized_mngt.go:958-1066 | with any faithful rounding, on 100 parts, claims of 2 and then 2^63 - 1 units both succeed because the guard's sum wraps to a negative number, leaving 2^63 + 1 units claimed |
| Underwriting.CheckedRefusesWrappedClaim | chaincode/go/asset_mngt/asset_securitized_mngt.go:1064-1066 | the corrected operation refuses the claim of 2^63 - 1 as oversubscribed |
| Decimal.ItoaRoundTrip | chaincode/go/asset_mngt/asset_security_share_mngt.go:157 | the decimal text of a unit number parses back to the number |
| Decimal.ItoaInjective | chaincode/go/asset_mngt/asset_security_share_mngt.go:157 | distinct numbers have distinct decimal texts |
| Split.RangesAt | chaincode/go/asset_mngt/asset_security_share_mngt.go:137-158 | claim i covers the units from 1 + the earlier claims' units to the units up to and including claim i |
| Split.SplitCovers | chaincode/go/asset_mngt/asset_security_share_mngt.go:137-213 | every unit from 1 to parts lies in a claim run or in the remainder |
| Split.RangesOrdered | chaincode/go/asset_mngt/asset_security_share_mngt.go:154-156 | with positive claims, each claim's run ends before any later claim's run starts |
| Split.SplitDisjoint | chaincode/go/asset_mngt/asset_security_share_mngt.go:137-213 | with positive claims, no unit lies in two runs |
| Split.SplitBounded | chaincode/go/asset_mngt/asset_security_share_mngt.go:137-213 | with positive claims that fit, every run lies within 1..parts |
| Split.SplitPartitions | chaincode/go/asset_mngt/asset_security_share_mngt.go:51 | positive claims that fit in the parts, plus the remainder, partition 1..parts |
| Split.NegativeClaimOverlaps | chaincode/go/asset_mngt/asset_security_share_mngt.go:137-158 | claims of 5, -3 and 5 units over 10 parts give runs 1-5, 6-2 and 3-7, so unit 4 lies in two runs |
| Split.RangeLabelRoundTrip | chaincode/go/asset_mngt/asset_security_share_mngt.go:157 | a "m-n" unit label parses back to its run |
| Split.UnitLabelRoundTrip | chaincode/go/asset_mngt/asset_security_share_mngt.go:191-194 | a single unit's label parses back to the one-unit run |
| Shares.ShareValueScales | chaincode/go/asset_mngt/asset_security_share_mngt.go:164 | a share's value is the asset value times its units over the parts |
| Shares.RemainderLabelsFixed | chaincode/go/asset_mngt/asset_security_share_mngt.go:190-201 | the corrected remainder label always parses back to the remainder's run |
| Shares.SingleUnitRemainderLost | chaincode/go/asset_mngt/asset_security_share_mngt.go:191-194 | as written, a one-unit remainder stores the label "" which names no unit |
| Shares.Layout | chaincode/go/asset_mngt/asset_security_share_mngt.go:137-227 | one share per claim over its run, status 00 and valued by its units, then a frozen share with no claim over the rest iff units remain; all held by the asset owner |
| Shares.Store | chaincode/go/asset_mngt/asset_security_share_mngt.go:274-307 | saving the shares stores, under each saved id, one of the saved shares carrying that id, and leaves every other stored share unchanged |
| Shares.StoreLastWins | chaincode/go/asset_mngt/asset_security_share_mngt.go:274-307 | of shares saved under the same id, the last one saved is the one stored |
| Shares.IndexAll | chaincode/go/asset_mngt/asset_security_share_mngt.go:286-304 | every issued share gets its asset-hash, asset-name and owner index entries |
| Shares.InitShares | chaincode/go/asset_mngt/asset_security_share_mngt.go:70-272 | splitting needs status 12 and no shares of the asset yet; it saves and indexes the shares laid out from the asset's claims, taken in the query's order (any order of the stored claims), stamped with the asset hash, and the asset moves to 20 with that hash |
| Shares.TotalValueAppend | chaincode/go/asset_mngt/asset_security_share_mngt.go:164 | the value of two lists of shares is the sum of their values |
| Shares.LayoutValueIsAssetValue | chaincode/go/asset_mngt/asset_security_share_mngt.go:164-206 | when the claims fit in the parts, the laid-out shares are together worth the asset's value |
| Shares.IssuedValueIsAssetValue | chaincode/go/asset_mngt/asset_security_share_mngt.go:164-206 | whatever order the query returns the claims in, the shares issued for an asset whose claims fit are together worth its value |
| Shares.IssuedSharesPartitionUnits | chaincode/go/asset_mngt/asset_security_share_mngt.go:51 | whatever order the query returns the claims in, when every claim is positive and the claims fit, the issued shares' runs partition 1..parts |
| Shares.ScannedClaimPositive | chaincode/go/asset_mngt/asset_security_share_mngt.go:51 | a claim the query returns is one of the asset's stored claims, so it is positive when every stored claim is |
| State.UnitsSumPermutation | chaincode/go/asset_mngt/asset_security_share_mngt.go:164-206 | the units claimed in total do not depend on the order the claims are read in |
| Shares.TransferShares | chaincode/go/asset_mngt/asset_security_share_mngt.go:364-411 | the loop rewrites eligible shares in query order; it completes iff no eligible share's claim is missing, and otherwise stops at the first such share in query order, with exactly the shares before it rewritten and all others as they were |
| Shares.Enable | chaincode/go/asset_mngt/asset_security_share_mngt.go:336-431 | only status 20 enables; each claimed share in 00 becomes 01 held by its claim's institution, others unchanged, index untouched, asset to 21; a missing claim is a not-found error that commits exactly the shares before the first blocked one in query order rewritten, all others as they were; a second call fails as 21 is not 20 |
| Shares.TransferKeepsUnits | chaincode/go/asset_mngt/asset_security_share_mngt.go:391-411 | a transfer keeps units, value and claim, and hands a share only to the institution named in its own claim |
| Payment.LegPresentIffGiven | chaincode/go/asset_mngt/payment_txn_booking_mngt.go:155 | a consistent leg built from its five positions is present in the booking exactly when its currency is given |
| Payment.InitBooking | chaincode/go/asset_mngt/payment_txn_booking_mngt.go:57-181 | a booking needs 24 arguments, an asset hash and id, consistent leg groups, a debit and a credit, parsable amounts and a new id; it is stored under its id and indexed by asset hash and share id; an error writes nothing |
| Payment.BookingHasBothSides | chaincode/go/asset_mngt/payment_txn_booking_mngt.go:73-90 | a stored booking has a complete debit leg and a complete credit leg, and every leg is complete or empty with amount 0 |
| Payment.BookingOnce | chaincode/go/asset_mngt/payment_txn_booking_mngt.go:146-152 | booking the same payment id again is refused and writes nothing |
| ParamsFilter.CheckParamsNull | chaincode/go/app/utils/filter/params_filter.go:11-18 | the null check fails iff some argument is "" or " " |
| ParamsFilter.CheckRequired | chaincode/go/app/utils/filter/params_filter.go:30-37 | fails iff some listed position holds "", reporting the first such position in list order; every listed position must be in range |
| ParamsFilter.NullCheckImpliesRequired | chaincode/go/app/utils/filter/params_filter.go:11-37 | arguments that pass the null check pass the required check on every position |
| ParamsFilter.SpaceIsRequiredButNull | chaincode/go/app/utils/filter/params_filter.go:11-37 | a lone space passes the required check but fails the null check |
| AppStore.CodeNumber | chaincode/go/app/utils/response/iht_response.go:12-20 | every error code differs from the success code 200 |
| AppStore.CodeNumberInjective | chaincode/go/app/utils/response/iht_response.go:12-20 | distinct error codes are reported with distinct numbers |
| AssetManage.SubscribeRatio | chaincode/go/app/controllers/assetManage/assist.go:22-24 | the ratio times the split count is the subscribed count; a zero split count gives +Inf, -Inf or NaN by the sign of the subscribed count |
| AssetManage.SubscribeStatus | chaincode/go/app/controllers/assetManage/assist.go:27-40 | before the start 11; from start to end 12; after the end 13 iff the ratio is below the least ratio, else 14; "any" (10) never |
| AssetManage.StatusProgresses | chaincode/go/app/controllers/assetManage/assist.go:27-40 | as days pass, a subscription never returns to an earlier stage |
| AssetManage.ClosedOutcomeFixed | chaincode/go/app/controllers/assetManage/assist.go:31-36 | after the end date, the outcome no longer depends on the day |
| AssetManage.FailedMeansUndersubscribed | chaincode/go/app/controllers/assetManage/assist.go:31-36 | with a positive split count, a closed subscription failed iff fewer units were subscribed than the least ratio of the split count |
| AssetManage.AssetKey | chaincode/go/app/controllers/assetManage/assist.go:58-60 | the key is "AssetData_IHT_" followed by the asset id |
| AssetManage.AssetKeyInjective | chaincode/go/app/controllers/assetManage/assist.go:58-60 | distinct asset ids have distinct keys |
| AssetManage.CreateAndCheckKey | chaincode/go/app/controllers/assetManage/assist.go:43-55 | refused iff the key holds data; otherwise only the document tag and the "available" profile are set |
| AssetManage.Insert | chaincode/go/app/controllers/assetManage/asset_manage.go:118-145 | an occupied key is a database error without a write; otherwise the particulars are stored tagged, available and stamped, indexed by owner, with other assets unchanged |
| AssetManage.InsertTwiceRefused | chaincode/go/app/controllers/assetManage/asset_manage.go:118-145 | inserting the same asset again is refused |
| AssetManage.Delete | chaincode/go/app/controllers/assetManage/asset_manage.go:148-157 | the particulars are gone afterwards, other assets stay, and a missing asset is no error |
| AssetManage.InsertAfterDelete | chaincode/go/app/controllers/assetManage/asset_manage.go:118-157 | after a delete the same asset can be inserted again |
| AssetManage.Change | chaincode/go/app/controllers/assetManage/asset_manage.go:160-191 | a missing asset is refused; otherwise the update replaces the particulars, reset to consensus state 0 and stamped with the update time |
| AssetManage.GetAssetSingle | chaincode/go/app/controllers/assetManage/asset_manage.go:293-331 | empty data is an error; the profile copies the listed fields and reports the computed subscription status, never "any" |
| AssetManage.InsertThenGetSingle | chaincode/go/app/controllers/assetManage/asset_manage.go:118-145 | reading an asset back after its insert gives the profile of the inserted particulars, tagged, available and stamped, with the subscription status they imply on the day |
| AssetManage.ListCondition | chaincode/go/app/controllers/assetManage/asset_manage.go:231-239 | the selector always fixes the document tag, the asset type unless "any type", and the owner unless empty |
| AssetManage.ListConditionSelects | chaincode/go/app/controllers/assetManage/asset_manage.go:231-239 | a document matches iff it carries the asset tag, has the requested type (or any was asked) and the requested owner (or none was given) |
| AssetManage.ChangedUntaggedIsUnlisted | chaincode/go/app/controllers/assetManage/asset_manage.go:170-180 | an update sent without the document tag leaves the asset where no list query finds it |
| AssetManage.ReadListAsWritten | chaincode/go/app/controllers/assetManage/asset_manage.go:262-277 | as written: an empty row fails the query, and otherwise every row is listed, in order, whatever status was asked for |
| AssetManage.ReadList | chaincode/go/app/controllers/assetManage/asset_manage.go:262-277 | as intended: exactly the rows whose computed status the request asks for (or all, for "any") are listed |
| AssetManage.ReadListFiltersWritten | chaincode/go/app/controllers/assetManage/asset_manage.go:262-277 | the intended list is the written list with the unwanted rows taken out, in order; both fail on the same rows, and with "any" asked they are equal |
| AssetManage.StatusFilterIgnored | chaincode/go/app/controllers/assetManage/asset_manage.go:262-277 | asking for not-yet-started assets returns an open one as written, and nothing as intended |
| AssetProcess.ProcessKey | chaincode/go/app/controllers/assetManage/asset_process.go:186-188 | the key is "AssetProcess_IHT_" followed by the asset id |
| AssetProcess.ProcessKeyInjective | chaincode/go/app/controllers/assetManage/asset_process.go:186-188 | distinct asset ids have distinct progress keys |
| AssetProcess.ProcessKeyIsNotAssetKey | chaincode/go/app/controllers/assetManage/asset_process.go:172-173 | a progress key never coincides with an asset particulars key |
| AssetProcess.CreateAndCheckByKey | chaincode/go/app/controllers/assetManage/asset_process.go:171-183 | refused iff the key holds data; otherwise only the document tag and the "available" profile are set |
| AssetProcess.Insert | chaincode/go/app/controllers/assetManage/asset_process.go:32-53 | an occupied key is a database error without a write; otherwise the record is stored tagged, available and stamped, with no index entry |
| AssetProcess.Change | chaincode/go/app/controllers/assetManage/asset_process.go:69-98 | a missing record is refused; otherwise the update replaces it, stamped with the update time |
| AssetProcess.Delete | chaincode/go/app/controllers/assetManage/asset_process.go:101-110 | the record is gone afterwards, others stay, and a missing record is no error |
| AssetProcess.ChangeNeedsInsert | chaincode/go/app/controllers/assetManage/asset_process.go:32-98 | a change before any insert is refused, and after the insert it succeeds |
| AssetProcess.ListCondition | chaincode/go/app/controllers/assetManage/asset_process.go:136-143 | the selector holds the asset id and the progress status, each only when given |
| AssetProcess.ListConditionSelects | chaincode/go/app/controllers/assetManage/asset_process.go:136-143 | the selector has no document tag: a progress record matches iff it has the given asset id and status; the particulars of the requested asset (of any asset, without an id) match whenever no status is given; a user or an index entry matches only the empty request |
| AssetProcess.ListByMeans | chaincode/go/app/controllers/assetManage/asset_process.go:144-167 | the list fails with a database error iff some selected document does not unmarshal into a progress record; otherwise it holds each selected document's record, in the database's order |
| AssetProcess.ReadListFailsOnParticulars | chaincode/go/app/controllers/assetManage/asset_process.go:136-159 | as written: with no status asked, stored particulars of the requested asset (of any asset, without an id) make the list fail |
| AssetProcess.EmptyRequestFailsOnIndexEntry | chaincode/go/app/controllers/assetManage/asset_process.go:136-159 | as written: an empty request also selects the stored index entries, whose 0x00 value does not unmarshal, so the list fails |
| AssetProcess.TaggedConditionSelects | chaincode/go/app/controllers/assetManage/asset_process.go:136-143 | with the progress tag added, the selector finds exactly the tagged progress records with the given asset id and status |
| AssetProcess.ReadListTaggedIsProgress | chaincode/go/app/controllers/assetManage/asset_process.go:127-167 | as intended: the tagged list never fails and holds exactly the requested progress records, in the database's order |
| DemoUser.UserKey | chaincode/go/app/controllers/demo/demo_user.go:124 | a user is stored under "userInfo_" followed by the e-mail |
| DemoUser.CheckThree | chaincode/go/app/controllers/demo/demo_user.go:37-44 | passes iff there are three arguments, none empty |
| DemoUser.CheckOne | chaincode/go/app/controllers/demo/demo_user.go:112-118 | passes iff there is one non-empty argument |
| DemoUser.Insert | chaincode/go/app/controllers/demo/demo_user.go:35-84 | bad arguments and an existing e-mail are refused without a write; otherwise the user is stored in 00 and indexed |
| DemoUser.Read | chaincode/go/app/controllers/demo/demo_user.go:89-105 | a stored user is returned; a missing one is an error, reported with the data-exists code |
| DemoUser.Voided | chaincode/go/app/controllers/demo/demo_user.go:137-151 | the user ends in 99 with nothing else changed, and a user already in 99 is not written |
| DemoUser.DeleteAsWritten | chaincode/go/app/controllers/demo/demo_user.go:110-154 | as written: a missing user aborts the transaction; otherwise as the intended delete |
| DemoUser.DeleteMissingPanics | chaincode/go/app/controllers/demo/demo_user.go:127-128 | deleting an unknown user aborts instead of answering |
| DemoUser.Delete | chaincode/go/app/controllers/demo/demo_user.go:110-154 | as intended: an unknown user is answered "data does not exist"; a known one ends in 99 |
| DemoUser.DeleteAgreesWhereDefined | chaincode/go/app/controllers/demo/demo_user.go:110-154 | wherever the written delete answers, the intended one answers the same |
| DemoUser.DeleteIdempotent | chaincode/go/app/controllers/demo/demo_user.go:137-151 | a second delete writes nothing |
| DemoUser.Change | chaincode/go/app/controllers/demo/demo_user.go:159-217 | an unknown user is refused; nickname and password hash are replaced, nothing is written without a difference, and the status is never touched |
| DemoUser.ChangeIdempotent | chaincode/go/app/controllers/demo/demo_user.go:188-215 | repeating a change writes nothing more |
| DemoUser.InsertThenDelete | chaincode/go/app/controllers/demo/demo_user.go:35-154 | a user inserted then deleted is kept in 99 with its nickname and password hash |
| DemoUser.InsertThenRead | chaincode/go/app/controllers/demo/demo_user.go:35-105 | a user read back after registration is the registered user, in 00 |

## Left out

- Transport and routing: the `Invoke` dispatch in `asset_mngt.go`, the function map of `app.go` and the reflection helper. They only route calls.
- The Fabric shim: state reads and writes, rich queries, history and composite keys. It is replaced by the world value and an explicit composite-key encoding.
- Query iterators: iteration order is a parameter (`scan` in `Shares.Enable`, `rows` in `Shares.InitShares`, the row sequence in `AssetManage.ReadList`, the documents in `AssetProcess.ReadList`), because the database chooses it.
- SHA-256 and Go's `%.2f`, `%.6f` and RFC3339 formatting are parameters (`Shares.Formats`), because they are library code.
- Clocks: `time.Now`, time zones and sub-second precision. Times are integer seconds, the application's "today" is a yyyymmdd integer, and timestamps are strings passed in.
- Argument decoding with `strconv` and `encoding/json`: lifecycle and application operations take typed arguments, and an undecodable document is `None`. The payment amount parser is a parameter.
- IEEE floating point: money and the share split are `real`, with no rounding. `AssetManage.SubscribeRatio` gives the infinities or NaN of a zero split count explicitly; `Shares.ShareValue` gives 0.0 for zero parts. The underwriting percentage and its read-back are rounded as float64 (`Float64`), with an unbounded exponent, so overflow and subnormal numbers do not occur.
- Failures of the peer itself (`shim.Error` paths from storage and iterator errors): a model of the ledger cannot fail. Marshalling failures are not of that kind: `json.Marshal` refuses NaN and the infinities deterministically, and `Underwriting.Underwrite` models the one it meets (the `Aborted` outcome).
- The `docType` field of the onboarding records is not modelled. When one kind of record is rewritten over the other under a shared key, Go keeps the docType of the record it read.
- Composite-key validation errors for attributes that are not valid UTF-8 or contain NUL: invalid components are not rejected, and index entries are built from any attributes, so an operation the source fails on such an attribute succeeds here. `Ledger.CompositeKey` returns `None` for them, and the key round trip is stated for the keys it builds.
- Signature checks: the source leaves them as TODOs and only stores the signatures.
- Logging and the test files.
- Read and query operations that only fetch and serialise are modelled only through `Ledger.QueryResultJson`, `Ledger.HistoryJson` and `Onboarding.ReadParty`: readAsset*, query*ByStatus, getHistoryFor*, readUnderwrote, queryUnderwrotes*, queryAssetSecurityShares*, readPaymentTxnBooking, queryBookedPaymentTxns*, ReadDesc, TraceHistory, the process `Read` and `History` bodies, and the demo `QueryWithStatus` and `QueryHistory`.
- Status index entries are written when a record is created and never updated on a status change. The model keeps this: no operation other than a creation touches `index`.
- The `Limit` field of a list request: `ReadList` never reads it, so only `CheckParamsDefault` models it.
- `assets/asset.go` and `assets/assetSide.go` are not part of this model: their protobuf types are not available.
- Lifecycle.InitAsset: the number of parts is taken as given, as in the source, so zero parts is reachable; underwriting such an asset aborts (`Underwriting.Underwrite`).
- Shares.InitShares: on an asset of zero parts with a stored claim, a share value is a float64 division by zero that `json.Marshal` refuses, so the source aborts; here it succeeds with share value 0.0. The model's own operations cannot store a claim on such an asset, since the claim aborts.
- AssetManage.SubscribeRatio: it is exact, whereas the source rounds to single precision, so a ratio within float32 rounding of the least ratio may classify differently.
- Underwriting.Ratio: a zero divisor yields 0.0 rather than the IEEE NaN or infinity of the source (the operations never store it: they abort first), and `float64(n)` of a wrapped total is taken exact, where Go rounds it once the total exceeds 2^53 in magnitude.
- Underwriting.CachedGuardReadBack: it is stated for subscribed totals up to 2^50 in magnitude. Unit counts above 2^53 are not exactly representable in float64, and `float64(n)` is taken exact here.
- Underwriting.Underwrite: a read-back `int(percent * float64(parts))` outside the 64-bit range, where Go leaves the conversion's result to the implementation, is taken as the exact truncation.
- Split.RangesAt: the runs' bounds are unbounded integers, whereas the running sums in the split are Go `int`s that wrap once the claims of an asset total more than 2^63 - 1 units, which only the as-written guard lets happen (`Underwriting.OversubscribedByWrap`).
- AssetProcess.ListConditionSelects: that the rich query hands the index entries to the list, as it does any other stored value, is an assumption about the database rather than something the code states.

## Findings

| source | as written | input that shows it | evidently intended | confidence | as-written member | corrected member |
|---|---|---|---|---|---|---|
| chaincode/go/asset_mngt/asset_securitized_mngt.go:1064-1071 | the oversubscription guard uses the percent cached on the asset, which `startUnderwrite` resets to 0, while approval accepts an asset in any status | 10 parts: claim 8, approve again, start again, claim 8 — both claims succeed, 16 units against 10 parts | check the stored claims of the asset plus the new one against the parts | high, not executed | Underwriting.OversubscribedAfterRestart | Underwriting.CheckedRefusesAfterRestart |
| chaincode/go/app/controllers/assetManage/asset_process.go:136-159 | the progress list selector holds only the asset id and the status, with no document tag | the particulars of asset "A" and its progress record are stored; listing the progress of "A" also selects the particulars, whose qualification file does not unmarshal into a list, and the list answers database error 9970 | restrict the selector to progress records by their document tag, as the asset list selector does | high, not executed | AssetProcess.ReadListFailsOnParticulars | AssetProcess.ReadListTaggedIsProgress |
| chaincode/go/asset_mngt/asset_securitized_mngt.go:1064-1066 | the guard reads the subscribed units back as `int(percent * float64(parts))` from the float64 percent `float64(count) / float64(parts)`, and the product can round just below the count, which truncation turns into one unit fewer | 100 parts, one window: claim 29 (the read-back is 28.999999999999996, so 28), then claim 72 — both succeed, 101 units against 100 parts | compare the integer sum of the stored claims plus the new one with the parts | high, not executed | Underwriting.OversubscribedByRounding | Underwriting.CheckedRefusesRoundedClaim |
| chaincode/go/asset_mngt/asset_securitized_mngt.go:1064-1066 | the guard adds the new units to the read-back as a 64-bit `int`, which wraps around, and `strconv.Atoi` accepts any 64-bit count | 100 parts, one window: claim 2 units, then claim 9223372036854775807 — the sum wraps to a negative number, both claims succeed, and 2^63 + 1 units are claimed against 100 parts | compare without overflow, for instance `units > parts - count` with the stored count | high, not executed | Underwriting.OversubscribedByWrap | Underwriting.CheckedRefusesWrappedClaim |
| chaincode/go/asset_mngt/asset_securitized_mngt.go:958-961 | the claimed units are not required to be positive | claims of 5, -3 and 5 units on 10 parts are accepted, and the split gives runs 1-5, 6-2 and 3-7, so unit 4 is in two shares | refuse a claim of fewer than one unit | high, not executed | Split.NegativeClaimOverlaps | Shares.IssuedSharesPartitionUnits |
| chaincode/go/asset_mngt/asset_security_share_mngt.go:191-194 | a remainder of exactly one unit stores the unit labels [""] while its id hashes the unit number | 10 parts, claims totalling 9: the frozen share of unit 10 stores [""] | store the unit number, "10" | high, not executed | Shares.SingleUnitRemainderLost | Shares.RemainderLabelsFixed |
| chaincode/go/app/controllers/demo/demo_user.go:127-128 | deleting an unknown user formats a nil error, which panics | Delete with the e-mail of no stored user | answer "data does not exist" | high, not executed | DemoUser.DeleteMissingPanics | DemoUser.Delete |
| chaincode/go/asset_mngt/asset_owner_mngt.go:15-18 | the login namespace `asset_owner_` is a prefix of the identity namespace `asset_owner_detail_` (and `fininst_` of `fininst_detail_`), so the login record of "detail_bob" and the identity record of "bob" share a ledger key | bob has an identity record and no party "detail_bob" exists: deleting the login "detail_bob" answers not-found but commits bob's identity record overwritten by a voided login record | namespaces neither of which is a prefix of the other, for instance `asset_owner_login_` | high, not executed | Onboarding.DeleteAliasDestroysIdentity | Onboarding.SeparatedLoginKeepsIdentities |
| chaincode/go/app/controllers/assetManage/asset_manage.go:262-277 | the status filter keeps a row when its computed status is not "any", which is always | a request for status 11 (not started) on 20180601 lists an asset open from 20180101 to 20181231 (status 12) | keep a row when "any" was asked or its status equals the one asked for | high, not executed | AssetManage.StatusFilterIgnored | AssetManage.ReadListFiltersWritten |

=== FILE: app_store.dfy ===
/**
 The application chaincode's documents and world state: asset particulars
 under `AssetData_IHT_<id>`, asset progress records under
 `AssetProcess_IHT_<id>`, demo users under `userInfo_<email>`, and the
 composite index entries. Every reply is a successful peer response whose
 payload carries a numeric code, so the model pairs an answer with the
 world the transaction leaves.
 */
module AppStore {
  import opened Ledger

  /** The error codes of the application's response envelope. */
  datatype Code = Arguments | DataExist | DataNotExisted | DB | Normal

  /** The number each code is reported with (200 is success). */
  function CodeNumber(c: Code): (n: int)
    ensures n != 200
  {
    match c
    case Arguments => 2000
    case DataExist => 2010
    case DataNotExisted => 2020
    case DB => 9970
    case Normal => 9980
  }

  /** Distinct codes are reported with distinct numbers, so a client can tell every error apart. */
  lemma CodeNumberInjective(c1: Code, c2: Code)
    requires CodeNumber(c1) == CodeNumber(c2)
    ensures c1 == c2
  {
  }

  datatype Answer = Success | Failure(code: Code)

  /** A stored file reference: where it lives and its content hash. */
  datatype FileRef = FileRef(path: string, hash: string)

  /** The state block every application document carries. */
  datatype BlockBase = BlockBase(docTag: string, dbType: int, dbProfile: string, createTime: string, updateTime: string)

  datatype Member = Member(id: string, name: string, duty: string, photo: FileRef, profile: string)

  /** An asset's full particulars as the asset-manage controller stores them. */
  datatype Particulars = Particulars(
    base: BlockBase,
    ownerId: string,
    ownerName: string,
    assetType: int,
    assetId: string,
    assetName: string,
    assetPhoto: seq<FileRef>,
    financingAmount: int,
    splitNum: int,
    memberDiscount: real,
    airdropBounty: real,
    subscribeNum: int,
    startDate: int,
    endDate: int,
    assetStatus: int,
    leastSubscribe: real,
    otherDiscount: string,
    assetDesc: string,
    qualifiedFile: FileRef,
    whitePaper: FileRef,
    team: seq<Member>)

  /** One progress record of an asset. */
  datatype Process = Process(base: BlockBase, assetId: string, processTime: string, processStatus: string, qualifiedFiles: seq<FileRef>)

  /** A demo user; status "00" is live and "99" voided. */
  datatype User = User(docType: string, email: string, nickname: string, pwdHash: string, status: string)

  datatype AppWorld = AppWorld(
    assetData: map<string, Particulars>,
    processes: map<string, Process>,
    users: map<string, User>,
    index: set<IndexEntry>)

  datatype AppReply = AppReply(answer: Answer, world: AppWorld)

  /** An error detected before the first write: nothing changes. */
  function Refuse(c: Code, w: AppWorld): (r: AppReply)
    ensures r.answer.Failure? && r.answer.code == c && r.world == w
  {
    AppReply(Failure(c), w)
  }

  /** Every key other than `k` maps to the same document in both maps. */
  predicate AgreeBeyond<V(==)>(m: map<string, V>, m': map<string, V>, k: string)
  {
    && (forall j :: j in m && j != k ==> j in m' && m'[j] == m[j])
    && (forall j :: j in m' && j != k ==> j in m)
  }

  // Shared constants of the application controllers

  const StCommInit: string := "00"
  const StCommNiled: string := "99"
  const StConsensusInit: int := 0
  /** The description of consensus state 0 ("data initialised"). */
  const ConsensusInitDesc: string := "数据初始化"
  /** The profile a freshly created document gets ("available"). */
  const Available: string := "可用"
  const KeyAssetDataTag: string := "AssetData_"
  const KeyOrganization: string := "IHT_"
}

=== FILE: asset_manage.dfy ===
/**
 The asset-manage controller of the application chaincode and its helpers:
 the list request default, the subscription ratio and status classifier,
 document key derivation, insert/change/delete of asset particulars, the
 profile projection, and the list query's selector and status filter.

 `ReadListAsWritten` keeps the filter as the code writes it, which keeps
 every row; `ReadList` is the filter the request's status field asks for.
 */
module AssetManage {
  import opened Results
  import opened Ledger
  import opened AppStore

  // ---------------------------------------------------------------------
  // Constants
  // ---------------------------------------------------------------------

  const DefaultLimit: int := 50

  /** Estate types; 0 means "any type" in a list request. */
  const EstateAll: int := 0
  const EstateVilla: int := 1
  const EstateNow: int := 2
  const EstateGround: int := 3
  const EstateFuture: int := 4

  /** Subscription statuses; 10 means "any status" in a list request. */
  const StatusAll: int := 10
  const StatusBefore: int := 11
  const StatusIng: int := 12
  const StatusFailed: int := 13
  const StatusSucceed: int := 14

  /** The document tag every asset particulars record carries. */
  const DocTag: string := KeyAssetDataTag + KeyOrganization

  // ---------------------------------------------------------------------
  // Request defaults
  // ---------------------------------------------------------------------

  datatype Request = Request(limit: int, assetType: int, assetStatus: int, ownerId: string)

  /** `checkParamsDefault`: a zero limit becomes 50, any other is kept. */
  function CheckParamsDefault(limit: int): (l: int)
    ensures l != 0
    ensures limit != 0 ==> l == limit
    ensures limit == 0 ==> l == DefaultLimit
  {
    if limit == 0 then DefaultLimit else limit
  }

  // ---------------------------------------------------------------------
  // Subscription ratio and status
  // ---------------------------------------------------------------------

  /**
   The value of a single-precision division, rounding aside: a finite
   quotient, or the infinity or NaN a zero divisor produces.
   */
  datatype Quotient = Finite(q: real) | PlusInf | MinusInf | NotANumber

  /** IEEE `<` between a quotient and a finite bound: NaN compares false. */
  predicate Below(x: Quotient, bound: real)
  {
    match x
    case Finite(q) => q < bound
    case PlusInf => false
    case MinusInf => true
    case NotANumber => false
  }

  /** `subscribeRatio`: subscribed units over split units. */
  function SubscribeRatio(p: Particulars): (r: Quotient)
    ensures p.splitNum != 0 ==> r.Finite? && r.q * p.splitNum as real == p.subscribeNum as real
    ensures p.splitNum == 0 && p.subscribeNum > 0 ==> r == PlusInf
    ensures p.splitNum == 0 && p.subscribeNum < 0 ==> r == MinusInf
    ensures p.splitNum == 0 && p.subscribeNum == 0 ==> r == NotANumber
  {
    if p.splitNum != 0 then Finite(p.subscribeNum as real / p.splitNum as real)
    else if p.subscribeNum > 0 then PlusInf
    else if p.subscribeNum < 0 then MinusInf
    else NotANumber
  }

  /**
   `subscribeStatus` for the date `today` (yyyymmdd as an integer): before
   the start date, open through the end date, then failed or succeeded by
   the least subscription ratio. "Any status" is never produced.
   */
  function SubscribeStatus(p: Particulars, today: int): (s: int)
    ensures s != StatusAll
    ensures s == StatusBefore <==> today < p.startDate
    ensures s == StatusIng <==> p.startDate <= today <= p.endDate
    ensures s == StatusFailed <==> p.startDate <= today && p.endDate < today && Below(SubscribeRatio(p), p.leastSubscribe)
    ensures s == StatusSucceed <==> p.startDate <= today && p.endDate < today && !Below(SubscribeRatio(p), p.leastSubscribe)
  {
    if today < p.startDate then StatusBefore
    else if p.endDate < today then
      if Below(SubscribeRatio(p), p.leastSubscribe) then StatusFailed else StatusSucceed
    else StatusIng
  }

  /** How far a subscription has progressed: not started, open, closed. */
  function Stage(s: int): nat
  {
    if s == StatusBefore then 0 else if s == StatusIng then 1 else 2
  }

  /** As days pass a subscription never moves back to an earlier stage. */
  lemma StatusProgresses(p: Particulars, t1: int, t2: int)
    requires t1 <= t2
    ensures Stage(SubscribeStatus(p, t1)) <= Stage(SubscribeStatus(p, t2))
  {
  }

  /** Once closed, the outcome no longer depends on the day. */
  lemma ClosedOutcomeFixed(p: Particulars, t1: int, t2: int)
    requires p.startDate <= t1 && p.endDate < t1
    requires p.startDate <= t2 && p.endDate < t2
    ensures SubscribeStatus(p, t1) == SubscribeStatus(p, t2)
  {
  }

  /**
   With a positive split count, a closed subscription failed exactly when
   fewer units were subscribed than the least ratio of the split count.
   */
  lemma FailedMeansUndersubscribed(p: Particulars, today: int)
    requires p.splitNum > 0
    requires p.startDate <= today && p.endDate < today
    ensures SubscribeStatus(p, today) == StatusFailed
            <==> (p.subscribeNum as real) < p.leastSubscribe * p.splitNum as real
  {
    var d := p.splitNum as real;
    var q := SubscribeRatio(p).q;
    assert q * d == p.subscribeNum as real;
    if q < p.leastSubscribe {
      assert q * d < p.leastSubscribe * d;
    } else {
      assert q * d >= p.leastSubscribe * d;
    }
  }

  // ---------------------------------------------------------------------
  // Keys and insertion
  // ---------------------------------------------------------------------

  /** `createKeyByID`: the document key of an asset's particulars. */
  function AssetKey(assetId: string): (k: string)
    ensures |k| == |DocTag| + |assetId| && k[..|DocTag|] == DocTag && k[|DocTag|..] == assetId
  {
    Ledger.DocKey(DocTag, assetId)
  }

  lemma AssetKeyInjective(a: string, b: string)
    requires AssetKey(a) == AssetKey(b)
    ensures a == b
  {
    assert a == AssetKey(a)[|DocTag|..];
  }

  /**
   `createAndCheckKey`: refuses an asset whose key already holds data;
   otherwise tags the particulars with the asset document tag and marks
   them available.
   */
  function CreateAndCheckKey(w: AppWorld, p: Particulars): (r: Option<(string, Particulars)>)
    ensures r.Some? <==> AssetKey(p.assetId) !in w.assetData
    ensures r.Some? ==> r.value.0 == AssetKey(p.assetId)
    ensures r.Some? ==> r.value.1.base.docTag == DocTag && r.value.1.base.dbProfile == Available
    ensures r.Some? ==> r.value.1 == p.(base := r.value.1.base)
    ensures r.Some? ==> r.value.1.base.(docTag := p.base.docTag, dbProfile := p.base.dbProfile) == p.base
  {
    var key := AssetKey(p.assetId);
    if key in w.assetData then None
    else Some((key, p.(base := p.base.(docTag := DocTag, dbProfile := Available))))
  }

  /** The index entry an inserted asset gets: (asset id, owner id). */
  function OwnerEntry(p: Particulars): (e: IndexEntry)
    ensures e.objectType == DocTag && e.attrs == [p.assetId, p.ownerId]
  {
    IndexOf(KeyAssetDataTag, KeyOrganization, [p.assetId, p.ownerId])
  }

  /**
   `Insert`: stores new particulars under the asset key, stamped with the
   creation time, and indexes them by (asset id, owner id); an existing key
   is a database error and nothing is written.
   */
  function Insert(w: AppWorld, p: Particulars, now: string): (r: AppReply)
    ensures r.answer.Success? <==> AssetKey(p.assetId) !in w.assetData
    ensures r.answer.Failure? ==> r.answer.code == DB && r.world == w
    ensures r.answer.Success? ==>
              && AssetKey(p.assetId) in r.world.assetData
              && var s := r.world.assetData[AssetKey(p.assetId)];
              && s.base == p.base.(docTag := DocTag, dbProfile := Available, createTime := now)
              && s.(base := p.base) == p
    ensures r.answer.Success? ==> r.world.index == w.index + {OwnerEntry(p)}
    ensures r.answer.Success? ==> AgreeBeyond(w.assetData, r.world.assetData, AssetKey(p.assetId))
    ensures r.world.processes == w.processes && r.world.users == w.users
  {
    match CreateAndCheckKey(w, p)
    case None => Refuse(DB, w)
    case Some((key, tagged)) =>
      var stored := tagged.(base := tagged.base.(createTime := now));
      AppReply(Success, w.(assetData := w.assetData[key := stored], index := w.index + {OwnerEntry(p)}))
  }

  /** Inserting the same asset twice: the second insert is refused. */
  lemma InsertTwiceRefused(w: AppWorld, p: Particulars, now: string, later: string)
    requires Insert(w, p, now).answer.Success?
    ensures Insert(Insert(w, p, now).world, p, later) == Refuse(DB, Insert(w, p, now).world)
  {
  }

  /** `Delete`: removes the asset's particulars; deleting a missing asset succeeds. */
  function Delete(w: AppWorld, assetId: string): (r: AppReply)
    ensures r.answer.Success?
    ensures AssetKey(assetId) !in r.world.assetData
    ensures AgreeBeyond(w.assetData, r.world.assetData, AssetKey(assetId))
    ensures r.world.processes == w.processes && r.world.users == w.users && r.world.index == w.index
  {
    AppReply(Success, w.(assetData := w.assetData - {AssetKey(assetId)}))
  }

  /** After a delete the same asset can be inserted again. */
  lemma InsertAfterDelete(w: AppWorld, p: Particulars, now: string)
    ensures Insert(Delete(w, p.assetId).world, p, now).answer.Success?
  {
  }

  /**
   `Change`: replaces existing particulars wholesale with the update, reset
   to consensus state 0 and stamped with the update time; a missing asset
   is refused.
   */
  function Change(w: AppWorld, update: Particulars, now: string): (r: AppReply)
    ensures r.answer.Success? <==> AssetKey(update.assetId) in w.assetData
    ensures r.answer.Failure? ==> r.answer.code == Normal && r.world == w
    ensures r.answer.Success? ==>
              && AssetKey(update.assetId) in r.world.assetData
              && var s := r.world.assetData[AssetKey(update.assetId)];
              && s.base.dbType == StConsensusInit && s.base.dbProfile == ConsensusInitDesc && s.base.updateTime == now
              && s.base.docTag == update.base.docTag && s.base.createTime == update.base.createTime
              && s.(base := update.base) == update
    ensures r.answer.Success? ==> AgreeBeyond(w.assetData, r.world.assetData, AssetKey(update.assetId))
    ensures r.world.processes == w.processes && r.world.users == w.users && r.world.index == w.index
  {
    var key := AssetKey(update.assetId);
    if key !in w.assetData then Refuse(Normal, w)
    else
      var stored := update.(base := update.base.(dbType := StConsensusInit, dbProfile := ConsensusInitDesc, updateTime := now));
      AppReply(Success, w.(assetData := w.assetData[key := stored]))
  }

  // ---------------------------------------------------------------------
  // Profile projection and the list query
  // ---------------------------------------------------------------------

  /** The short form of an asset shown in lists. */
  datatype Profile = Profile(
    base: BlockBase,
    ownerId: string,
    ownerName: string,
    assetType: int,
    assetId: string,
    assetName: string,
    assetPhoto: seq<FileRef>,
    financingAmount: int,
    splitNum: int,
    memberDiscount: real,
    airdropBounty: real,
    subscribeNum: int,
    startDate: int,
    endDate: int,
    assetStatus: int)

  /**
   `getAssetSingle`: `None` stands for an empty (or undecodable) document,
   which is an error. The profile copies the identifying, financial and date
   fields and reports the subscription status computed for `today` in place
   of the stored status.
   */
  function GetAssetSingle(data: Option<Particulars>, today: int): (r: Option<Profile>)
    ensures r.None? <==> data.None?
    ensures r.Some? ==> var d := data.value; var f := r.value;
              && f.base == d.base && f.ownerId == d.ownerId && f.ownerName == d.ownerName
              && f.assetType == d.assetType && f.assetId == d.assetId && f.assetName == d.assetName
              && f.assetPhoto == d.assetPhoto && f.financingAmount == d.financingAmount
              && f.splitNum == d.splitNum && f.memberDiscount == d.memberDiscount
              && f.airdropBounty == d.airdropBounty && f.subscribeNum == d.subscribeNum
              && f.startDate == d.startDate && f.endDate == d.endDate
    ensures r.Some? ==> r.value.assetStatus == SubscribeStatus(data.value, today) && r.value.assetStatus != StatusAll
  {
    match data
    case None => None
    case Some(d) =>
      Some(Profile(d.base, d.ownerId, d.ownerName, d.assetType, d.assetId, d.assetName, d.assetPhoto,
                   d.financingAmount, d.splitNum, d.memberDiscount, d.airdropBounty, d.subscribeNum,
                   d.startDate, d.endDate, SubscribeStatus(d, today)))
  }

  /** A selector field's value: a string or a number. */
  datatype CondValue = Text(s: string) | Number(n: int)

  const FieldDocTag: string := "baseInfo.docTag"
  const FieldAssetType: string := "assetType"
  const FieldOwnerId: string := "ownerID"

  /**
   Reading an asset back right after `Insert` gives the profile of the
   inserted particulars: tagged, available, stamped with the insert time,
   and with the subscription status the particulars imply on the day.
   */
  lemma InsertThenGetSingle(w: AppWorld, p: Particulars, now: string, today: int)
    requires AssetKey(p.assetId) !in w.assetData
    ensures var r := GetAssetSingle(Some(Insert(w, p, now).world.assetData[AssetKey(p.assetId)]), today);
            && r.Some?
            && r.value.base == p.base.(docTag := DocTag, dbProfile := Available, createTime := now)
            && r.value.ownerId == p.ownerId && r.value.ownerName == p.ownerName
            && r.value.assetType == p.assetType && r.value.assetId == p.assetId && r.value.assetName == p.assetName
            && r.value.financingAmount == p.financingAmount && r.value.splitNum == p.splitNum
            && r.value.subscribeNum == p.subscribeNum
            && r.value.startDate == p.startDate && r.value.endDate == p.endDate
            && r.value.assetStatus == SubscribeStatus(p, today)
  {
  }

  /**
   The list selector: always the asset document tag; the asset type unless
   the request asks for any type; the owner unless the request leaves it
   empty.
   */
  function ListCondition(req: Request): (cond: map<string, CondValue>)
    ensures FieldDocTag in cond && cond[FieldDocTag] == Text(DocTag)
    ensures FieldAssetType in cond <==> req.assetType != EstateAll
    ensures FieldAssetType in cond ==> cond[FieldAssetType] == Number(req.assetType)
    ensures FieldOwnerId in cond <==> req.ownerId != ""
    ensures FieldOwnerId in cond ==> cond[FieldOwnerId] == Text(req.ownerId)
    ensures cond.Keys <= {FieldDocTag, FieldAssetType, FieldOwnerId}
  {
    var base := map[FieldDocTag := Text(DocTag)];
    var typed := if req.assetType != EstateAll then base[FieldAssetType := Number(req.assetType)] else base;
    if req.ownerId != "" then typed[FieldOwnerId := Text(req.ownerId)] else typed
  }

  /** The value a stored document holds in a selector field. */
  function FieldOf(p: Particulars, field: string): Option<CondValue>
  {
    if field == FieldDocTag then Some(Text(p.base.docTag))
    else if field == FieldAssetType then Some(Number(p.assetType))
    else if field == FieldOwnerId then Some(Text(p.ownerId))
    else None
  }

  /** A document matches a selector when it holds every field's value. */
  predicate Matches(cond: map<string, CondValue>, p: Particulars)
  {
    forall f :: f in cond ==> FieldOf(p, f) == Some(cond[f])
  }

  /** Which documents the list selector finds, stated field by field. */
  lemma ListConditionSelects(req: Request, p: Particulars)
    ensures Matches(ListCondition(req), p)
            <==> && p.base.docTag == DocTag
                 && (req.assetType == EstateAll || p.assetType == req.assetType)
                 && (req.ownerId == "" || p.ownerId == req.ownerId)
  {
    var cond := ListCondition(req);
    if Matches(cond, p) {
      assert FieldOf(p, FieldDocTag) == Some(cond[FieldDocTag]);
      if req.assetType != EstateAll {
        assert FieldOf(p, FieldAssetType) == Some(cond[FieldAssetType]);
      }
      if req.ownerId != "" {
        assert FieldOf(p, FieldOwnerId) == Some(cond[FieldOwnerId]);
      }
    }
  }

  /**
   `Change` does not restore the document tag: an update sent without it
   leaves the asset where no list query finds it.
   */
  lemma ChangedUntaggedIsUnlisted(w: AppWorld, update: Particulars, now: string, req: Request)
    requires Change(w, update, now).answer.Success?
    requires update.base.docTag != DocTag
    ensures !Matches(ListCondition(req), Change(w, update, now).world.assetData[AssetKey(update.assetId)])
  {
    var s := Change(w, update, now).world.assetData[AssetKey(update.assetId)];
    ListConditionSelects(req, s);
  }

  /** A query result row: the document key and its (possibly empty) data. */
  datatype Row = Row(key: string, data: Option<Particulars>)

  /** A listed entry: the document key and its profile. */
  datatype Listed = Listed(key: string, profile: Profile)

  /** The listing of one row that has data. */
  function ListedOf(row: Row, today: int): Listed
    requires row.data.Some?
  {
    Listed(row.key, GetAssetSingle(row.data, today).value)
  }

  predicate HasEmptyRow(rows: seq<Row>)
  {
    exists i :: 0 <= i < |rows| && rows[i].data.None?
  }

  /**
   The status filter of `ReadList` as written: a row is kept when its
   computed status is not "any", and otherwise only when it equals the
   requested one. An empty row makes the whole query fail.
   */
  function ReadListAsWritten(rows: seq<Row>, req: Request, today: int): (r: Option<seq<Listed>>)
    ensures r.None? <==> HasEmptyRow(rows)
    ensures r.Some? ==> |r.value| == |rows|
    ensures r.Some? ==> forall i :: 0 <= i < |rows| ==> rows[i].data.Some? && r.value[i] == ListedOf(rows[i], today)
    decreases |rows|
  {
    if rows == [] then Some([])
    else
      assert forall i :: 1 <= i < |rows| ==> rows[1..][i - 1] == rows[i];
      match GetAssetSingle(rows[0].data, today)
      case None => None
      case Some(prof) =>
        var keep := if prof.assetStatus != StatusAll then true else prof.assetStatus == req.assetStatus;
        match ReadListAsWritten(rows[1..], req, today)
        case None => None
        case Some(rest) => Some((if keep then [Listed(rows[0].key, prof)] else []) + rest)
  }

  /** Whether a profile is one the request's status field asks for. */
  predicate Wanted(req: Request, prof: Profile)
  {
    req.assetStatus == StatusAll || prof.assetStatus == req.assetStatus
  }

  /**
   The evidently intended filter: keep a row when the request asks for any
   status or for exactly the row's computed status, in query order.
   */
  function ReadList(rows: seq<Row>, req: Request, today: int): (r: Option<seq<Listed>>)
    ensures r.None? <==> HasEmptyRow(rows)
    ensures r.Some? ==> forall i :: 0 <= i < |rows| ==>
              rows[i].data.Some? && (Wanted(req, ListedOf(rows[i], today).profile) ==> ListedOf(rows[i], today) in r.value)
    ensures r.Some? ==> forall l :: l in r.value ==>
              Wanted(req, l.profile) && exists i :: 0 <= i < |rows| && rows[i].data.Some? && l == ListedOf(rows[i], today)
    decreases |rows|
  {
    if rows == [] then Some([])
    else
      assert forall i :: 1 <= i < |rows| ==> rows[1..][i - 1] == rows[i];
      match GetAssetSingle(rows[0].data, today)
      case None => None
      case Some(prof) =>
        match ReadList(rows[1..], req, today)
        case None => None
        case Some(rest) => Some((if Wanted(req, prof) then [Listed(rows[0].key, prof)] else []) + rest)
  }

  /** The listings a request wants, in order. */
  function Kept(req: Request, ls: seq<Listed>): (ks: seq<Listed>)
    ensures |ks| <= |ls|
  {
    if ls == [] then [] else (if Wanted(req, ls[0].profile) then [ls[0]] else []) + Kept(req, ls[1..])
  }

  /**
   The intended list is the written one with the unwanted rows taken out,
   in the same order; when "any" is asked the two lists coincide.
   */
  lemma {:induction false} ReadListFiltersWritten(rows: seq<Row>, req: Request, today: int)
    ensures ReadList(rows, req, today).None? <==> ReadListAsWritten(rows, req, today).None?
    ensures ReadList(rows, req, today).Some? ==>
              ReadList(rows, req, today).value == Kept(req, ReadListAsWritten(rows, req, today).value)
    ensures req.assetStatus == StatusAll ==> ReadList(rows, req, today) == ReadListAsWritten(rows, req, today)
    decreases |rows|
  {
    if rows != [] && GetAssetSingle(rows[0].data, today).Some? {
      ReadListFiltersWritten(rows[1..], req, today);
      var prof := GetAssetSingle(rows[0].data, today).value;
      match ReadListAsWritten(rows[1..], req, today)
      case None =>
      case Some(rest) =>
        var l := Listed(rows[0].key, prof);
        assert ([l] + rest)[1..] == rest;
        assert prof.assetStatus != StatusAll;
    }
  }

  /** The row of the counterexample: open from day 20180101 through 20181231. */
  function OpenAsset(): Particulars
  {
    Particulars(BlockBase(DocTag, 0, Available, "", ""), "owner", "", EstateVilla, "a1", "", [], 0,
                100, 0.0, 0.0, 10, 20180101, 20181231, 0, 0.5, "", "", FileRef("", ""), FileRef("", ""), [])
  }

  /**
   Asking for assets whose subscription has not started still returns an
   asset that is open for subscription: the written filter keeps it, the
   intended one drops it.
   */
  lemma StatusFilterIgnored()
    ensures var rows := [Row("AssetData_IHT_a1", Some(OpenAsset()))];
            var req := Request(0, EstateAll, StatusBefore, "");
            && ReadListAsWritten(rows, req, 20180601).Some?
            && |ReadListAsWritten(rows, req, 20180601).value| == 1
            && ReadListAsWritten(rows, req, 20180601).value[0].profile.assetStatus == StatusIng
            && ReadList(rows, req, 20180601) == Some([])
  {
    var rows := [Row("AssetData_IHT_a1", Some(OpenAsset()))];
    var req := Request(0, EstateAll, StatusBefore, "");
    assert SubscribeStatus(OpenAsset(), 20180601) == StatusIng;
    assert rows[1..] == [];
    assert ReadList(rows[1..], req, 20180601) == Some([]);
    var prof := GetAssetSingle(rows[0].data, 20180601).value;
    assert !Wanted(req, prof);
    var none: seq<Listed> := [];
    assert none + none == none;
    assert ReadList(rows, req, 20180601) == Some(none + none);
  }
}

=== FILE: asset_process.dfy ===
/**
 The asset-progress controller of the application chaincode: records keyed
 by `AssetProcess_IHT_<asset id>`, an insert that refuses an occupied key, a
 change that needs an existing record, a delete, and the list selector.
 */
module AssetProcess {
  import opened Results
  import opened AppStore
  import AssetManage
  import Ledger

  const KeyAssetProcessTag: string := "AssetProcess_"

  /** The document tag every progress record carries. */
  const DocTag: string := KeyAssetProcessTag + KeyOrganization

  /** `createAssertProcessKeyByID`: the document key of an asset's progress record. */
  function ProcessKey(assetId: string): (k: string)
    ensures |k| == |DocTag| + |assetId| && k[..|DocTag|] == DocTag && k[|DocTag|..] == assetId
  {
    Ledger.DocKey(DocTag, assetId)
  }

  lemma ProcessKeyInjective(a: string, b: string)
    requires ProcessKey(a) == ProcessKey(b)
    ensures a == b
  {
    assert a == ProcessKey(a)[|DocTag|..];
  }

  /** A progress key never coincides with an asset particulars key. */
  lemma ProcessKeyIsNotAssetKey(a: string, b: string)
    ensures ProcessKey(a) != AssetManage.AssetKey(b)
  {
    assert ProcessKey(a)[5] == 'P';
    assert AssetManage.AssetKey(b)[5] == 'D';
  }

  /**
   `createAndCheckByKey`: refuses a record whose key already holds data;
   otherwise tags it with the progress document tag and marks it available.
   */
  function CreateAndCheckByKey(w: AppWorld, p: Process): (r: Option<(string, Process)>)
    ensures r.Some? <==> ProcessKey(p.assetId) !in w.processes
    ensures r.Some? ==> r.value.0 == ProcessKey(p.assetId)
    ensures r.Some? ==> r.value.1.base.docTag == DocTag && r.value.1.base.dbProfile == Available
    ensures r.Some? ==> r.value.1 == p.(base := r.value.1.base)
    ensures r.Some? ==> r.value.1.base.(docTag := p.base.docTag, dbProfile := p.base.dbProfile) == p.base
  {
    var key := ProcessKey(p.assetId);
    if key in w.processes then None
    else Some((key, p.(base := p.base.(docTag := DocTag, dbProfile := Available))))
  }

  /**
   `Insert`: stores a new progress record stamped with the creation time; an
   occupied key is a database error and nothing is written. No index entry
   is created.
   */
  function Insert(w: AppWorld, p: Process, now: string): (r: AppReply)
    ensures r.answer.Success? <==> ProcessKey(p.assetId) !in w.processes
    ensures r.answer.Failure? ==> r.answer.code == DB && r.world == w
    ensures r.answer.Success? ==>
              && ProcessKey(p.assetId) in r.world.processes
              && var s := r.world.processes[ProcessKey(p.assetId)];
              && s.base == p.base.(docTag := DocTag, dbProfile := Available, createTime := now)
              && s.(base := p.base) == p
    ensures r.answer.Success? ==> AgreeBeyond(w.processes, r.world.processes, ProcessKey(p.assetId))
    ensures r.world.assetData == w.assetData && r.world.users == w.users && r.world.index == w.index
  {
    match CreateAndCheckByKey(w, p)
    case None => Refuse(DB, w)
    case Some((key, tagged)) =>
      AppReply(Success, w.(processes := w.processes[key := tagged.(base := tagged.base.(createTime := now))]))
  }

  /**
   `Change`: replaces an existing progress record with the update, stamped
   with the update time; a missing record is refused.
   */
  function Change(w: AppWorld, update: Process, now: string): (r: AppReply)
    ensures r.answer.Success? <==> ProcessKey(update.assetId) in w.processes
    ensures r.answer.Failure? ==> r.answer.code == Normal && r.world == w
    ensures r.answer.Success? ==>
              && ProcessKey(update.assetId) in r.world.processes
              && r.world.processes[ProcessKey(update.assetId)] == update.(base := update.base.(updateTime := now))
    ensures r.answer.Success? ==> AgreeBeyond(w.processes, r.world.processes, ProcessKey(update.assetId))
    ensures r.world.assetData == w.assetData && r.world.users == w.users && r.world.index == w.index
  {
    var key := ProcessKey(update.assetId);
    if key !in w.processes then Refuse(Normal, w)
    else AppReply(Success, w.(processes := w.processes[key := update.(base := update.base.(updateTime := now))]))
  }

  /** `Delete`: removes the progress record; a missing one is not an error. */
  function Delete(w: AppWorld, assetId: string): (r: AppReply)
    ensures r.answer.Success?
    ensures ProcessKey(assetId) !in r.world.processes
    ensures AgreeBeyond(w.processes, r.world.processes, ProcessKey(assetId))
    ensures r.world.assetData == w.assetData && r.world.users == w.users && r.world.index == w.index
  {
    AppReply(Success, w.(processes := w.processes - {ProcessKey(assetId)}))
  }

  /** A change can only follow an insert: on an empty ledger it is refused, after an insert it succeeds. */
  lemma ChangeNeedsInsert(w: AppWorld, p: Process, update: Process, now: string, later: string)
    requires ProcessKey(p.assetId) !in w.processes
    requires update.assetId == p.assetId
    ensures Change(w, update, later).answer.Failure?
    ensures Change(Insert(w, p, now).world, update, later).answer.Success?
  {
  }

  const FieldAssetId: string := "assetID"
  const FieldProcessStatus: string := "processStauts"

  /** The list selector: the asset id and the progress status, each only when given. */
  function ListCondition(request: Process): (cond: map<string, string>)
    ensures FieldAssetId in cond <==> request.assetId != ""
    ensures FieldAssetId in cond ==> cond[FieldAssetId] == request.assetId
    ensures FieldProcessStatus in cond <==> request.processStatus != ""
    ensures FieldProcessStatus in cond ==> cond[FieldProcessStatus] == request.processStatus
    ensures cond.Keys <= {FieldAssetId, FieldProcessStatus}
  {
    var byId: map<string, string> := if request.assetId != "" then map[FieldAssetId := request.assetId] else map[];
    if request.processStatus != "" then byId[FieldProcessStatus := request.processStatus] else byId
  }

  /**
   A document the rich query can return. The selector is not restricted to
   progress records, so it ranges over every document the application
   chaincode stores: progress records, asset particulars, demo users, and
   the composite index entries, whose value is the single byte 0x00.
   */
  datatype Doc = ProgressDoc(p: Process) | ParticularsDoc(a: Particulars) | UserDoc(u: User) | IndexDoc(e: Ledger.IndexEntry)

  const FieldDocTag: string := "docTag"

  /**
   The value a stored document holds in a top-level selector field. A
   progress record embeds its base, so its tag is top level; particulars
   nest theirs under "baseInfo" but carry "assetID" too; a user has none of
   these fields.
   */
  function FieldOf(d: Doc, field: string): Option<string>
  {
    match d
    case ProgressDoc(p) =>
      if field == FieldDocTag then Some(p.base.docTag)
      else if field == FieldAssetId then Some(p.assetId)
      else if field == FieldProcessStatus then Some(p.processStatus)
      else None
    case ParticularsDoc(a) => if field == FieldAssetId then Some(a.assetId) else None
    case UserDoc(_) => None
    case IndexDoc(_) => None
  }

  /** A document matches a selector when it holds every field's value. */
  predicate Matches(cond: map<string, string>, d: Doc)
  {
    forall f :: f in cond ==> FieldOf(d, f) == Some(cond[f])
  }

  /**
   Which documents the selector finds: progress records by asset id and
   status; the particulars of the requested asset (of every asset, when no
   id is given) whenever no status is asked for; and every user and every
   index entry when the request is empty.
   */
  lemma ListConditionSelects(request: Process, d: Doc)
    ensures d.ProgressDoc? ==>
              (Matches(ListCondition(request), d)
               <==> && (request.assetId == "" || d.p.assetId == request.assetId)
                    && (request.processStatus == "" || d.p.processStatus == request.processStatus))
    ensures d.ParticularsDoc? ==>
              (Matches(ListCondition(request), d)
               <==> request.processStatus == "" && (request.assetId == "" || d.a.assetId == request.assetId))
    ensures d.UserDoc? || d.IndexDoc? ==>
              (Matches(ListCondition(request), d) <==> request.assetId == "" && request.processStatus == "")
  {
    var cond := ListCondition(request);
    if Matches(cond, d) {
      if request.assetId != "" {
        assert FieldOf(d, FieldAssetId) == Some(cond[FieldAssetId]);
      }
      if request.processStatus != "" {
        assert FieldOf(d, FieldProcessStatus) == Some(cond[FieldProcessStatus]);
      }
    }
  }

  /** The blank record a JSON object with none of a progress record's fields unmarshals into. */
  const Blank: Process := Process(BlockBase("", 0, "", "", ""), "", "", "", [])

  /**
   How a selected document unmarshals into a progress record: particulars
   fail, because their qualification file is one object where a progress
   record holds a list; a user shares no field with a progress record and
   comes out blank; an index entry's 0x00 is not JSON at all.
   */
  function Decode(d: Doc): Option<Process>
  {
    match d
    case ProgressDoc(p) => Some(p)
    case ParticularsDoc(_) => None
    case UserDoc(_) => Some(Blank)
    case IndexDoc(_) => None
  }

  /** The stored documents a selector matches, in the database's order. */
  function Selected(cond: map<string, string>, docs: seq<Doc>): (sel: seq<Doc>)
    ensures forall k :: 0 <= k < |sel| ==> sel[k] in docs && Matches(cond, sel[k])
    ensures forall i :: 0 <= i < |docs| && Matches(cond, docs[i]) ==> docs[i] in sel
    decreases |docs|
  {
    if docs == [] then []
    else
      assert forall i :: 1 <= i < |docs| ==> docs[1..][i - 1] == docs[i];
      (if Matches(cond, docs[0]) then [docs[0]] else []) + Selected(cond, docs[1..])
  }

  /** A document the selector finds but that does not unmarshal into a progress record. */
  predicate Unreadable(cond: map<string, string>, d: Doc)
  {
    Matches(cond, d) && Decode(d).None?
  }

  /** Some document of a non-empty sequence is unreadable iff its head is or one of its tail is. */
  lemma UnreadableSplit(cond: map<string, string>, docs: seq<Doc>)
    requires docs != []
    ensures (exists i :: 0 <= i < |docs| && Unreadable(cond, docs[i])) <==>
            Unreadable(cond, docs[0]) || exists j :: 0 <= j < |docs[1..]| && Unreadable(cond, docs[1..][j])
  {
    if i :| 0 <= i < |docs| && Unreadable(cond, docs[i]) {
      if i > 0 {
        assert docs[1..][i - 1] == docs[i];
      }
    }
    if j :| 0 <= j < |docs[1..]| && Unreadable(cond, docs[1..][j]) {
      assert docs[1 + j] == docs[1..][j];
    }
  }

  /**
   The loop of `ReadList` once the selector is fixed: every selected
   document, in order, unmarshalled into a progress record; the first that
   does not unmarshal fails the whole list with a database error (`None`).
   */
  function ListBy(cond: map<string, string>, docs: seq<Doc>): Option<seq<Process>>
    decreases |docs|
  {
    if docs == [] then Some([])
    else
      var rest := ListBy(cond, docs[1..]);
      if !Matches(cond, docs[0]) then rest
      else match Decode(docs[0])
        case None => None
        case Some(p) => if rest.None? then None else Some([p] + rest.value)
  }

  /**
   What the list loop yields: it fails iff some selected document does not
   unmarshal, and otherwise holds the record of each selected document, in order.
   */
  lemma {:induction false} ListByMeans(cond: map<string, string>, docs: seq<Doc>)
    ensures ListBy(cond, docs).None? <==> exists i :: 0 <= i < |docs| && Unreadable(cond, docs[i])
    ensures ListBy(cond, docs).Some? ==> |ListBy(cond, docs).value| == |Selected(cond, docs)|
    ensures ListBy(cond, docs).Some? ==>
              forall k :: 0 <= k < |ListBy(cond, docs).value| ==>
                Decode(Selected(cond, docs)[k]) == Some(ListBy(cond, docs).value[k])
    decreases |docs|
  {
    if docs != [] {
      ListByMeans(cond, docs[1..]);
      UnreadableSplit(cond, docs);
      var rest := ListBy(cond, docs[1..]);
      var later := Selected(cond, docs[1..]);
      if !Matches(cond, docs[0]) {
        assert Selected(cond, docs) == [] + later;
        assert [] + later == later;
      } else if Decode(docs[0]).Some? && rest.Some? {
        var sel := Selected(cond, docs);
        var r := ListBy(cond, docs).value;
        assert sel == [docs[0]] + later;
        assert r == [Decode(docs[0]).value] + rest.value;
        forall k | 0 <= k < |r|
          ensures Decode(sel[k]) == Some(r[k])
        {
          if k > 0 {
            assert sel[k] == later[k - 1];
            assert r[k] == rest.value[k - 1];
          }
        }
      }
    }
  }

  /** `ReadList` as written, over the stored documents in the database's order. */
  function ReadList(request: Process, docs: seq<Doc>): Option<seq<Process>>
  {
    ListBy(ListCondition(request), docs)
  }

  /**
   Listing the progress of an asset whose particulars are stored fails with
   a database error: the selector also finds the particulars, which do not
   unmarshal. Without an asset id, any stored particulars fail the list.
   */
  lemma ReadListFailsOnParticulars(request: Process, docs: seq<Doc>, i: int)
    requires 0 <= i < |docs| && docs[i].ParticularsDoc?
    requires request.processStatus == ""
    requires request.assetId == "" || docs[i].a.assetId == request.assetId
    ensures ReadList(request, docs).None?
  {
    ListConditionSelects(request, docs[i]);
    assert Unreadable(ListCondition(request), docs[i]);
    ListByMeans(ListCondition(request), docs);
  }

  /**
   An empty request selects every stored document, so a stored index entry
   (one is written for every asset and every demo user) fails the list.
   */
  lemma EmptyRequestFailsOnIndexEntry(request: Process, docs: seq<Doc>, i: int)
    requires 0 <= i < |docs| && docs[i].IndexDoc?
    requires request.assetId == "" && request.processStatus == ""
    ensures ReadList(request, docs).None?
  {
    ListConditionSelects(request, docs[i]);
    assert Unreadable(ListCondition(request), docs[i]);
    ListByMeans(ListCondition(request), docs);
  }

  /** The selector with the progress document tag added, as the asset list selector has it. */
  function TaggedCondition(request: Process): (cond: map<string, string>)
    ensures FieldDocTag in cond && cond[FieldDocTag] == DocTag
    ensures cond - {FieldDocTag} == ListCondition(request)
  {
    ListCondition(request)[FieldDocTag := DocTag]
  }

  /** `ReadList` with the tagged selector. */
  function ReadListTagged(request: Process, docs: seq<Doc>): Option<seq<Process>>
  {
    ListBy(TaggedCondition(request), docs)
  }

  /** Whether a progress record is one a request asks for. */
  predicate Requested(request: Process, p: Process)
  {
    && p.base.docTag == DocTag
    && (request.assetId == "" || p.assetId == request.assetId)
    && (request.processStatus == "" || p.processStatus == request.processStatus)
  }

  /** The tagged progress records a request asks for, in the database's order. */
  function Progress(request: Process, docs: seq<Doc>): seq<Process>
    decreases |docs|
  {
    if docs == [] then []
    else
      var here := if docs[0].ProgressDoc? && Requested(request, docs[0].p) then [docs[0].p] else [];
      here + Progress(request, docs[1..])
  }

  /** The tagged selector finds exactly the tagged progress records the request asks for. */
  lemma TaggedConditionSelects(request: Process, d: Doc)
    ensures Matches(TaggedCondition(request), d) <==> d.ProgressDoc? && Requested(request, d.p)
  {
    var cond := TaggedCondition(request);
    if Matches(cond, d) {
      assert FieldOf(d, FieldDocTag) == Some(DocTag);
      ListConditionSelects(request, d);
      if request.assetId != "" {
        assert FieldOf(d, FieldAssetId) == Some(cond[FieldAssetId]);
      }
      if request.processStatus != "" {
        assert FieldOf(d, FieldProcessStatus) == Some(cond[FieldProcessStatus]);
      }
    }
  }

  /** With the tag in the selector the list never fails, and it holds exactly the records asked for. */
  lemma {:induction false} ReadListTaggedIsProgress(request: Process, docs: seq<Doc>)
    ensures ReadListTagged(request, docs) == Some(Progress(request, docs))
    decreases |docs|
  {
    if docs != [] {
      var cond := TaggedCondition(request);
      TaggedConditionSelects(request, docs[0]);
      ReadListTaggedIsProgress(request, docs[1..]);
      ListByStep(cond, docs);
      if Matches(cond, docs[0]) {
        assert Progress(request, docs) == [docs[0].p] + Progress(request, docs[1..]);
      } else {
        assert Progress(request, docs) == [] + Progress(request, docs[1..]);
        assert [] + Progress(request, docs[1..]) == Progress(request, docs[1..]);
      }
    }
  }

  /** One step of the list loop. */
  lemma ListByStep(cond: map<string, string>, docs: seq<Doc>)
    requires docs != []
    ensures ListBy(cond, docs)
            == if !Matches(cond, docs[0]) then ListBy(cond, docs[1..])
               else if Decode(docs[0]).None? || ListBy(cond, docs[1..]).None? then None
               else Some([Decode(docs[0]).value] + ListBy(cond, docs[1..]).value)
  {
  }
}

=== FILE: codes.dfy ===
/** Status codes, their descriptions, namespaces and index names of the chaincode. */
module Codes {

  // Review states shared by parties, details and assets.
  const StInit: string := "00"
  const StApproving: string := "01"
  const StApproved: string := "02"
  const StRejected: string := "03"
  const StNiled: string := "99"

  const DescInit: string := "init"
  const DescInitChange: string := "init with change"
  const DescApproving: string := "IHT approving"
  const DescApproved: string := "IHT approved"
  const DescRejected: string := "IHT rejected"
  const DescNiled: string := "IHT deleted"

  // Securitisation states of an asset.
  const StUnderwriting: string := "10"
  const StHalted: string := "11"
  const StUnderwriteSucceeded: string := "12"
  const StUnderwriteFailed: string := "13"
  const StUnitsInitialized: string := "20"
  const StOwnershipEffected: string := "21"
  const StRepurchased: string := "22"

  const DescUnderwriting: string := "underwriting"
  const DescHalted: string := "halt underwriting"
  const DescUnderwriteSucceeded: string := "underwriting success"
  const DescUnderwriteFailed: string := "underwriting failed"
  const DescUnitsInitialized: string := "security units initialized"
  const DescOwnershipEffected: string := "ownership changes effected"
  const DescRepurchased: string := "repurchasing finished"

  // States of a security share.
  const ShareInit: string := "00"
  const ShareValid: string := "01"
  const ShareFrozen: string := "02"
  const ShareNiled: string := "99"

  const ShareDescInit: string := "init"
  const ShareDescValid: string := "valid"
  const ShareDescFrozen: string := "frozen"
  const ShareDescNiled: string := "niled"

  /** The review states an IHT status change may set. */
  predicate IsReviewStatus(s: string)
  {
    s == StApproving || s == StApproved || s == StRejected || s == StNiled
  }

  // Namespaces (document-type name followed by an underscore) and index names.
  const NsAsset: string := "asset_securitized_"
  const IdxAssetStatus: string := "asset_status_2_asset_name"
  const NsClaim: string := "asset_security_underwrote_"
  const IdxClaimFininst: string := "fininst_email_2_underwrote_id"
  const IdxClaimOwner: string := "asset_owner_email_2_underwrote_id"
  const IdxClaimAsset: string := "asset_name_2_underwrote_id"
  const NsShare: string := "asset_security_share_"
  const IdxShareAssetHash: string := "asset_hash_2_share_id"
  const IdxShareAsset: string := "asset_name_2_share_id"
  const IdxShareOwner: string := "owner_email_2_share_id"
  const NsBooking: string := "payment_txn_booking_"
  const IdxBookingAssetHash: string := "asset_hash_2_payment_txn_id"
  const IdxBookingShare: string := "share_id_2_payment_txn_id"

  const SecondsPerDay: int := 86400
}

=== FILE: decimal.dfy ===
/**
 Decimal text of integers as Go's `strconv.Itoa` writes it, and the reading
 back that the unit-number labels of a share rely on.
 */
module Decimal {
  import opened Results

  predicate IsDigit(c: char)
  {
    '0' <= c <= '9'
  }

  function DigitChar(d: nat): (c: char)
    requires d < 10
    ensures IsDigit(c) && (c - '0') as nat == d
  {
    '0' + d as char
  }

  /** The shortest decimal text of a natural number. */
  function NatText(n: nat): (s: string)
    ensures |s| > 0 && forall i :: 0 <= i < |s| ==> IsDigit(s[i])
    ensures n > 0 ==> s[0] != '0'
  {
    if n < 10 then [DigitChar(n)] else NatText(n / 10) + [DigitChar(n % 10)]
  }

  /** `strconv.Itoa`: a minus sign before the digits of a negative number. */
  function Itoa(n: int): (s: string)
    ensures |s| > 0
    ensures (s[0] == '-') <==> n < 0
  {
    if n < 0 then "-" + NatText(-n) else NatText(n)
  }

  /** The value of a non-empty run of digits; anything else is `None`. */
  function ParseDigits(s: string): (r: Option<nat>)
    ensures r.Some? <==> |s| > 0 && forall i :: 0 <= i < |s| ==> IsDigit(s[i])
  {
    if s == [] || !IsDigit(s[|s| - 1]) then None
    else if |s| == 1 then Some((s[0] - '0') as nat)
    else
      var prefix := ParseDigits(s[..|s| - 1]);
      if prefix.None? then None else Some(prefix.value * 10 + (s[|s| - 1] - '0') as nat)
  }

  /** Reads what `Itoa` writes: digits, optionally after one minus sign. */
  function ParseInt(s: string): (r: Option<int>)
    ensures r.Some? ==> |s| > 0
  {
    if |s| > 0 && s[0] == '-' then
      var d := ParseDigits(s[1..]);
      if d.None? then None else Some(0 - d.value as int)
    else
      var d := ParseDigits(s);
      if d.None? then None else Some(d.value)
  }

  lemma {:induction false} NatTextRoundTrip(n: nat)
    ensures ParseDigits(NatText(n)) == Some(n)
  {
    if n >= 10 {
      var s := NatText(n);
      assert s[..|s| - 1] == NatText(n / 10);
      NatTextRoundTrip(n / 10);
    }
  }

  /** Every integer reads back from its decimal text. */
  lemma ItoaRoundTrip(n: int)
    ensures ParseInt(Itoa(n)) == Some(n)
  {
    if n < 0 {
      assert Itoa(n)[1..] == NatText(-n);
      NatTextRoundTrip(-n);
    } else {
      NatTextRoundTrip(n);
    }
  }

  /** Distinct integers have distinct decimal texts. */
  lemma ItoaInjective(m: int, n: int)
    requires Itoa(m) == Itoa(n)
    ensures m == n
  {
    ItoaRoundTrip(m);
    ItoaRoundTrip(n);
  }

  /** Index of the first `c` in `s`, or `|s|` when there is none. */
  function FirstIndex(s: string, c: char): (i: nat)
    ensures i <= |s|
    ensures forall j :: 0 <= j < i ==> s[j] != c
    ensures i < |s| ==> s[i] == c
  {
    if s == [] then 0 else if s[0] == c then 0 else 1 + FirstIndex(s[1..], c)
  }
}

=== FILE: demo_user.dfy ===
/**
 The demo user controller of the application chaincode: users stored under
 `userInfo_<email>`, created in status "00", soft-deleted to "99", and
 edited in nickname and password hash only.

 `DeleteAsWritten` keeps the code's behaviour for a missing user, which
 builds its error message from a nil error and so aborts the transaction;
 `Delete` answers "data does not exist" instead.
 */
module DemoUser {
  import opened Results
  import opened Ledger
  import opened AppStore
  import ParamsFilter

  const DtUserInfo: string := "userInfo"
  const NsUserInfo: string := DtUserInfo + "_"
  const PkUserEmail: string := "userEmail"
  const IdxUserStatus: string := "userStatus"
  /** The index of users by (status, e-mail). */
  const IdxStatusToEmail: string := IdxUserStatus + "_2_" + PkUserEmail

  function UserKey(email: string): (k: string)
    ensures |k| == |NsUserInfo| + |email| && k[..|NsUserInfo|] == NsUserInfo && k[|NsUserInfo|..] == email
  {
    DocKey(NsUserInfo, email)
  }

  /** The index entry a new user gets. */
  function StatusEntry(u: User): (e: IndexEntry)
    ensures e.objectType == NsUserInfo + IdxStatusToEmail && e.attrs == [u.status, u.email]
  {
    IndexOf(NsUserInfo, IdxStatusToEmail, [u.status, u.email])
  }

  /** The argument checks shared by insert and change: three arguments, none empty. */
  function CheckThree(args: seq<string>): (ok: bool)
    ensures ok <==> |args| == 3 && args[0] != "" && args[1] != "" && args[2] != ""
  {
    ParamsFilter.CheckParamsLength(args, 3).None? && ParamsFilter.CheckRequired(args, [0, 1, 2]).None?
  }

  /** The argument check of delete: one non-empty argument. */
  function CheckOne(args: seq<string>): (ok: bool)
    ensures ok <==> |args| == 1 && args[0] != ""
  {
    ParamsFilter.CheckParamsLength(args, 1).None? && ParamsFilter.CheckRequired(args, [0]).None?
  }

  /**
   `Insert` (e-mail, nickname, password hash): refuses an existing e-mail,
   otherwise stores the user in status "00" and indexes it by
   (status, e-mail).
   */
  function Insert(w: AppWorld, args: seq<string>): (r: AppReply)
    ensures r.answer.Success? <==> CheckThree(args) && UserKey(args[0]) !in w.users
    ensures !CheckThree(args) ==> r == Refuse(Arguments, w)
    ensures CheckThree(args) && UserKey(args[0]) in w.users ==> r == Refuse(DataExist, w)
    ensures r.answer.Success? ==>
              && UserKey(args[0]) in r.world.users
              && r.world.users[UserKey(args[0])] == User(DtUserInfo, args[0], args[1], args[2], StCommInit)
              && AgreeBeyond(w.users, r.world.users, UserKey(args[0]))
              && r.world.index == w.index + {StatusEntry(r.world.users[UserKey(args[0])])}
    ensures r.world.assetData == w.assetData && r.world.processes == w.processes
  {
    if !CheckThree(args) then Refuse(Arguments, w)
    else
      var email := args[0];
      if UserKey(email) in w.users then Refuse(DataExist, w)
      else
        var u := User(DtUserInfo, email, args[1], args[2], StCommInit);
        AppReply(Success, w.(users := w.users[UserKey(email) := u], index := w.index + {StatusEntry(u)}))
  }

  /**
   `Read`: the stored user. A missing user is reported with the "data
   already exists" code, as the code does.
   */
  function Read(w: AppWorld, args: seq<string>): (r: (Answer, Option<User>))
    ensures r.1.Some? <==> r.0.Success?
    ensures r.0.Success? <==> |args| == 1 && UserKey(args[0]) in w.users
    ensures r.0.Success? ==> r.1.value == w.users[UserKey(args[0])]
    ensures |args| != 1 ==> r.0 == Failure(Arguments)
    ensures |args| == 1 && UserKey(args[0]) !in w.users ==> r.0 == Failure(DataExist)
  {
    if ParamsFilter.CheckParamsLength(args, 1).Some? then (Failure(Arguments), None)
    else if UserKey(args[0]) !in w.users then (Failure(DataExist), None)
    else (Success, Some(w.users[UserKey(args[0])]))
  }

  /** The soft delete of a stored user: status "99", nothing else. */
  function Voided(w: AppWorld, key: string): (r: AppReply)
    requires key in w.users
    ensures r.answer.Success?
    ensures key in r.world.users && r.world.users[key] == w.users[key].(status := StCommNiled)
    ensures w.users[key].status == StCommNiled ==> r.world == w
    ensures AgreeBeyond(w.users, r.world.users, key)
    ensures r.world == w.(users := r.world.users)
  {
    var u := w.users[key];
    if u.status == StCommNiled then AppReply(Success, w)
    else AppReply(Success, w.(users := w.users[key := u.(status := StCommNiled)]))
  }

  /**
   `Delete` as written: `None` is the runtime panic raised for a missing
   user, whose error message dereferences a nil error.
   */
  function DeleteAsWritten(w: AppWorld, args: seq<string>): (r: Option<AppReply>)
    ensures r.None? <==> CheckOne(args) && UserKey(args[0]) !in w.users
    ensures !CheckOne(args) ==> r == Some(Refuse(Arguments, w))
    ensures CheckOne(args) && UserKey(args[0]) in w.users ==> r == Some(Voided(w, UserKey(args[0])))
  {
    if !CheckOne(args) then Some(Refuse(Arguments, w))
    else if UserKey(args[0]) !in w.users then None
    else Some(Voided(w, UserKey(args[0])))
  }

  /** Deleting an unknown user aborts the transaction instead of answering. */
  lemma DeleteMissingPanics(w: AppWorld, email: string)
    requires email != "" && UserKey(email) !in w.users
    ensures DeleteAsWritten(w, [email]).None?
  {
  }

  /**
   `Delete` as evidently intended: an unknown user is answered "data does
   not exist"; a known user ends in status "99", written only when it was
   not already voided.
   */
  function Delete(w: AppWorld, args: seq<string>): (r: AppReply)
    ensures r.answer.Success? <==> CheckOne(args) && UserKey(args[0]) in w.users
    ensures !CheckOne(args) ==> r == Refuse(Arguments, w)
    ensures CheckOne(args) && UserKey(args[0]) !in w.users ==> r == Refuse(DataNotExisted, w)
    ensures r.answer.Success? ==>
              && UserKey(args[0]) in r.world.users
              && r.world.users[UserKey(args[0])] == w.users[UserKey(args[0])].(status := StCommNiled)
              && AgreeBeyond(w.users, r.world.users, UserKey(args[0]))
    ensures r.world.assetData == w.assetData && r.world.processes == w.processes && r.world.index == w.index
  {
    if !CheckOne(args) then Refuse(Arguments, w)
    else if UserKey(args[0]) !in w.users then Refuse(DataNotExisted, w)
    else Voided(w, UserKey(args[0]))
  }

  /** Wherever the written delete answers at all, the corrected one answers the same. */
  lemma DeleteAgreesWhereDefined(w: AppWorld, args: seq<string>)
    requires DeleteAsWritten(w, args).Some?
    ensures DeleteAsWritten(w, args).value == Delete(w, args)
  {
  }

  /** A second delete writes nothing. */
  lemma DeleteIdempotent(w: AppWorld, args: seq<string>)
    ensures Delete(Delete(w, args).world, args).world == Delete(w, args).world
  {
    if CheckOne(args) && UserKey(args[0]) in w.users {
      var w' := Delete(w, args).world;
      assert w'.users[UserKey(args[0])].status == StCommNiled;
    }
  }

  /**
   `Change` (e-mail, nickname, password hash): an unknown user is refused;
   the nickname and password hash are replaced, and nothing is written when
   both already hold the given values. The status is never touched.
   */
  function Change(w: AppWorld, args: seq<string>): (r: AppReply)
    ensures r.answer.Success? <==> CheckThree(args) && UserKey(args[0]) in w.users
    ensures !CheckThree(args) ==> r == Refuse(Arguments, w)
    ensures CheckThree(args) && UserKey(args[0]) !in w.users ==> r == Refuse(DataNotExisted, w)
    ensures r.answer.Success? ==>
              var key := UserKey(args[0]);
              && key in r.world.users
              && r.world.users[key] == w.users[key].(nickname := args[1], pwdHash := args[2])
              && AgreeBeyond(w.users, r.world.users, key)
              && (w.users[key].nickname == args[1] && w.users[key].pwdHash == args[2] ==> r.world == w)
    ensures r.world.assetData == w.assetData && r.world.processes == w.processes && r.world.index == w.index
  {
    if !CheckThree(args) then Refuse(Arguments, w)
    else
      var key := UserKey(args[0]);
      if key !in w.users then Refuse(DataNotExisted, w)
      else
        var u := w.users[key];
        var changed := u.nickname != args[1] || u.pwdHash != args[2];
        if !changed then AppReply(Success, w)
        else AppReply(Success, w.(users := w.users[key := u.(nickname := args[1], pwdHash := args[2])]))
  }

  /** Repeating a change writes nothing more. */
  lemma ChangeIdempotent(w: AppWorld, args: seq<string>)
    ensures Change(Change(w, args).world, args).world == Change(w, args).world
  {
  }

  /** A user inserted and then deleted is kept, voided, with its nickname and password hash. */
  lemma InsertThenDelete(w: AppWorld, email: string, nickname: string, pwdHash: string)
    requires Insert(w, [email, nickname, pwdHash]).answer.Success?
    ensures var w' := Delete(Insert(w, [email, nickname, pwdHash]).world, [email]).world;
            && UserKey(email) in w'.users
            && w'.users[UserKey(email)] == User(DtUserInfo, email, nickname, pwdHash, StCommNiled)
  {
    var w1 := Insert(w, [email, nickname, pwdHash]).world;
    assert [email, nickname, pwdHash][0] == email;
    assert [email][0] == email;
    assert CheckOne([email]);
  }

  /** A user read back after registration is the registered user, in status "00". */
  lemma InsertThenRead(w: AppWorld, email: string, nickname: string, pwdHash: string)
    requires Insert(w, [email, nickname, pwdHash]).answer.Success?
    ensures Read(Insert(w, [email, nickname, pwdHash]).world, [email])
            == (Success, Some(User(DtUserInfo, email, nickname, pwdHash, StCommInit)))
  {
  }
}

=== FILE: float64.dfy ===
/**
 Go's `float64` arithmetic as far as the chaincode relies on it: a real
 result rounded to the nearest binary64 value, which carries 52 fraction
 bits, a tie going to the even neighbour. The exponent range is unbounded
 here, so neither overflow nor subnormal numbers occur; unit counts and
 their ratios stay far inside the normal range.

 Operations that round take the rounding as a parameter `round`; `Round` is
 the one Go performs, and `Faithful` is what the proofs need of it: a
 relative error of at most 2^-53.
 */
module Float64 {
  /** r is x rounded with a relative error of at most 2^-53 (half a unit in the last of 53 bits). */
  predicate Near(x: real, r: real)
  {
    && (x >= 0.0 ==> x - x / 9007199254740992.0 <= r <= x + x / 9007199254740992.0)
    && (x < 0.0 ==> x + x / 9007199254740992.0 <= r <= x - x / 9007199254740992.0)
  }

  /** A rounding that is everywhere within half a unit in the last place. */
  ghost predicate Faithful(round: real -> real)
  {
    forall x :: Near(x, round(x))
  }

  /** The whole number nearest to y, a tie going to the even neighbour. */
  function Nearest(y: real): (k: int)
    ensures -0.5 <= k as real - y <= 0.5
    ensures k as real - y == 0.5 || k as real - y == -0.5 ==> k % 2 == 0
  {
    var f := y.Floor;
    if y - f as real < 0.5 then f
    else if y - f as real > 0.5 then f + 1
    else if f % 2 == 0 then f
    else f + 1
  }

  /**
   The float64 value nearest to x. Within [1, 2) the values are the
   multiples of 2^-52; every other binade is that one scaled by a power of
   two, and so is the rounding.
   */
  function Round(x: real): (r: real)
    ensures Near(x, r)
    decreases if x < 0.0 then 2 else if x < 1.0 then 1 else 0,
              if 0.0 < x < 1.0 then (1.0 / x).Floor else if x >= 1.0 then x.Floor else 0
  {
    if x < 0.0 then -Round(-x)
    else if x == 0.0 then 0.0
    else if x >= 2.0 then
      HalfFloorSmaller(x);
      2.0 * Round(x / 2.0)
    else if x < 1.0 then
      if 2.0 * x < 1.0 then
        HalfFloorSmaller(1.0 / x);
        assert 1.0 / (2.0 * x) == (1.0 / x) / 2.0;
        Round(2.0 * x) / 2.0
      else
        Round(2.0 * x) / 2.0
    else
      Nearest(x * 4503599627370496.0) as real / 4503599627370496.0
  }

  lemma HalfFloorSmaller(y: real)
    requires y >= 1.0
    ensures (y / 2.0).Floor < y.Floor
  {
    if y >= 2.0 {
      assert y / 2.0 <= y - 1.0;
    }
  }

  /** Go's rounding is faithful. */
  lemma RoundFaithful()
    ensures Faithful(Round)
  {
    forall x ensures Near(x, Round(x)) {
    }
  }

  /** Unit counts up to 2^50 in magnitude: far below the 2^53 where float64 stops holding every integer. */
  const MaxCount: int := 0x4_0000_0000_0000

  /** Go's `x * y` on float64 values. */
  function Mul(round: real -> real, x: real, y: real): real
  {
    round(x * y)
  }

  /** Go's `x / y` on float64 values, for a divisor other than zero. */
  function Div(round: real -> real, x: real, y: real): real
    requires y != 0.0
  {
    round(x / y)
  }

  /**
   A count divided by a divisor other than zero and multiplied back, each step
   rounded, comes back within less than one of the count, and exactly when
   the count is zero.
   */
  lemma QuotientTimesDivisor(round: real -> real, n: int, d: int)
    requires Faithful(round)
    requires -MaxCount <= n <= MaxCount && d != 0
    ensures var back := Mul(round, Div(round, n as real, d as real), d as real);
            n as real - 1.0 < back < n as real + 1.0 && (n == 0 ==> back == 0.0)
  {
    var q := n as real / d as real;
    assert q * d as real == n as real;
    var p := Div(round, n as real, d as real);
    DivNear(round, n as real, d as real, q);
    var y := p * d as real;
    var back := Mul(round, p, d as real);
    MulNear(round, p, d as real, y);
    RoundTrip(n as real, d as real, q, p, y, back);
  }

  lemma DivNear(round: real -> real, x: real, y: real, q: real)
    requires Faithful(round) && y != 0.0 && q * y == x
    ensures Near(q, Div(round, x, y))
  {
    assert q == x / y;
  }

  lemma MulNear(round: real -> real, x: real, y: real, z: real)
    requires Faithful(round) && z == x * y
    ensures Near(z, Mul(round, x, y))
  {
  }

  /** Both roundings within half a unit in the last place keep the round trip within one. */
  lemma RoundTrip(n: real, d: real, q: real, p: real, y: real, r: real)
    requires d != 0.0 && -1125899906842624.0 <= n <= 1125899906842624.0
    requires q * d == n && Near(q, p) && y == p * d && Near(y, r)
    ensures n - 1.0 < r < n + 1.0
    ensures n == 0.0 ==> r == 0.0
  {
    ProductNear(n, d, q, p, y);
    NearTwice(n, y, r);
  }

  /** Scaling a rounded quotient back by its divisor scales the error with it. */
  lemma ProductNear(n: real, d: real, q: real, p: real, y: real)
    requires d != 0.0 && q * d == n && Near(q, p) && y == p * d
    ensures Near(n, y)
  {
    if d < 0.0 {
      assert Near(-q, -p);
      assert (-q) * (-d) == n && (-p) * (-d) == y;
      PositiveProductNear(n, -d, -q, -p, y);
    } else {
      PositiveProductNear(n, d, q, p, y);
    }
  }

  lemma PositiveProductNear(n: real, d: real, q: real, p: real, y: real)
    requires d > 0.0 && q * d == n && Near(q, p) && y == p * d
    ensures Near(n, y)
  {
    if q >= 0.0 {
      Scaled(q - q / 9007199254740992.0, p, d);
      Scaled(p, q + q / 9007199254740992.0, d);
    } else {
      Scaled(q + q / 9007199254740992.0, p, d);
      Scaled(p, q - q / 9007199254740992.0, d);
    }
    assert (q / 9007199254740992.0) * d == n / 9007199254740992.0;
  }

  /** A second rounding of a value near a count keeps it within one of the count. */
  lemma NearTwice(n: real, y: real, r: real)
    requires -1125899906842624.0 <= n <= 1125899906842624.0
    requires Near(n, y) && Near(y, r)
    ensures n - 1.0 < r < n + 1.0
    ensures n == 0.0 ==> r == 0.0
  {
  }

  lemma Scaled(a: real, b: real, c: real)
    requires a <= b && c > 0.0
    ensures a * c <= b * c
  {
  }

  /**
   The read-back can fall short of the count: 29 / 100 rounds to
   5224175567749775 * 2^-54, just below 0.29, and that times 100 rounds to
   8162774324609023 * 2^-48, just below 29.
   */
  lemma TwentyNineHundredths()
    ensures Div(Round, 29.0, 100.0) == 5224175567749775.0 / 18014398509481984.0
    ensures Mul(Round, Div(Round, 29.0, 100.0), 100.0) == 8162774324609023.0 / 281474976710656.0 < 29.0
  {
    var x := 1.16;
    assert Nearest(x * 4503599627370496.0) == 5224175567749775;
    assert Round(x) == 5224175567749775.0 / 4503599627370496.0;
    assert Round(0.58) == Round(x) / 2.0;
    assert Round(0.29) == Round(0.58) / 2.0;
    assert 29.0 / 100.0 == 0.29;
    var p := 5224175567749775.0 / 18014398509481984.0;
    var y := p * 100.0;
    assert Nearest(y / 16.0 * 4503599627370496.0) == 8162774324609023;
    assert Round(y / 16.0) == 8162774324609023.0 / 4503599627370496.0;
    assert Round(y / 8.0) == 2.0 * Round(y / 16.0);
    assert Round(y / 4.0) == 2.0 * Round(y / 8.0);
    assert Round(y / 2.0) == 2.0 * Round(y / 4.0);
    assert Round(y) == 2.0 * Round(y / 2.0);
  }
}

=== FILE: ledger.dfy ===
/**
 The key-value conventions every chaincode module builds on: namespaced
 document keys, the composite keys used as secondary indexes, the rich-query
 selector for an index field, and the JSON arrays that query and history
 answers are serialised into.
 */
module Ledger {
  import opened Results

  /** A document lives under its namespace prefix followed by its own key. */
  function DocKey(ns: string, key: string): (k: string)
    ensures |k| == |ns| + |key| && k[..|ns|] == ns && k[|ns|..] == key
  {
    ns + key
  }

  // ---------------------------------------------------------------------
  // Composite keys (the index entries written with a one-byte 0x00 value)
  // ---------------------------------------------------------------------

  const Nul: char := '\0'
  const MaxRune: char := '\U{10FFFF}'

  /** A component the ledger accepts in a composite key. */
  predicate ValidComponent(s: string)
  {
    forall i :: 0 <= i < |s| ==> s[i] != Nul && s[i] != MaxRune
  }

  /** Each component followed by a NUL terminator. */
  function Terminated(parts: seq<string>): string
  {
    if parts == [] then "" else parts[0] + [Nul] + Terminated(parts[1..])
  }

  /** Index of the first NUL in `s`, or `|s|` when there is none. */
  function FirstNul(s: string): (i: nat)
    ensures i <= |s|
    ensures i < |s| ==> s[i] == Nul
    ensures forall j :: 0 <= j < i ==> s[j] != Nul
  {
    if s == [] then 0 else if s[0] == Nul then 0 else 1 + FirstNul(s[1..])
  }

  /** Splits a run of NUL-terminated components; an unterminated tail is dropped. */
  function Components(s: string): seq<string>
    decreases |s|
  {
    var i := FirstNul(s);
    if i == |s| then [] else [s[..i]] + Components(s[i + 1..])
  }

  /**
   The composite key the ledger derives for an index entry: a NUL, the object
   type, then every attribute, each followed by a NUL. A component holding NUL
   or U+10FFFF is refused.
   */
  function CompositeKey(objectType: string, attrs: seq<string>): (r: Option<string>)
    ensures r.Some? <==> ValidComponent(objectType) && forall i :: 0 <= i < |attrs| ==> ValidComponent(attrs[i])
    ensures r.Some? ==> |r.value| > 0 && r.value[0] == Nul
  {
    if ValidComponent(objectType) && forall i :: 0 <= i < |attrs| ==> ValidComponent(attrs[i]) then
      Some([Nul] + Terminated([objectType] + attrs))
    else
      None
  }

  /** The ledger's inverse of `CompositeKey`: object type and attributes. */
  function SplitCompositeKey(key: string): Option<(string, seq<string>)>
  {
    if |key| == 0 || key[0] != Nul then None
    else
      var parts := Components(key[1..]);
      if parts == [] then None else Some((parts[0], parts[1..]))
  }

  lemma {:induction false} FirstNulAfterComponent(p: string, rest: string)
    requires ValidComponent(p)
    ensures FirstNul(p + [Nul] + rest) == |p|
    decreases |p|
  {
    if p != [] {
      assert (p + [Nul] + rest)[1..] == p[1..] + [Nul] + rest;
      FirstNulAfterComponent(p[1..], rest);
    }
  }

  lemma {:induction false} ComponentsOfTerminated(parts: seq<string>)
    requires forall i :: 0 <= i < |parts| ==> ValidComponent(parts[i])
    ensures Components(Terminated(parts)) == parts
    decreases |parts|
  {
    if parts != [] {
      var s := Terminated(parts);
      assert s == parts[0] + [Nul] + Terminated(parts[1..]);
      FirstNulAfterComponent(parts[0], Terminated(parts[1..]));
      assert s[..|parts[0]|] == parts[0];
      assert s[|parts[0]| + 1..] == Terminated(parts[1..]);
      ComponentsOfTerminated(parts[1..]);
    }
  }

  /** Splitting a composite key gives back exactly what it was built from. */
  lemma CompositeKeyRoundTrip(objectType: string, attrs: seq<string>)
    requires CompositeKey(objectType, attrs).Some?
    ensures SplitCompositeKey(CompositeKey(objectType, attrs).value) == Some((objectType, attrs))
  {
    var key := CompositeKey(objectType, attrs).value;
    assert key[1..] == Terminated([objectType] + attrs);
    ComponentsOfTerminated([objectType] + attrs);
    assert ([objectType] + attrs)[1..] == attrs;
  }

  /** Distinct index entries never share a composite key. */
  lemma CompositeKeyInjective(t1: string, a1: seq<string>, t2: string, a2: seq<string>)
    requires CompositeKey(t1, a1).Some? && CompositeKey(t2, a2).Some?
    requires CompositeKey(t1, a1) == CompositeKey(t2, a2)
    ensures t1 == t2 && a1 == a2
  {
    CompositeKeyRoundTrip(t1, a1);
    CompositeKeyRoundTrip(t2, a2);
  }

  /** An index entry can never overwrite a document stored under a namespace. */
  lemma CompositeKeyIsNotDocKey(objectType: string, attrs: seq<string>, ns: string, key: string)
    requires CompositeKey(objectType, attrs).Some?
    requires ns != [] && ns[0] != Nul
    ensures CompositeKey(objectType, attrs).value != DocKey(ns, key)
  {
  }

  /** An index entry as the model keeps it: the object type and the attributes. */
  datatype IndexEntry = IndexEntry(objectType: string, attrs: seq<string>)

  /** The index entry `createCKeyWithNamespace` writes. */
  function IndexOf(ns: string, idxName: string, attrs: seq<string>): (e: IndexEntry)
    ensures e.objectType == DocKey(ns, idxName) && e.attrs == attrs
  {
    IndexEntry(ns + idxName, attrs)
  }

  /** Within one namespace, distinct index names or attributes never give the same entry. */
  lemma IndexOfInjective(ns: string, i1: string, a1: seq<string>, i2: string, a2: seq<string>)
    requires IndexOf(ns, i1, a1) == IndexOf(ns, i2, a2)
    ensures i1 == i2 && a1 == a2
  {
    assert i1 == (ns + i1)[|ns|..];
    assert i2 == (ns + i2)[|ns|..];
  }

  // ---------------------------------------------------------------------
  // Rich-query selector on one indexed field
  // ---------------------------------------------------------------------

  function SelectorPrefix(docType: string, field: string): string
  {
    "{\"selector\":{\"docType\":\"" + docType + "\",\"" + field + "\":\""
  }

  /** The CouchDB selector `queryDocsByIdxkey` sends for one field value. */
  function Selector(docType: string, field: string, value: string): (q: string)
    ensures |q| == |SelectorPrefix(docType, field)| + |value| + 3
    ensures q[..|SelectorPrefix(docType, field)|] == SelectorPrefix(docType, field)
  {
    SelectorPrefix(docType, field) + value + "\"}}"
  }

  /** Two lookups on the same field send the same selector only for the same value. */
  lemma SelectorInjective(docType: string, field: string, v1: string, v2: string)
    requires Selector(docType, field, v1) == Selector(docType, field, v2)
    ensures v1 == v2
  {
    var p := SelectorPrefix(docType, field);
    var q1 := Selector(docType, field, v1);
    var q2 := Selector(docType, field, v2);
    assert |v1| == |v2|;
    assert q1[|p|..|p| + |v1|] == v1;
    assert q2[|p|..|p| + |v2|] == v2;
  }

  // ---------------------------------------------------------------------
  // JSON arrays of query rows and history entries
  // ---------------------------------------------------------------------

  /** Items separated by commas. */
  function Joined(items: seq<string>): string
  {
    if items == [] then "" else if |items| == 1 then items[0] else items[0] + "," + Joined(items[1..])
  }

  /** A JSON array whose members are the given (already serialised) items. */
  function JsonArray(items: seq<string>): string
  {
    "[" + Joined(items) + "]"
  }

  lemma {:induction false} JoinedSnoc(items: seq<string>, x: string)
    ensures Joined(items + [x]) == if items == [] then x else Joined(items) + "," + x
    decreases |items|
  {
    if |items| == 1 {
      assert items + [x] == [items[0], x];
    } else if |items| > 1 {
      assert (items + [x])[1..] == items[1..] + [x];
      JoinedSnoc(items[1..], x);
    }
  }

  datatype QueryRow = QueryRow(key: string, record: string)

  /** One query row: the key quoted, the record written as-is. */
  function RowJson(r: QueryRow): string
  {
    "{\"Key\":\"" + r.key + "\", \"Record\":" + r.record + "}"
  }

  function RowsJson(rows: seq<QueryRow>): (items: seq<string>)
    ensures |items| == |rows|
    ensures forall i :: 0 <= i < |rows| ==> items[i] == RowJson(rows[i])
  {
    seq(|rows|, i requires 0 <= i < |rows| => RowJson(rows[i]))
  }

  /**
   The buffer loop shared by query and history answers: an opening bracket,
   a comma before every item but the first (tracked by a flag), the closing
   bracket.
   */
  method WriteArray(items: seq<string>) returns (json: string)
    ensures json == JsonArray(items)
    ensures items == [] ==> json == "[]"
  {
    json := "[";
    var written := false;
    var i := 0;
    while i < |items|
      invariant 0 <= i <= |items|
      invariant written <==> i > 0
      invariant json == "[" + Joined(items[..i])
    {
      if written {
        json := json + ",";
      }
      json := json + items[i];
      written := true;
      JoinedSnoc(items[..i], items[i]);
      assert items[..i + 1] == items[..i] + [items[i]];
      i := i + 1;
    }
    assert items[..i] == items;
    json := json + "]";
  }

  /** The answer of `getQueryResultForQueryString`: every row in iterator order. */
  method QueryResultJson(rows: seq<QueryRow>) returns (json: string)
    ensures json == JsonArray(RowsJson(rows))
    ensures rows == [] ==> json == "[]"
  {
    json := WriteArray(RowsJson(rows));
  }

  /** One entry of a key's history; the timestamp is already formatted. */
  datatype HistoryEntry = HistoryEntry(txId: string, value: string, timestamp: string, isDelete: bool)

  function EntryJson(e: HistoryEntry): string
  {
    "{\"TxId\":\"" + e.txId + "\", \"Value\":" + (if e.isDelete then "null" else e.value)
    + ", \"Timestamp\":\"" + e.timestamp + "\", \"IsDelete\":\"" + (if e.isDelete then "true" else "false") + "\"}"
  }

  function EntriesJson(entries: seq<HistoryEntry>): (items: seq<string>)
    ensures |items| == |entries|
    ensures forall i :: 0 <= i < |entries| ==> items[i] == EntryJson(entries[i])
  {
    seq(|entries|, i requires 0 <= i < |entries| => EntryJson(entries[i]))
  }

  /**
   The answer of `getHistoryForDocWithNamespace`: an empty document key is
   refused; otherwise every entry in order, a deleted value written as null.
   */
  method HistoryJson(docKey: string, entries: seq<HistoryEntry>) returns (r: Option<string>)
    ensures r.None? <==> docKey == ""
    ensures r.Some? ==> r.value == JsonArray(EntriesJson(entries))
  {
    if |docKey| < 1 {
      return None;
    }
    var json := WriteArray(EntriesJson(entries));
    r := Some(json);
  }

  /**
   A deleted entry's value never leaks into the history answer: two deleted
   entries of the same transaction and time read the same whatever values
   they carried.
   */
  lemma DeletedValueHidden(e1: HistoryEntry, e2: HistoryEntry)
    requires e1.isDelete && e2.isDelete && e1.txId == e2.txId && e1.timestamp == e2.timestamp
    ensures EntryJson(e1) == EntryJson(e2)
  {
  }
}

=== FILE: lifecycle.dfy ===
/**
 The life of a securitised asset from registration to repurchase, except the
 underwriting claims (module `Underwriting`) and the share split and
 ownership transfer (module `Shares`). Every operation checks the stored
 status (and, where the source does, its description) before it writes, and
 touches no document but the asset record.
 */
module Lifecycle {
  import opened Results
  import opened Ledger
  import opened Codes
  import opened State

  /** The terms an owner registers and may edit before approval. */
  datatype Terms = Terms(
    picHashs: string, desc: string, assetType: string, ccy: string, amt: real, parts: int,
    dividend: real, repurchasePeriod: int, underwritePeriod: int, bottomPercent: real,
    allowDelegate: bool, proofHashs: string)

  function TermsOf(a: Asset): Terms
  {
    Terms(a.picHashs, a.desc, a.assetType, a.ccy, a.amt, a.parts, a.dividend,
          a.repurchasePeriod, a.underwritePeriod, a.bottomPercent, a.allowDelegate, a.proofHashs)
  }

  function WithTerms(a: Asset, t: Terms): (b: Asset)
    ensures TermsOf(b) == t
    ensures b == a.(picHashs := b.picHashs, desc := b.desc, assetType := b.assetType, ccy := b.ccy,
                    amt := b.amt, parts := b.parts, dividend := b.dividend,
                    repurchasePeriod := b.repurchasePeriod, underwritePeriod := b.underwritePeriod,
                    bottomPercent := b.bottomPercent, allowDelegate := b.allowDelegate,
                    proofHashs := b.proofHashs)
  {
    a.(picHashs := t.picHashs, desc := t.desc, assetType := t.assetType, ccy := t.ccy, amt := t.amt,
       parts := t.parts, dividend := t.dividend, repurchasePeriod := t.repurchasePeriod,
       underwritePeriod := t.underwritePeriod, bottomPercent := t.bottomPercent,
       allowDelegate := t.allowDelegate, proofHashs := t.proofHashs)
  }

  /**
   The textual checks on registration and edit arguments: owner e-mail, asset
   name, type and currency non-empty, both hash lists longer than five
   characters. The description is not checked.
   */
  predicate ValidTerms(ownerEmail: string, name: string, t: Terms)
  {
    ownerEmail != "" && name != "" && |t.picHashs| > 5 && t.assetType != "" && t.ccy != "" && |t.proofHashs| > 5
  }

  /**
   The guarded edges of the asset state machine: a platform review decision
   from anywhere, a void from anywhere, back to 00 after an edit of a
   rejected asset, and the forward path of underwriting, split, ownership
   transfer and repurchase.
   */
  predicate Edge(from: string, to: string)
  {
    || IsReviewStatus(to)
    || (from == StRejected && to == StInit)
    || (from == StApproved && to == StUnderwriting)
    || (from == StUnderwriting && to == StHalted)
    || (from == StHalted && to == StUnderwriting)
    || ((from == StUnderwriting || from == StHalted) && (to == StUnderwriteSucceeded || to == StUnderwriteFailed))
    || (from == StUnderwriteSucceeded && to == StUnitsInitialized)
    || (from == StUnitsInitialized && to == StOwnershipEffected)
    || (from == StOwnershipEffected && to == StRepurchased)
  }

  /** The asset `name` kept its status or moved along an edge. */
  predicate Guarded(w: World, w': World, name: string)
  {
    name in w.assets && name in w'.assets ==>
      w'.assets[name].status == w.assets[name].status || Edge(w.assets[name].status, w'.assets[name].status)
  }

  /** A stored deadline, given as seconds, plus a number of days. */
  function AddDays(t: int, days: int): (r: int)
    ensures r - t == days * SecondsPerDay
  {
    t + days * SecondsPerDay
  }

  /**
   The deadline check of `stopUnderwriteAndCalculateResults` and
   `repurchase`: unless told to ignore it, the stored deadline must parse
   and must not lie after `now`.
   */
  function DeadlineReached(due: Option<int>, now: int, ignoreDue: bool): (e: Option<ErrorKind>)
    ensures e.None? <==> ignoreDue || (due.Some? && due.value <= now)
    ensures e.Some? ==> e.value == (if due.None? then BadTime else DeadlineNotReached)
  {
    if ignoreDue then None
    else if due.None? then Some(BadTime)
    else if due.value > now then Some(DeadlineNotReached)
    else None
  }

  /** The asset record `initAssetSecuritized` creates. */
  function NewAsset(ownerEmail: string, name: string, t: Terms, ownerSig: string): Asset
  {
    Asset(ownerEmail, name, t.picHashs, t.desc, t.assetType, t.ccy, t.amt, t.parts, t.dividend,
          t.repurchasePeriod, t.underwritePeriod, t.bottomPercent, t.allowDelegate, t.proofHashs,
          StInit, DescInit, None, None, None, 0.0, "", "", ownerSig, "")
  }

  /**
   `initAssetSecuritized`: an approved owner with an approved identity record
   registers a new asset name. The number of parts is taken as given.
   */
  function InitAsset(w: World, ownerEmail: string, name: string, t: Terms, ownerSig: string): (r: Reply)
    ensures r.outcome.Ok? <==>
      && ValidTerms(ownerEmail, name, t)
      && w.LoginApproved(Owner, ownerEmail) && w.IdentityApproved(Owner, ownerEmail)
      && name !in w.assets
    ensures r.outcome.Ok? ==>
      && name in r.world.assets
      && var a := r.world.assets[name];
      && TermsOf(a) == t && a.ownerEmail == ownerEmail && a.name == name
      && a.status == StInit && a.comment == DescInit && a.percent == 0.0
      && a.underwriteStart.None? && a.underwriteDue.None? && a.repurchaseDue.None?
      && r.world.index == w.index + {IndexOf(NsAsset, IdxAssetStatus, [StInit, name])}
      && OnlyAsset(w.(index := r.world.index), r.world, name)
    ensures !r.outcome.Ok? ==> r.world == w
  {
    if !ValidTerms(ownerEmail, name, t) then Fail(BadArguments, w)
    else if w.Login(Owner, ownerEmail).None? then Fail(NotFound, w)
    else if w.Login(Owner, ownerEmail).value.status != StApproved then Fail(NotApproved, w)
    else if w.Identity(Owner, ownerEmail).None? then Fail(NotFound, w)
    else if w.Identity(Owner, ownerEmail).value.status != StApproved then Fail(NotApproved, w)
    else if name in w.assets then Fail(AlreadyExists, w)
    else
      var a := NewAsset(ownerEmail, name, t, ownerSig);
      Done(w.WithAsset(name, a).Indexed(IndexOf(NsAsset, IdxAssetStatus, [a.status, a.name])))
  }

  /**
   `changeAssetSecuritizedStatus`: the platform's review decision. Any of
   01, 02, 03, 99 is written over whatever the current status is, together
   with the comment and the platform signature; an identical status and
   comment is a success without a write.
   */
  function ChangeAssetStatus(w: World, name: string, sig: string, status: string, desc: string): (r: Reply)
    ensures r.outcome.Ok? <==> IsReviewStatus(status) && name in w.assets
    ensures r.outcome.Ok? ==>
      && name in r.world.assets
      && r.world.assets[name].status == status && r.world.assets[name].comment == desc
      && OnlyAsset(w, r.world, name)
      && Guarded(w, r.world, name)
    ensures r.outcome.Ok? && (w.assets[name].status != status || w.assets[name].comment != desc) ==>
      r.world.assets[name] == w.assets[name].(status := status, comment := desc, ihtSig := sig)
    ensures r.outcome.Ok? && w.assets[name].status == status && w.assets[name].comment == desc ==> r.world == w
    ensures !r.outcome.Ok? ==> r.world == w
  {
    if !IsReviewStatus(status) then Fail(BadArguments, w)
    else if name !in w.assets then Fail(NotFound, w)
    else
      var a := w.assets[name];
      if a.status == status && a.comment == desc then Done(w)
      else Done(w.WithAsset(name, a.(status := status, comment := desc, ihtSig := sig)))
  }

  /** `approveAssetSecuritized`: the current status is not consulted. */
  function ApproveAsset(w: World, name: string, sig: string): (r: Reply)
    ensures r.outcome.Ok? <==> name in w.assets
    ensures r.outcome.Ok? ==> name in r.world.assets && r.world.assets[name].status == StApproved
  {
    ChangeAssetStatus(w, name, sig, StApproved, DescApproved)
  }

  /** `rejectAssetSecuritized`: the current status is not consulted. */
  function RejectAsset(w: World, name: string, sig: string): (r: Reply)
    ensures r.outcome.Ok? <==> name in w.assets
    ensures r.outcome.Ok? ==> name in r.world.assets && r.world.assets[name].status == StRejected
  {
    ChangeAssetStatus(w, name, sig, StRejected, DescRejected)
  }

  /** `deleteAssetSecuritized`: a soft delete to 99 "IHT deleted". */
  function DeleteAsset(w: World, name: string): (r: Reply)
    ensures r.outcome.Ok? <==> name in w.assets
    ensures r.outcome.Ok? ==>
      && name in r.world.assets && r.world.assets[name].status == StNiled
      && OnlyAsset(w, r.world, name)
      && Guarded(w, r.world, name)
    ensures r.outcome.Ok? && w.assets[name].status == StNiled ==> r.world == w
    ensures r.outcome.Ok? && w.assets[name].status != StNiled ==>
      r.world.assets[name] == w.assets[name].(status := StNiled, comment := DescNiled)
    ensures !r.outcome.Ok? ==> r.world == w
  {
    if name !in w.assets then Fail(NotFound, w)
    else
      var a := w.assets[name];
      if a.status == StNiled then Done(w)
      else Done(w.WithAsset(name, a.(status := StNiled, comment := DescNiled)))
  }

  /**
   `changeAssetSecuritized`: the recorded owner edits the terms while the
   asset is 00 or 03. Nothing is written when neither the terms nor the
   owner signature differ; a rejected asset that does change goes back to 00
   "init with change" and loses the platform signature.
   */
  function ChangeAsset(w: World, ownerEmail: string, name: string, t: Terms, ownerSig: string): (r: Reply)
    ensures r.outcome.Ok? <==>
      && ValidTerms(ownerEmail, name, t) && name in w.assets
      && (w.assets[name].status == StInit || w.assets[name].status == StRejected)
      && w.assets[name].ownerEmail == ownerEmail
    ensures r.outcome.Ok? ==>
      && name in r.world.assets
      && TermsOf(r.world.assets[name]) == t && r.world.assets[name].ownerSig == ownerSig
      && OnlyAsset(w, r.world, name)
      && Guarded(w, r.world, name)
    ensures r.outcome.Ok? ==>
      var prev := w.assets[name];
      var next := r.world.assets[name];
      if TermsOf(prev) == t && prev.ownerSig == ownerSig then r.world == w
      else if prev.status == StRejected then next.status == StInit && next.comment == DescInitChange && next.ihtSig == ""
      else next.status == prev.status && next.comment == prev.comment && next.ihtSig == prev.ihtSig
    ensures !r.outcome.Ok? ==> r.world == w
  {
    if !ValidTerms(ownerEmail, name, t) then Fail(BadArguments, w)
    else if name !in w.assets then Fail(NotFound, w)
    else
      var a := w.assets[name];
      if a.status != StInit && a.status != StRejected then Fail(WrongStatus, w)
      else if a.ownerEmail != ownerEmail then Fail(NotOwner, w)
      else if TermsOf(a) == t && a.ownerSig == ownerSig then Done(w)
      else
        var b := if a.status == StRejected then a.(status := StInit, comment := DescInitChange, ihtSig := "") else a;
        Done(w.WithAsset(name, WithTerms(b, t).(ownerSig := ownerSig)))
  }

  /**
   `startUnderwrite`: an approved asset opens its underwriting window at
   `now`. The window closes `underwritePeriod` days later and repurchase is
   due `repurchasePeriod` days after that; the cached percentage restarts at
   zero.
   */
  function StartUnderwrite(w: World, name: string, sig: string, now: int): (r: Reply)
    ensures r.outcome.Ok? <==> name in w.assets && w.assets[name].status == StApproved
    ensures name in w.assets && w.assets[name].status == StUnderwriting && w.assets[name].comment == DescUnderwriting
            ==> r == Fail(AlreadyInStatus, w)
    ensures r.outcome.Ok? ==>
      && name in r.world.assets
      && var a := r.world.assets[name];
      && a.status == StUnderwriting && a.comment == DescUnderwriting && a.ihtSig == sig
      && a.underwriteStart == Some(now)
      && a.underwriteDue == Some(AddDays(now, a.underwritePeriod))
      && a.repurchaseDue == Some(AddDays(a.underwriteDue.value, a.repurchasePeriod))
      && a.percent == 0.0
      && TermsOf(a) == TermsOf(w.assets[name])
      && OnlyAsset(w, r.world, name)
      && Guarded(w, r.world, name)
    ensures !r.outcome.Ok? ==> r.world == w
  {
    if name !in w.assets then Fail(NotFound, w)
    else
      var a := w.assets[name];
      if a.status == StUnderwriting && a.comment == DescUnderwriting then Fail(AlreadyInStatus, w)
      else if a.status != StApproved then Fail(WrongStatus, w)
      else
        var due := AddDays(now, a.underwritePeriod);
        Done(w.WithAsset(name, a.(ihtSig := sig, status := StUnderwriting, comment := DescUnderwriting,
                            underwriteStart := Some(now), underwriteDue := Some(due),
                            repurchaseDue := Some(AddDays(due, a.repurchasePeriod)), percent := 0.0)))
  }

  /**
   `haltUnderwrite`: pauses an underwriting asset; an asset already halted
   (status and description) is a success without a write.
   */
  function HaltUnderwrite(w: World, name: string, sig: string): (r: Reply)
    ensures r.outcome.Ok? <==>
      name in w.assets
      && (w.assets[name].status == StUnderwriting
          || (w.assets[name].status == StHalted && w.assets[name].comment == DescHalted))
    ensures r.outcome.Ok? ==>
      && name in r.world.assets
      && r.world.assets[name].status == StHalted && r.world.assets[name].comment == DescHalted
      && OnlyAsset(w, r.world, name)
      && Guarded(w, r.world, name)
    ensures r.outcome.Ok? && w.assets[name].status == StUnderwriting ==>
      r.world.assets[name] == w.assets[name].(ihtSig := sig, status := StHalted, comment := DescHalted)
    ensures r.outcome.Ok? && w.assets[name].status == StHalted ==> r.world == w
    ensures !r.outcome.Ok? ==> r.world == w
  {
    if name !in w.assets then Fail(NotFound, w)
    else
      var a := w.assets[name];
      if a.status == StHalted && a.comment == DescHalted then Done(w)
      else if a.status != StUnderwriting then Fail(WrongStatus, w)
      else Done(w.WithAsset(name, a.(ihtSig := sig, status := StHalted, comment := DescHalted)))
  }

  /**
   `resumeUnderwrite`: the mirror of `haltUnderwrite`, from 11 back to 10;
   an asset already underwriting is a success without a write.
   */
  function ResumeUnderwrite(w: World, name: string, sig: string): (r: Reply)
    ensures r.outcome.Ok? <==>
      name in w.assets
      && (w.assets[name].status == StHalted
          || (w.assets[name].status == StUnderwriting && w.assets[name].comment == DescUnderwriting))
    ensures r.outcome.Ok? ==>
      && name in r.world.assets
      && r.world.assets[name].status == StUnderwriting && r.world.assets[name].comment == DescUnderwriting
      && OnlyAsset(w, r.world, name)
      && Guarded(w, r.world, name)
    ensures r.outcome.Ok? && w.assets[name].status == StHalted ==>
      r.world.assets[name] == w.assets[name].(ihtSig := sig, status := StUnderwriting, comment := DescUnderwriting)
    ensures r.outcome.Ok? && w.assets[name].status == StUnderwriting ==> r.world == w
    ensures !r.outcome.Ok? ==> r.world == w
  {
    if name !in w.assets then Fail(NotFound, w)
    else
      var a := w.assets[name];
      if a.status == StUnderwriting && a.comment == DescUnderwriting then Done(w)
      else if a.status != StHalted then Fail(WrongStatus, w)
      else Done(w.WithAsset(name, a.(ihtSig := sig, status := StUnderwriting, comment := DescUnderwriting)))
  }

  /**
   `stopUnderwriteAndCalculateResults`: closes the window of an asset that
   is underwriting or halted, once the due time has passed or when told to
   ignore it. The outcome compares the cached percentage with the floor: 13
   strictly below it, 12 at or above it.
   */
  function StopUnderwrite(w: World, name: string, ignoreDue: bool, sig: string, now: int): (r: Reply)
    ensures r.outcome.Ok? <==>
      && name in w.assets
      && (w.assets[name].status == StUnderwriting || w.assets[name].status == StHalted)
      && DeadlineReached(w.assets[name].underwriteDue, now, ignoreDue).None?
    ensures r.outcome.Ok? ==>
      && name in r.world.assets
      && var prev := w.assets[name];
      && var next := r.world.assets[name];
      && (next.status == StUnderwriteFailed <==> prev.percent < prev.bottomPercent)
      && (next.status == StUnderwriteSucceeded <==> prev.percent >= prev.bottomPercent)
      && next == prev.(ihtSig := sig, status := next.status, comment := next.comment)
      && OnlyAsset(w, r.world, name)
      && Guarded(w, r.world, name)
    ensures !r.outcome.Ok? ==> r.world == w
  {
    if name !in w.assets then Fail(NotFound, w)
    else
      var a := w.assets[name];
      if a.status != StUnderwriting && a.status != StHalted then Fail(WrongStatus, w)
      else
        var gate := DeadlineReached(a.underwriteDue, now, ignoreDue);
        if gate.Some? then Fail(gate.value, w)
        else if a.percent < a.bottomPercent then
          Done(w.WithAsset(name, a.(ihtSig := sig, status := StUnderwriteFailed, comment := DescUnderwriteFailed)))
        else
          Done(w.WithAsset(name, a.(ihtSig := sig, status := StUnderwriteSucceeded, comment := DescUnderwriteSucceeded)))
  }

  /**
   `repurchase`: an asset whose ownership transfer took effect is
   repurchased once its repurchase due time has passed (or when told to
   ignore it). A second repurchase is refused.
   */
  function Repurchase(w: World, name: string, ignoreDue: bool, sig: string, now: int): (r: Reply)
    ensures r.outcome.Ok? <==>
      && name in w.assets
      && w.assets[name].status == StOwnershipEffected
      && DeadlineReached(w.assets[name].repurchaseDue, now, ignoreDue).None?
    ensures name in w.assets && w.assets[name].status == StRepurchased && w.assets[name].comment == DescRepurchased
            ==> r == Fail(AlreadyInStatus, w)
    ensures r.outcome.Ok? ==>
      && name in r.world.assets
      && r.world.assets[name] == w.assets[name].(ihtSig := sig, status := StRepurchased, comment := DescRepurchased)
      && OnlyAsset(w, r.world, name)
      && Guarded(w, r.world, name)
    ensures !r.outcome.Ok? ==> r.world == w
  {
    if name !in w.assets then Fail(NotFound, w)
    else
      var a := w.assets[name];
      if a.status == StRepurchased && a.comment == DescRepurchased then Fail(AlreadyInStatus, w)
      else if a.status != StOwnershipEffected then Fail(WrongStatus, w)
      else
        var gate := DeadlineReached(a.repurchaseDue, now, ignoreDue);
        if gate.Some? then Fail(gate.value, w)
        else Done(w.WithAsset(name, a.(ihtSig := sig, status := StRepurchased, comment := DescRepurchased)))
  }

  // ---------------------------------------------------------------------
  // Retries and round trips
  // ---------------------------------------------------------------------

  /** A repeated review decision is a success that writes nothing. */
  lemma ChangeAssetStatusIdempotent(w: World, name: string, sig: string, status: string, desc: string)
    requires ChangeAssetStatus(w, name, sig, status, desc).outcome.Ok?
    ensures var w1 := ChangeAssetStatus(w, name, sig, status, desc).world;
            ChangeAssetStatus(w1, name, sig, status, desc) == Done(w1)
  {
  }

  /** Deleting twice leaves the state of the first deletion. */
  lemma DeleteAssetIdempotent(w: World, name: string)
    requires DeleteAsset(w, name).outcome.Ok?
    ensures var w1 := DeleteAsset(w, name).world; DeleteAsset(w1, name) == Done(w1)
  {
  }

  /** Halting twice leaves the state of the first halt. */
  lemma HaltIdempotent(w: World, name: string, sig: string, sig2: string)
    requires HaltUnderwrite(w, name, sig).outcome.Ok?
    ensures var w1 := HaltUnderwrite(w, name, sig).world; HaltUnderwrite(w1, name, sig2) == Done(w1)
  {
  }

  /** Resuming twice leaves the state of the first resume. */
  lemma ResumeIdempotent(w: World, name: string, sig: string, sig2: string)
    requires ResumeUnderwrite(w, name, sig).outcome.Ok?
    ensures var w1 := ResumeUnderwrite(w, name, sig).world; ResumeUnderwrite(w1, name, sig2) == Done(w1)
  {
  }

  /** Halting then resuming an underwriting asset restores it, up to the platform signature. */
  lemma HaltResumeRoundTrip(w: World, name: string, sig1: string, sig2: string)
    requires name in w.assets
    requires w.assets[name].status == StUnderwriting && w.assets[name].comment == DescUnderwriting
    ensures var w1 := HaltUnderwrite(w, name, sig1).world;
            var w2 := ResumeUnderwrite(w1, name, sig2).world;
            ResumeUnderwrite(w1, name, sig2).outcome.Ok?
            && w2 == w.WithAsset(name, w.assets[name].(ihtSig := sig2))
  {
    var w1 := HaltUnderwrite(w, name, sig1).world;
    assert w1.assets[name] == w.assets[name].(ihtSig := sig1, status := StHalted, comment := DescHalted);
  }

  /** A second start while underwriting is refused and writes nothing. */
  lemma StartTwiceRefused(w: World, name: string, sig: string, now: int, sig2: string, later: int)
    requires StartUnderwrite(w, name, sig, now).outcome.Ok?
    ensures var w1 := StartUnderwrite(w, name, sig, now).world;
            StartUnderwrite(w1, name, sig2, later) == Fail(AlreadyInStatus, w1)
  {
  }

  /** A second repurchase is refused and writes nothing. */
  lemma RepurchaseTwiceRefused(w: World, name: string, ignoreDue: bool, sig: string, now: int, sig2: string, later: int)
    requires Repurchase(w, name, ignoreDue, sig, now).outcome.Ok?
    ensures var w1 := Repurchase(w, name, ignoreDue, sig, now).world;
            Repurchase(w1, name, ignoreDue, sig2, later) == Fail(AlreadyInStatus, w1)
  {
  }

  /**
   Without the override, underwriting cannot be stopped before its due time:
   a window opened at `start` is still open until `underwritePeriod` days
   have passed.
   */
  lemma StopWaitsForDueTime(w: World, name: string, sig: string, start: int, sig2: string, now: int)
    requires StartUnderwrite(w, name, sig, start).outcome.Ok?
    ensures var w1 := StartUnderwrite(w, name, sig, start).world;
            StopUnderwrite(w1, name, false, sig2, now).outcome.Ok?
            <==> now >= AddDays(start, w.assets[name].underwritePeriod)
  {
  }

  /** A registered asset reads back as registered, and its name cannot be registered again, whatever the new terms. */
  lemma InitAssetThenRegisterRefused(w: World, ownerEmail: string, name: string, t: Terms, ownerSig: string,
                                     t2: Terms, ownerSig2: string)
    requires InitAsset(w, ownerEmail, name, t, ownerSig).outcome.Ok?
    requires ValidTerms(ownerEmail, name, t2)
    ensures var w1 := InitAsset(w, ownerEmail, name, t, ownerSig).world;
            && w1.assets[name] == NewAsset(ownerEmail, name, t, ownerSig)
            && InitAsset(w1, ownerEmail, name, t2, ownerSig2) == Fail(AlreadyExists, w1)
  {
  }

  /**
   A newly registered asset cannot open underwriting until the platform
   approves it, and once approved it can.
   */
  lemma StartNeedsApproval(w: World, ownerEmail: string, name: string, t: Terms, ownerSig: string,
                           sig: string, now: int)
    requires InitAsset(w, ownerEmail, name, t, ownerSig).outcome.Ok?
    ensures var w1 := InitAsset(w, ownerEmail, name, t, ownerSig).world;
            && StartUnderwrite(w1, name, sig, now) == Fail(WrongStatus, w1)
            && StartUnderwrite(ApproveAsset(w1, name, sig).world, name, sig, now).outcome.Ok?
  {
    var w1 := InitAsset(w, ownerEmail, name, t, ownerSig).world;
    assert w1.assets[name].status == StInit;
  }

  /** Only the recorded owner may edit an asset: anyone else is refused and nothing is written. */
  lemma ChangeAssetByOtherRefused(w: World, other: string, name: string, t: Terms, ownerSig: string)
    requires name in w.assets && w.assets[name].ownerEmail != other
    ensures ChangeAsset(w, other, name, t, ownerSig).world == w
    ensures !ChangeAsset(w, other, name, t, ownerSig).outcome.Ok?
  {
  }

  /** Repeating an edit is a success that writes nothing. */
  lemma ChangeAssetIdempotent(w: World, ownerEmail: string, name: string, t: Terms, ownerSig: string)
    requires ChangeAsset(w, ownerEmail, name, t, ownerSig).outcome.Ok?
    ensures var w1 := ChangeAsset(w, ownerEmail, name, t, ownerSig).world;
            ChangeAsset(w1, ownerEmail, name, t, ownerSig) == Done(w1)
  {
  }
}

=== FILE: onboarding.dfy ===
/**
 Registration and review of the two kinds of parties, asset owners and
 financial institutions. Both follow the same state machine over a login
 record and an identity record: created in 00, reviewed by the platform into
 01/02/03/99, edited back to 00 after a rejection, and voided by setting 99.
 Arguments arrive as the chaincode's list of strings.
 */
module Onboarding {
  import opened Results
  import opened Ledger
  import opened Codes
  import opened State

  /** Every argument in `args[lo..hi]` is non-empty. */
  predicate AllPresent(args: seq<string>, lo: int, hi: int)
    requires 0 <= lo <= hi <= |args|
  {
    forall i :: lo <= i < hi ==> args[i] != ""
  }

  /**
   The ten arguments of an identity record: e-mail, real name and contact
   non-empty, one of the three identity pictures and one of the four proof
   pictures.
   */
  predicate DetailArgs(args: seq<string>)
  {
    && |args| == 10 && args[0] != "" && args[1] != "" && args[2] != ""
    && (args[3] != "" || args[4] != "" || args[5] != "")
    && (args[6] != "" || args[7] != "" || args[8] != "" || args[9] != "")
  }

  /**
   The login record of a party as `readAssetOwner` / `readFininst` answer
   it: the document stored under the login key, whatever its kind.
   */
  function ReadParty(w: World, role: Role, email: string): (r: Option<PartyDoc>)
    ensures r.Some? <==> w.Login(role, email).Some?
    ensures r.Some? ==> AsParty(r.value) == w.Login(role, email).value
  {
    var k := w.LoginKey(role, email);
    if k in w.Docs(role) then Some(w.Docs(role)[k]) else None
  }

  /**
   `initAssetOwner` / `initFininst`: e-mail, nickname and password hash, all
   non-empty; a fresh login record in 00 "init", indexed by its status.
   Any document under the login key, of either kind, refuses the e-mail.
   */
  function InitParty(w: World, role: Role, args: seq<string>): (r: Reply)
    ensures r.outcome.Ok? <==> |args| == 3 && AllPresent(args, 0, 3) && w.Login(role, args[0]).None?
    ensures r.outcome.Ok? ==>
      && r.world.Login(role, args[0]) == Some(Party(args[0], args[1], args[2], StInit, DescInit))
      && r.world.index == w.index + {IndexOf(PartyNs(w.layout, role), PartyStatusIdx(role), [StInit, args[0]])}
      && OnlyAt(w, r.world.(index := w.index), role, {w.LoginKey(role, args[0])})
    ensures !r.outcome.Ok? ==> r.world == w
  {
    if |args| != 3 then Fail(BadArguments, w)
    else if args[0] == "" || args[1] == "" || args[2] == "" then Fail(BadArguments, w)
    else if w.Login(role, args[0]).Some? then Fail(AlreadyExists, w)
    else
      var p := Party(args[0], args[1], args[2], StInit, DescInit);
      var w1 := w.WithLogin(role, p.email, p);
      assert w1.Indexed(IndexOf(PartyNs(w.layout, role), PartyStatusIdx(role), [p.status, p.email])).(index := w.index) == w1;
      Done(w1.Indexed(IndexOf(PartyNs(w.layout, role), PartyStatusIdx(role), [p.status, p.email])))
  }

  /**
   `initAssetOwnerDetail` / `initFininstDetail`: e-mail, real name and
   contact non-empty, at least one of the three identity pictures and one of
   the four proof pictures; the login record must be approved (02), and
   nothing may be stored under the identity key yet.
   */
  function InitDetail(w: World, role: Role, args: seq<string>): (r: Reply)
    ensures r.outcome.Ok? <==>
      && DetailArgs(args)
      && w.LoginApproved(role, args[0]) && w.Identity(role, args[0]).None?
    ensures r.outcome.Ok? ==>
      && r.world.Identity(role, args[0]) == Some(Detail(args[0], args[1], args[2], args[3..6], args[6..10], StInit, DescInit, ""))
      && r.world.index == w.index + {IndexOf(DetailNs(role), DetailStatusIdx(role), [StInit, args[0]])}
      && OnlyAt(w, r.world.(index := w.index), role, {w.IdentityKey(role, args[0])})
    ensures !r.outcome.Ok? ==> r.world == w
    ensures DetailArgs(args)
            && w.Login(role, args[0]).Some? && w.Login(role, args[0]).value.status != StApproved
            ==> r.outcome == AppError(NotApproved)
  {
    if |args| != 10 then Fail(BadArguments, w)
    else if args[0] == "" || args[1] == "" || args[2] == "" then Fail(BadArguments, w)
    else if args[3] == "" && args[4] == "" && args[5] == "" then Fail(BadArguments, w)
    else if args[6] == "" && args[7] == "" && args[8] == "" && args[9] == "" then Fail(BadArguments, w)
    else if w.Login(role, args[0]).None? then Fail(NotFound, w)
    else if w.Login(role, args[0]).value.status != StApproved then Fail(NotApproved, w)
    else if w.Identity(role, args[0]).Some? then Fail(AlreadyExists, w)
    else
      var d := Detail(args[0], args[1], args[2], args[3..6], args[6..10], StInit, DescInit, "");
      var w1 := w.WithIdentity(role, d.email, d);
      assert w1.Indexed(IndexOf(DetailNs(role), DetailStatusIdx(role), [d.status, d.email])).(index := w.index) == w1;
      Done(w1.Indexed(IndexOf(DetailNs(role), DetailStatusIdx(role), [d.status, d.email])))
  }

  /**
   `changeAssetOwnerStatus` / `changeFininstStatus`: the platform's review
   decision. Only 01, 02, 03 and 99 are accepted; the current status is not
   consulted; an identical status and comment is a success without a write.
   */
  function ChangePartyStatus(w: World, role: Role, email: string, status: string, desc: string): (r: Reply)
    ensures r.outcome.Ok? <==> IsReviewStatus(status) && w.Login(role, email).Some?
    ensures r.outcome.Ok? ==>
      && r.world.Login(role, email) == Some(w.Login(role, email).value.(status := status, comment := desc))
      && OnlyAt(w, r.world, role, {w.LoginKey(role, email)})
    ensures r.outcome.Ok? && w.Login(role, email).value.status == status && w.Login(role, email).value.comment == desc
            ==> r.world == w
    ensures !r.outcome.Ok? ==> r.world == w
  {
    if !IsReviewStatus(status) then Fail(BadArguments, w)
    else if w.Login(role, email).None? then Fail(NotFound, w)
    else
      var p := w.Login(role, email).value;
      if p.status == status && p.comment == desc then Done(w)
      else Done(w.WithLogin(role, email, p.(status := status, comment := desc)))
  }

  /** `approveAssetOwner` / `approveFininst`. */
  function ApproveParty(w: World, role: Role, email: string): (r: Reply)
    ensures r.outcome.Ok? <==> w.Login(role, email).Some?
    ensures r.outcome.Ok? ==> r.world.LoginApproved(role, email)
  {
    ChangePartyStatus(w, role, email, StApproved, DescApproved)
  }

  /** `rejectAssetOwner` / `rejectFininst`. */
  function RejectParty(w: World, role: Role, email: string): (r: Reply)
    ensures r.outcome.Ok? <==> w.Login(role, email).Some?
    ensures r.outcome.Ok? ==> r.world.Login(role, email).Some? && r.world.Login(role, email).value.status == StRejected
  {
    ChangePartyStatus(w, role, email, StRejected, DescRejected)
  }

  /**
   `changeAssetOwnerDetailStatus` / `changeFininstDetailStatus`: as for the
   login record, and a change also records the platform signature.
   */
  function ChangeDetailStatus(w: World, role: Role, email: string, sig: string, status: string, desc: string): (r: Reply)
    ensures r.outcome.Ok? <==> IsReviewStatus(status) && w.Identity(role, email).Some?
    ensures r.outcome.Ok? ==>
      && OnlyAt(w, r.world, role, {w.IdentityKey(role, email)})
      && r.world.Identity(role, email).Some?
      && r.world.Identity(role, email).value.status == status && r.world.Identity(role, email).value.comment == desc
    ensures r.outcome.Ok? && (w.Identity(role, email).value.status != status || w.Identity(role, email).value.comment != desc) ==>
      r.world.Identity(role, email) == Some(w.Identity(role, email).value.(status := status, comment := desc, sig := sig))
    ensures r.outcome.Ok? && w.Identity(role, email).value.status == status && w.Identity(role, email).value.comment == desc
            ==> r.world == w
    ensures !r.outcome.Ok? ==> r.world == w
  {
    if !IsReviewStatus(status) then Fail(BadArguments, w)
    else if w.Identity(role, email).None? then Fail(NotFound, w)
    else
      var d := w.Identity(role, email).value;
      if d.status == status && d.comment == desc then Done(w)
      else Done(w.WithIdentity(role, email, d.(status := status, comment := desc, sig := sig)))
  }

  /**
   `changeAssetOwner` / `changeFininst`: new nickname and password hash, in
   any status. Nothing is written when neither differs; a rejected record
   that does change goes back to 00 "init with change".
   */
  function ChangeParty(w: World, role: Role, args: seq<string>): (r: Reply)
    ensures r.outcome.Ok? <==> |args| == 3 && AllPresent(args, 0, 3) && w.Login(role, args[0]).Some?
    ensures r.outcome.Ok? ==>
      && r.world.Login(role, args[0]).Some?
      && r.world.Login(role, args[0]).value.nickname == args[1]
      && r.world.Login(role, args[0]).value.pwdHash == args[2]
      && OnlyAt(w, r.world, role, {w.LoginKey(role, args[0])})
    ensures r.outcome.Ok? ==>
      var prev := w.Login(role, args[0]).value;
      var next := r.world.Login(role, args[0]).value;
      if prev.nickname == args[1] && prev.pwdHash == args[2] then r.world == w
      else if prev.status == StRejected then next.status == StInit && next.comment == DescInitChange
      else next.status == prev.status && next.comment == prev.comment
    ensures !r.outcome.Ok? ==> r.world == w
  {
    if |args| != 3 then Fail(BadArguments, w)
    else if args[0] == "" || args[1] == "" || args[2] == "" then Fail(BadArguments, w)
    else if w.Login(role, args[0]).None? then Fail(NotFound, w)
    else
      var p := w.Login(role, args[0]).value;
      if p.nickname == args[1] && p.pwdHash == args[2] then Done(w)
      else
        var p' := p.(nickname := args[1], pwdHash := args[2]);
        var p'' := if p.status == StRejected then p'.(status := StInit, comment := DescInitChange) else p';
        Done(w.WithLogin(role, args[0], p''))
  }

  /**
   `changeAssetOwnerDetail` / `changeFininstDetail`: the same arguments as
   the creation; allowed only while the record is 00 or 03. Nothing is
   written when no field differs; a rejected record that does change goes
   back to 00 "init with change" and loses its platform signature.
   */
  function ChangeDetail(w: World, role: Role, args: seq<string>): (r: Reply)
    ensures r.outcome.Ok? <==>
      && DetailArgs(args)
      && w.Identity(role, args[0]).Some?
      && (w.Identity(role, args[0]).value.status == StInit || w.Identity(role, args[0]).value.status == StRejected)
    ensures r.outcome.Ok? ==>
      && r.world.Identity(role, args[0]).Some?
      && var next := r.world.Identity(role, args[0]).value;
      && next.realname == args[1] && next.contact == args[2]
      && next.identityPics == args[3..6] && next.proofPics == args[6..10]
      && OnlyAt(w, r.world, role, {w.IdentityKey(role, args[0])})
    ensures r.outcome.Ok? ==>
      var prev := w.Identity(role, args[0]).value;
      var next := r.world.Identity(role, args[0]).value;
      if prev.realname == args[1] && prev.contact == args[2] && prev.identityPics == args[3..6] && prev.proofPics == args[6..10]
      then r.world == w
      else if prev.status == StRejected then next.status == StInit && next.comment == DescInitChange && next.sig == ""
      else next.status == prev.status && next.comment == prev.comment && next.sig == prev.sig
    ensures !r.outcome.Ok? ==> r.world == w
  {
    if |args| != 10 then Fail(BadArguments, w)
    else if args[0] == "" || args[1] == "" || args[2] == "" then Fail(BadArguments, w)
    else if args[3] == "" && args[4] == "" && args[5] == "" then Fail(BadArguments, w)
    else if args[6] == "" && args[7] == "" && args[8] == "" && args[9] == "" then Fail(BadArguments, w)
    else if w.Identity(role, args[0]).None? then Fail(NotFound, w)
    else
      var d := w.Identity(role, args[0]).value;
      if d.status != StInit && d.status != StRejected then Fail(WrongStatus, w)
      else if d.realname == args[1] && d.contact == args[2] && d.identityPics == args[3..6] && d.proofPics == args[6..10]
      then Done(w)
      else
        var d' := d.(realname := args[1], contact := args[2], identityPics := args[3..6], proofPics := args[6..10]);
        var d'' := if d.status == StRejected then d'.(status := StInit, comment := DescInitChange, sig := "") else d';
        Done(w.WithIdentity(role, args[0], d''))
  }

  /**
   `deleteAssetOwner` / `deleteFininst`: voids the login record, then the
   identity record, each skipped when already 99. A missing identity record
   is reported after the login record was voided, and that write commits.
   */
  function DeleteParty(w: World, role: Role, email: string): (r: Reply)
    ensures r.outcome.Ok? <==> w.Login(role, email).Some? && w.Identity(role, email).Some?
    ensures w.Login(role, email).None? ==> r == Fail(NotFound, w)
    ensures w.Login(role, email).Some? ==>
      && r.world.Login(role, email).Some?
      && r.world.Login(role, email).value.status == StNiled
      && OnlyAt(w, r.world, role, {w.LoginKey(role, email), w.IdentityKey(role, email)})
      && (w.Login(role, email).value.status == StNiled ==> OnlyAt(w, r.world, role, {w.IdentityKey(role, email)}))
    ensures w.Login(role, email).Some? && w.Identity(role, email).None? ==>
      r.outcome == AppError(NotFound) && OnlyAt(w, r.world, role, {w.LoginKey(role, email)})
    ensures r.outcome.Ok? ==>
      && r.world.Identity(role, email).Some?
      && r.world.Identity(role, email).value.status == StNiled
      && (w.Identity(role, email).value.status == StNiled ==> OnlyAt(w, r.world, role, {w.LoginKey(role, email)}))
  {
    if w.Login(role, email).None? then Fail(NotFound, w)
    else
      var p := w.Login(role, email).value;
      var w1 := if p.status == StNiled then w else w.WithLogin(role, email, p.(status := StNiled, comment := DescNiled));
      if w1.Identity(role, email).None? then Fail(NotFound, w1)
      else
        var d := w1.Identity(role, email).value;
        if d.status == StNiled then Done(w1)
        else Done(w1.WithIdentity(role, email, d.(status := StNiled, comment := DescNiled)))
  }

  // ---------------------------------------------------------------------
  // Properties relating several operations
  // ---------------------------------------------------------------------

  /** A repeated review decision is a success that writes nothing. */
  lemma ChangePartyStatusIdempotent(w: World, role: Role, email: string, status: string, desc: string)
    requires ChangePartyStatus(w, role, email, status, desc).outcome.Ok?
    ensures var w1 := ChangePartyStatus(w, role, email, status, desc).world;
            ChangePartyStatus(w1, role, email, status, desc) == Done(w1)
  {
  }

  /** Deleting a party twice leaves the state of the first deletion. */
  lemma DeletePartyIdempotent(w: World, role: Role, email: string)
    requires DeleteParty(w, role, email).outcome.Ok?
    ensures var w1 := DeleteParty(w, role, email).world;
            DeleteParty(w1, role, email) == Done(w1)
  {
    var w1 := DeleteParty(w, role, email).world;
    assert w1.Login(role, email).value.status == StNiled;
  }

  /** A freshly registered party can be read back exactly as registered. */
  lemma InitPartyThenRead(w: World, role: Role, args: seq<string>)
    requires InitParty(w, role, args).outcome.Ok?
    ensures ReadParty(InitParty(w, role, args).world, role, args[0])
         == Some(LoginDoc(Party(args[0], args[1], args[2], StInit, DescInit)))
  {
  }

  /** Identity documents are accepted only once the platform approved the party. */
  lemma DetailNeedsApproval(w: World, role: Role, args: seq<string>, nickname: string, pwd: string)
    requires DetailArgs(args)
    requires InitParty(w, role, [args[0], nickname, pwd]).outcome.Ok?
    requires w.Identity(role, args[0]).None?
    ensures var w1 := InitParty(w, role, [args[0], nickname, pwd]).world;
            && InitDetail(w1, role, args).outcome == AppError(NotApproved)
            && InitDetail(ApproveParty(w1, role, args[0]).world, role, args).outcome.Ok?
  {
    var w1 := InitParty(w, role, [args[0], nickname, pwd]).world;
    assert w1.Login(role, args[0]).value.status == StInit;
    Untouched(w, w1.(index := w.index), role, {w.LoginKey(role, args[0])}, args[0]);
    var w2 := ApproveParty(w1, role, args[0]).world;
    Untouched(w1, w2, role, {w1.LoginKey(role, args[0])}, args[0]);
  }

  /** A rejected party that edits its login record is back in review from 00. */
  lemma RejectedEditReturnsToInit(w: World, role: Role, args: seq<string>)
    requires |args| == 3 && AllPresent(args, 0, 3)
    requires RejectParty(w, role, args[0]).outcome.Ok?
    requires var p := w.Login(role, args[0]).value; p.nickname != args[1] || p.pwdHash != args[2]
    ensures var w1 := RejectParty(w, role, args[0]).world;
            var w2 := ChangeParty(w1, role, args).world;
            ChangeParty(w1, role, args).outcome.Ok? && w2.Login(role, args[0]).value.status == StInit
            && w2.Login(role, args[0]).value.comment == DescInitChange
  {
  }

  /**
   An identity record the platform rejected, once edited, is back in 00 "init
   with change" without the platform's signature, ready for a new review.
   */
  lemma RejectedDetailEditReturnsToInit(w: World, role: Role, sig: string, args: seq<string>)
    requires DetailArgs(args)
    requires w.Identity(role, args[0]).Some?
    requires var d := w.Identity(role, args[0]).value;
             d.realname != args[1] || d.contact != args[2] || d.identityPics != args[3..6] || d.proofPics != args[6..10]
    ensures var w1 := ChangeDetailStatus(w, role, args[0], sig, StRejected, DescRejected).world;
            var w2 := ChangeDetail(w1, role, args).world;
            && ChangeDetail(w1, role, args).outcome.Ok?
            && w2.Identity(role, args[0]).value.status == StInit
            && w2.Identity(role, args[0]).value.comment == DescInitChange
            && w2.Identity(role, args[0]).value.sig == ""
  {
  }

  /** Repeating an edit of an identity record is a success that writes nothing. */
  lemma ChangeDetailIdempotent(w: World, role: Role, args: seq<string>)
    requires ChangeDetail(w, role, args).outcome.Ok?
    ensures var w1 := ChangeDetail(w, role, args).world; ChangeDetail(w1, role, args) == Done(w1)
  {
  }

  // ---------------------------------------------------------------------
  // Login and identity records in one key space
  // ---------------------------------------------------------------------

  /**
   As written, deleting the party `detail_` + x while x has an identity
   record reads that identity record under the login key, voids it as a
   login record, and then reports the missing identity record of `detail_` +
   x. The report is an application error, so the write commits: x's
   identity record is left with its names and pictures gone and no status.
   */
  lemma DeleteAliasDestroysIdentity(w: World, role: Role, x: string, d: Detail)
    requires w.layout == AsWritten
    requires w.IdentityKey(role, x) in w.Docs(role) && w.Docs(role)[w.IdentityKey(role, x)] == IdentityDoc(d)
    requires w.Identity(role, "detail_" + x).None?
    ensures var r := DeleteParty(w, role, "detail_" + x);
            && r.outcome == AppError(NotFound)
            && r.world.Identity(role, x) == Some(Detail(d.email, "", "", ["", "", ""], ["", "", "", ""], "", DescNiled, ""))
  {
    LoginKeyIsIdentityKey(w, role, "detail_" + x, x);
  }

  /**
   As written, the login `detail_` + x and the identity record of x exclude
   each other: a stored identity record of x refuses that login, and once the
   login is registered, x's identity documents are refused.
   */
  lemma AliasedLoginAndIdentityExclude(w: World, role: Role, x: string, nickname: string, pwd: string, args: seq<string>)
    requires w.layout == AsWritten
    requires nickname != "" && pwd != ""
    requires |args| == 10 && args[0] == x
    ensures w.Identity(role, x).Some? ==>
              InitParty(w, role, ["detail_" + x, nickname, pwd]).outcome == AppError(AlreadyExists)
    ensures var r := InitParty(w, role, ["detail_" + x, nickname, pwd]);
            r.outcome.Ok? ==> !InitDetail(r.world, role, args).outcome.Ok?
  {
    LoginKeyIsIdentityKey(w, role, "detail_" + x, x);
  }

  /**
   With separated namespaces a login write never reaches an identity record:
   registering, reviewing or editing a login leaves every identity record as
   it was, and deleting a party leaves every other party's identity record.
   */
  lemma SeparatedLoginKeepsIdentities(w: World, role: Role, e: string, args: seq<string>, status: string, desc: string, x: string)
    requires w.layout == Separated
    ensures InitParty(w, role, args).world.Identity(role, x) == w.Identity(role, x)
    ensures ChangePartyStatus(w, role, e, status, desc).world.Identity(role, x) == w.Identity(role, x)
    ensures ChangeParty(w, role, args).world.Identity(role, x) == w.Identity(role, x)
    ensures x != e ==> DeleteParty(w, role, e).world.Identity(role, x) == w.Identity(role, x)
  {
    if |args| > 0 {
      var r := InitParty(w, role, args);
      if r.outcome.Ok? {
        LoginWriteKeepsIdentities(w, r.world.(index := w.index), role, args[0], x);
      }
      var c := ChangeParty(w, role, args);
      if c.outcome.Ok? {
        LoginWriteKeepsIdentities(w, c.world, role, args[0], x);
      }
    }
    var s := ChangePartyStatus(w, role, e, status, desc);
    if s.outcome.Ok? {
      LoginWriteKeepsIdentities(w, s.world, role, e, x);
    }
    if x != e {
      SeparatedDeleteKeepsIdentities(w, role, e, x);
    }
  }

  /** With separated namespaces, a write of one login key keeps every identity record. */
  lemma LoginWriteKeepsIdentities(w: World, w': World, role: Role, e: string, x: string)
    requires w.layout == Separated
    requires OnlyAt(w, w', role, {w.LoginKey(role, e)})
    ensures w'.Identity(role, x) == w.Identity(role, x)
  {
    LoginKeyIsIdentityKey(w, role, e, x);
    Untouched(w, w', role, {w.LoginKey(role, e)}, x);
  }

  /** The deletion half of `SeparatedLoginKeepsIdentities`. */
  lemma SeparatedDeleteKeepsIdentities(w: World, role: Role, e: string, x: string)
    requires w.layout == Separated && x != e
    ensures DeleteParty(w, role, e).world.Identity(role, x) == w.Identity(role, x)
  {
    LoginKeyIsIdentityKey(w, role, e, x);
    var ns := DetailNs(role);
    assert w.IdentityKey(role, x)[|ns|..] == x;
    assert w.IdentityKey(role, e)[|ns|..] == e;
    var r := DeleteParty(w, role, e);
    if w.Login(role, e).Some? {
      Untouched(w, r.world, role, {w.LoginKey(role, e), w.IdentityKey(role, e)}, x);
    }
  }
}

=== FILE: params_filter.dfy ===
/**
 The argument checks the application controllers run before touching the
 ledger: no blank argument, the expected argument count, and non-empty
 required positions.
 */
module ParamsFilter {
  import opened Results

  /** An argument the null check refuses: empty, or a single space. */
  predicate Blank(v: string)
  {
    v == "" || v == " "
  }

  /**
   `CheckParamsNull`: walks the arguments in order and fails at the first
   blank one.
   */
  function CheckParamsNull(args: seq<string>): (ok: bool)
    ensures ok <==> forall i :: 0 <= i < |args| ==> !Blank(args[i])
    decreases |args|
  {
    if args == [] then true
    else if args[0] == "" || args[0] == " " then false
    else
      var rest := CheckParamsNull(args[1..]);
      assert forall i :: 1 <= i < |args| ==> args[i] == args[1..][i - 1];
      rest
  }

  /** `CheckParamsLength`: an argument error exactly when the count differs. */
  function CheckParamsLength(args: seq<string>, lens: int): (e: Option<ErrorKind>)
    ensures e.Some? <==> |args| != lens
    ensures e.Some? ==> e.value == BadArguments
  {
    if |args| != lens then Some(BadArguments) else None
  }

  /**
   `CheckRequired`: visits the listed positions in order and reports the
   first one whose argument is empty. Every listed position must lie inside
   the argument list; the code indexes without a bounds check.
   */
  function CheckRequired(args: seq<string>, indexes: seq<int>): (first: Option<int>)
    requires forall k :: 0 <= k < |indexes| ==> 0 <= indexes[k] < |args|
    ensures first.None? <==> forall k :: 0 <= k < |indexes| ==> args[indexes[k]] != ""
    ensures first.Some? ==> 0 <= first.value < |args| && args[first.value] == ""
    ensures first.Some? ==> exists k :: 0 <= k < |indexes| && indexes[k] == first.value
                                       && forall j :: 0 <= j < k ==> args[indexes[j]] != ""
    decreases |indexes|
  {
    if indexes == [] then None
    else if |args[indexes[0]]| <= 0 then Some(indexes[0])
    else
      var rest := CheckRequired(args, indexes[1..]);
      assert forall k :: 1 <= k < |indexes| ==> indexes[k] == indexes[1..][k - 1];
      if rest.Some? then
        var k' :| 0 <= k' < |indexes[1..]| && indexes[1..][k'] == rest.value
                  && forall j :: 0 <= j < k' ==> args[indexes[1..][j]] != "";
        assert indexes[k' + 1] == rest.value;
        assert forall j :: 0 <= j < k' + 1 ==> args[indexes[j]] != "" by {
          forall j | 0 <= j < k' + 1 ensures args[indexes[j]] != "" {
            if j > 0 {
              assert indexes[j] == indexes[1..][j - 1];
            }
          }
        }
        rest
      else
        rest
  }

  /** The positions 0, 1, …, n - 1. */
  function Positions(n: nat): (ps: seq<int>)
    ensures |ps| == n && forall k :: 0 <= k < n ==> ps[k] == k
  {
    seq(n, k => k)
  }

  /**
   Requiring every position is weaker than the null check: the null check
   also refuses a lone space, which `CheckRequired` lets through.
   */
  lemma NullCheckImpliesRequired(args: seq<string>)
    requires CheckParamsNull(args)
    ensures CheckRequired(args, Positions(|args|)).None?
  {
    var ps := Positions(|args|);
    forall k | 0 <= k < |ps| ensures args[ps[k]] != "" {
      assert !Blank(args[k]);
    }
  }

  /** A lone space passes the required check but not the null check. */
  lemma SpaceIsRequiredButNull()
    ensures CheckRequired([" "], [0]).None?
    ensures !CheckParamsNull([" "])
  {
    assert [" "][0] == " ";
  }
}

=== FILE: payment.dfy ===
/**
 Double-entry bookings of payments (`initPaymentTxnBooking`): up to two
 debit legs and two credit legs, each either fully given or fully absent,
 at least one of each side, under a payment id used once.
 */
module Payment {
  import opened Results
  import opened Ledger
  import opened Codes
  import opened State

  /** Number of positional arguments of a booking. */
  const BookingArity := 24

  /** Offsets of the first argument of each leg: debit 1, credit 1, debit 2, credit 2. */
  const Debit1 := 3
  const Credit1 := 8
  const Debit2 := 13
  const Credit2 := 18

  /**
   The currency, account, amount and owner of the leg starting at `at` are
   all given or all empty; the sub-account is not looked at.
   */
  predicate Consistent(args: seq<string>, at: nat)
    requires at + 5 <= |args|
  {
    var given := [args[at] != "", args[at + 1] != "", args[at + 3] != "", args[at + 4] != ""];
    (given[0] && given[1] && given[2] && given[3]) || (!given[0] && !given[1] && !given[2] && !given[3])
  }

  /** An amount argument: empty means zero, anything else must parse as a float. */
  function Amount(text: string, parseFloat: string -> Option<real>): (r: Option<real>)
    ensures text == "" ==> r == Some(0.0)
    ensures text != "" ==> r == parseFloat(text)
  {
    if text == "" then Some(0.0) else parseFloat(text)
  }

  /** The leg starting at `at`, with its parsed amount. */
  function LegAt(args: seq<string>, at: nat, amt: real): (l: Leg)
    requires at + 5 <= |args|
    ensures l.ccy == args[at] && l.acct == args[at + 1] && l.sub == args[at + 2] && l.amt == amt && l.owner == args[at + 4]
  {
    Leg(args[at], args[at + 1], args[at + 2], amt, args[at + 4])
  }

  /** Every textual check on the arguments, in the source's order of importance. */
  predicate WellFormed(args: seq<string>)
  {
    && |args| == BookingArity
    && args[0] != "" && args[2] != ""
    && Consistent(args, Debit1) && Consistent(args, Credit1) && Consistent(args, Debit2) && Consistent(args, Credit2)
    && (args[Debit1] != "" || args[Debit2] != "")
    && (args[Credit1] != "" || args[Credit2] != "")
  }

  /** A leg that is actually present. */
  predicate Present(l: Leg)
  {
    l.ccy != "" && l.acct != "" && l.owner != ""
  }

  /** A consistent leg is present in the booking exactly when its currency is given. */
  lemma LegPresentIffGiven(args: seq<string>, at: nat, amt: real)
    requires at + 5 <= |args| && Consistent(args, at)
    ensures Present(LegAt(args, at, amt)) <==> args[at] != ""
  {
  }

  function InitBooking(w: World, args: seq<string>, parseFloat: string -> Option<real>): (r: Reply)
    ensures r.outcome.Ok? <==>
      && WellFormed(args)
      && Amount(args[Debit1 + 3], parseFloat).Some? && Amount(args[Credit1 + 3], parseFloat).Some?
      && Amount(args[Debit2 + 3], parseFloat).Some? && Amount(args[Credit2 + 3], parseFloat).Some?
      && args[2] !in w.bookings
    ensures r.outcome.Ok? ==>
      && args[2] in r.world.bookings
      && var b := r.world.bookings[args[2]];
      && b.assetHash == args[0] && b.shareId == args[1] && b.id == args[2] && b.desc == args[23]
      && b.debit1 == LegAt(args, Debit1, Amount(args[Debit1 + 3], parseFloat).value)
      && b.credit1 == LegAt(args, Credit1, Amount(args[Credit1 + 3], parseFloat).value)
      && b.debit2 == LegAt(args, Debit2, Amount(args[Debit2 + 3], parseFloat).value)
      && b.credit2 == LegAt(args, Credit2, Amount(args[Credit2 + 3], parseFloat).value)
      && r.world.index == w.index + {IndexOf(NsBooking, IdxBookingAssetHash, [args[0], args[2]]),
                                     IndexOf(NsBooking, IdxBookingShare, [args[1], args[2]])}
      && r.world == w.(bookings := w.bookings[args[2] := b], index := r.world.index)
    ensures !r.outcome.Ok? ==> r.world == w
  {
    if !WellFormed(args) then Fail(BadArguments, w)
    else
      var d1 := Amount(args[Debit1 + 3], parseFloat);
      var c1 := Amount(args[Credit1 + 3], parseFloat);
      var d2 := Amount(args[Debit2 + 3], parseFloat);
      var c2 := Amount(args[Credit2 + 3], parseFloat);
      if d1.None? || c1.None? || d2.None? || c2.None? then Fail(BadArguments, w)
      else if args[2] in w.bookings then Fail(AlreadyExists, w)
      else
        var b := Booking(args[0], args[1], args[2],
                         LegAt(args, Debit1, d1.value), LegAt(args, Credit1, c1.value),
                         LegAt(args, Debit2, d2.value), LegAt(args, Credit2, c2.value), args[23]);
        Done(w.(bookings := w.bookings[b.id := b],
                index := w.index + {IndexOf(NsBooking, IdxBookingAssetHash, [b.assetHash, b.id]),
                                    IndexOf(NsBooking, IdxBookingShare, [b.shareId, b.id])}))
  }

  /**
   A stored booking has a debit side and a credit side: at least one
   complete debit leg and one complete credit leg, and every leg either
   complete or entirely empty apart from its sub-account and amount.
   */
  lemma BookingHasBothSides(w: World, args: seq<string>, parseFloat: string -> Option<real>)
    requires InitBooking(w, args, parseFloat).outcome.Ok?
    ensures var b := InitBooking(w, args, parseFloat).world.bookings[args[2]];
            && (Present(b.debit1) || Present(b.debit2))
            && (Present(b.credit1) || Present(b.credit2))
            && (forall l :: l in [b.debit1, b.credit1, b.debit2, b.credit2] ==>
                  Present(l) || (l.ccy == "" && l.acct == "" && l.owner == "" && l.amt == 0.0))
  {
    var b := InitBooking(w, args, parseFloat).world.bookings[args[2]];
    assert Consistent(args, Debit1) && Consistent(args, Credit1) && Consistent(args, Debit2) && Consistent(args, Credit2);
  }

  /** A payment id is booked once: repeating the call is refused and changes nothing. */
  lemma BookingOnce(w: World, args: seq<string>, parseFloat: string -> Option<real>)
    requires InitBooking(w, args, parseFloat).outcome.Ok?
    ensures var w1 := InitBooking(w, args, parseFloat).world;
            InitBooking(w1, args, parseFloat) == Fail(AlreadyExists, w1)
  {
  }
}

=== FILE: results.dfy ===
/**
 Outcome types shared by every chaincode operation of the model.

 The chaincode answers an application error with a *successful* peer
 response that carries an error payload (`errorPbResponse(err, true)`), so the
 transaction still commits whatever it wrote before the error was detected.
 A `Reply` therefore pairs the outcome with the world state the transaction
 leaves behind, which is the input state for every error detected before the
 first write.
 */
module Results {

  datatype Option<T> = None | Some(value: T)
  {
    predicate IsSome() { this.Some? }
  }

  /** The application errors the chaincode reports, grouped by cause. */
  datatype ErrorKind =
    | BadArguments        // wrong argument count, empty or malformed argument
    | NotFound            // a document the operation needs does not exist
    | AlreadyExists       // a document the operation creates already exists
    | NotApproved         // a party or asset is not in the approved state
    | WrongStatus         // the asset is not in a status the operation accepts
    | AlreadyInStatus     // the asset already reached the state this operation produces
    | NotOwner            // the caller's e-mail is not the asset owner's
    | BadTime             // a stored deadline does not parse as an RFC3339 time
    | DeadlineNotReached  // a deadline that must have passed lies in the future
    | DeadlinePassed      // a deadline that must not have passed lies in the past
    | Oversubscribed      // the claimed units exceed the units still available
    | NonPositiveUnits    // a claim asks for zero or fewer units

  /**
   `Aborted` is a failed peer response (`shim.Error`, from
   `errorPbResponse(err, false)`): the peer rolls the transaction back, so
   nothing it wrote commits.
   */
  datatype Outcome = Ok | AppError(kind: ErrorKind) | Aborted
  {
    predicate IsOk() { this.Ok? }
  }
}

=== FILE: shares.dfy ===
/**
 The share split of an asset that was underwritten successfully
 (`initAssetSecurityShares`) and the hand-over of the claimed shares to the
 institutions that claimed them (`enableUnderwroteAssetSharesOwnerships`).

 SHA-256 in upper-case hex and Go's `%.2f`, `%.6f` and RFC3339 formatting
 are parameters (`Formats`); the canonical JSON texts they are applied to
 are written out here.
 */
module Shares {
  import opened Results
  import opened Ledger
  import opened Codes
  import opened State
  import opened Decimal
  import opened Split
  import Underwriting

  /** The functions the chaincode takes from Go's libraries. */
  datatype Formats = Formats(
    sha: string -> string,
    fixed2: real -> string,
    fixed6: real -> string,
    timeText: Option<int> -> string)

  function BoolText(b: bool): string
  {
    if b then "true" else "false"
  }

  /** The value of `units` of the `parts` units of an asset worth `amt`. */
  function ShareValue(amt: real, units: int, parts: int): real
  {
    if parts == 0 then 0.0 else amt * units as real / parts as real
  }

  /** `parts` shares of value `ShareValue(amt, units, parts)` are worth `units` times `amt`. */
  lemma ShareValueScales(amt: real, units: int, parts: int)
    requires parts != 0
    ensures ShareValue(amt, units, parts) * parts as real == amt * units as real
  {
  }

  /** The text a share id is the hash of; `unitNosText` is the unit-number part as the source writes it. */
  function ShareText(s: Share, unitNosText: string, fm: Formats): string
  {
    "{\"unit_nos\":" + unitNosText
    + ",\"underwrote_id\":\"" + s.claimId
    + "\",\"owner_email\":\"" + s.ownerEmail
    + "\",\"asset_name\":\"" + s.assetName
    + "\",\"share_value_ccy\":\"" + s.ccy
    + "\",\"share_value_amt\":" + fm.fixed2(s.amt)
    + ",\"unit_total\":" + Itoa(s.unitTotal)
    + ",\"share_annual_dividend\":" + fm.fixed6(s.dividend)
    + ",\"share_repurchase_time\":\"" + fm.timeText(s.repurchaseTime)
    + "\",\"share_allow_delegate_rent_income\":" + BoolText(s.allowDelegate)
    + ",\"share_status\":\"" + s.status
    + "\",\"share_status_desc\":\"" + s.statusDesc + "\"}"
  }

  /** The text the asset hash is the hash of. */
  function AssetText(a: Asset, ids: seq<string>, fm: Formats): string
  {
    "{\"asset_name\":\"" + a.name
    + "\",\"share_ids\":" + JsonArray(seq(|ids|, i requires 0 <= i < |ids| => "\"" + ids[i] + "\""))
    + ",\"owner_email\":\"" + a.ownerEmail
    + "\",\"asset_value_ccy\":\"" + a.ccy
    + "\",\"asset_value_amt\":" + fm.fixed2(a.amt)
    + ",\"asset_securitized_parts\":" + Itoa(a.parts)
    + ",\"asset_annual_dividend\":" + fm.fixed6(a.dividend)
    + ",\"asset_repurchase_time\":\"" + fm.timeText(a.repurchaseDue)
    + "\",\"asset_allow_delegate_rent_income\":" + BoolText(a.allowDelegate) + "}"
  }

  /** A share of `units` units of `a` over the run `r`, before its id and hashes are known. */
  function Draft(a: Asset, claimId: string, units: int, r: UnitRange, unitNos: seq<string>, status: string, desc: string): Share
  {
    Share("", "", "", unitNos, r, claimId, a.ownerEmail, a.name, a.ccy, ShareValue(a.amt, units, a.parts),
          a.parts, a.dividend, a.repurchaseDue, a.allowDelegate, status, desc, "", "")
  }

  function Identified(s: Share, unitNosText: string, fm: Formats): Share
  {
    s.(id := fm.sha(ShareText(s, unitNosText, fm)))
  }

  /** The share of one claim: its run, labelled "m-n". */
  function ClaimShare(a: Asset, c: Claim, r: UnitRange, fm: Formats): Share
  {
    var text := RangeLabel(r);
    Identified(Draft(a, c.id, c.units, r, [text], ShareInit, ShareDescInit), "[\"" + text + "\"]", fm)
  }

  /**
   The stored labels and the hashed text of the remainder run, as written:
   a remainder of a single unit hashes as that unit's number but stores one
   empty label.
   */
  function RemainderLabels(r: UnitRange): (labels: (seq<string>, string))
  {
    if r.lo == r.hi then ([""], "\"" + Itoa(r.lo) + "\"")
    else ([RangeLabel(r)], "[\"" + RangeLabel(r) + "\"]")
  }

  /** The stored labels of the remainder run as evidently intended: "o" for a single unit, "m-n" otherwise. */
  function RemainderLabelsFixed(r: UnitRange): (stored: seq<string>)
    requires r.lo >= 0
    ensures |stored| == 1 && ParseLabel(stored[0]) == Some(r)
  {
    if r.lo == r.hi then
      UnitLabelRoundTrip(r.lo);
      [Itoa(r.lo)]
    else
      RangeLabelRoundTrip(r);
      [RangeLabel(r)]
  }

  /** A remainder of one unit, as written, stores a label that names no unit at all. */
  lemma SingleUnitRemainderLost(n: int)
    requires n >= 1
    ensures RemainderLabels(UnitRange(n, n)).0 == [""]
    ensures ParseLabel(RemainderLabels(UnitRange(n, n)).0[0]).None?
    ensures RemainderLabelsFixed(UnitRange(n, n)) == [Itoa(n)]
  {
  }

  /** The frozen share of the units nobody claimed, kept by the asset owner. */
  function RemainderShare(a: Asset, claimed: int, fm: Formats): Share
  {
    var r := UnitRange(claimed + 1, a.parts);
    var labels := RemainderLabels(r);
    Identified(Draft(a, "", a.parts - claimed, r, labels.0, ShareFrozen, ShareDescFrozen), labels.1, fm)
  }

  /** One share per claim, over the claims' consecutive runs from unit 1. */
  function ClaimShares(a: Asset, claims: seq<Claim>, fm: Formats): (ss: seq<Share>)
    ensures |ss| == |claims|
    ensures forall i :: 0 <= i < |claims| ==>
      && ss[i].units == Ranges(Units(claims), 1)[i]
      && ss[i].claimId == claims[i].id && ss[i].status == ShareInit
      && ss[i].amt == ShareValue(a.amt, claims[i].units, a.parts)
      && ss[i].ownerEmail == a.ownerEmail && ss[i].assetName == a.name && ss[i].unitTotal == a.parts
  {
    var rs := Ranges(Units(claims), 1);
    seq(|claims|, i requires 0 <= i < |claims| => ClaimShare(a, claims[i], rs[i], fm))
  }

  /** The frozen remainder share, present exactly when units are left over. */
  function RestShares(a: Asset, claimed: int, fm: Formats): (ss: seq<Share>)
    ensures |ss| == |Remainder(claimed, a.parts)|
    ensures forall i :: 0 <= i < |ss| ==>
      && ss[i].units == Remainder(claimed, a.parts)[i]
      && ss[i].claimId == "" && ss[i].status == ShareFrozen
      && ss[i].amt == ShareValue(a.amt, a.parts - claimed, a.parts)
      && ss[i].ownerEmail == a.ownerEmail && ss[i].assetName == a.name && ss[i].unitTotal == a.parts
  {
    if claimed < a.parts then [RemainderShare(a, claimed, fm)] else []
  }

  /** The shares laid out for `a` from its claims, before the asset hash is known. */
  function Layout(a: Asset, claims: seq<Claim>, fm: Formats): (ss: seq<Share>)
    ensures |ss| == |AllRanges(Units(claims), a.parts)|
    ensures forall i :: 0 <= i < |ss| ==> ss[i].units == AllRanges(Units(claims), a.parts)[i]
    ensures forall i :: 0 <= i < |claims| ==>
      && ss[i].claimId == claims[i].id && ss[i].status == ShareInit
      && ss[i].amt == ShareValue(a.amt, claims[i].units, a.parts)
    ensures |ss| > |claims| ==>
      && UnitsSum(claims) < a.parts
      && ss[|claims|].claimId == "" && ss[|claims|].status == ShareFrozen
      && ss[|claims|].amt == ShareValue(a.amt, a.parts - UnitsSum(claims), a.parts)
    ensures forall i :: 0 <= i < |ss| ==>
      ss[i].ownerEmail == a.ownerEmail && ss[i].assetName == a.name && ss[i].unitTotal == a.parts
  {
    UnitsSumIsPrefix(claims);
    var head := ClaimShares(a, claims, fm);
    var tail := RestShares(a, UnitsSum(claims), fm);
    assert forall i :: |head| <= i < |head| + |tail| ==> (head + tail)[i] == tail[i - |head|];
    head + tail
  }

  function Ids(ss: seq<Share>): (ids: seq<string>)
    ensures |ids| == |ss| && forall i :: 0 <= i < |ss| ==> ids[i] == ss[i].id
  {
    seq(|ss|, i requires 0 <= i < |ss| => ss[i].id)
  }

  /** Every share marked with the asset hash, as its own asset hash and as its input share hash. */
  function Stamped(ss: seq<Share>, h: string): (ts: seq<Share>)
    ensures |ts| == |ss|
    ensures forall i :: 0 <= i < |ss| ==> ts[i] == ss[i].(assetHash := h, inputHash := h)
  {
    seq(|ss|, i requires 0 <= i < |ss| => ss[i].(assetHash := h, inputHash := h))
  }

  /** The asset hash: the hash of the asset's summary listing the share ids in order. */
  function AssetHash(a: Asset, claims: seq<Claim>, fm: Formats): string
  {
    fm.sha(AssetText(a, Ids(Layout(a, claims, fm)), fm))
  }

  /**
   `rows` is the order in which the rich query returns the claims of the
   asset: every stored claim of it, each once. The query has no sort, so
   the database chooses the order.
   */
  ghost predicate IsClaimScan(w: World, name: string, rows: seq<Claim>)
  {
    multiset(rows) == multiset(ClaimsOf(w.claims, name))
  }

  /** A claim the query returns is a stored claim of the asset, so within supply it asks for at least one unit. */
  lemma ScannedClaimPositive(w: World, name: string, rows: seq<Claim>, i: int)
    requires Underwriting.WithinSupply(w, name) && IsClaimScan(w, name, rows) && 0 <= i < |rows|
    ensures rows[i].units > 0
  {
    assert rows[i] in multiset(rows);
    assert rows[i] in w.claims;
    var k :| 0 <= k < |w.claims| && w.claims[k] == rows[i];
  }

  /** The shares `initAssetSecurityShares` saves for the asset stored under `name`, its claims coming in the order `rows`. */
  function Issued(w: World, name: string, rows: seq<Claim>, fm: Formats): seq<Share>
    requires name in w.assets
  {
    var a := w.assets[name];
    Stamped(Layout(a, rows, fm), AssetHash(a, rows, fm))
  }

  /** No later share in `ss` has the id of the share at `i`. */
  predicate LastOfId(ss: seq<Share>, i: int)
    requires 0 <= i < |ss|
  {
    forall k :: i < k < |ss| ==> ss[k].id != ss[i].id
  }

  /** Saves shares one after the other under their ids; a later share overwrites an earlier one with the same id. */
  function Store(m: map<string, Share>, ss: seq<Share>): (m': map<string, Share>)
    ensures forall id :: id in m' <==> id in m || id in Ids(ss)
    ensures forall id :: id in m && id !in Ids(ss) ==> m'[id] == m[id]
    ensures forall id :: id in Ids(ss) ==> m'[id] in ss && m'[id].id == id
    decreases |ss|
  {
    if ss == [] then m
    else
      var rest := Store(m[ss[0].id := ss[0]], ss[1..]);
      assert Ids(ss) == [ss[0].id] + Ids(ss[1..]);
      assert forall s :: s in ss[1..] ==> s in ss;
      rest
  }

  /** The last share saved under an id is the one stored under it. */
  lemma {:induction false} StoreLastWins(m: map<string, Share>, ss: seq<Share>, i: int)
    requires 0 <= i < |ss| && LastOfId(ss, i)
    ensures Store(m, ss)[ss[i].id] == ss[i]
    decreases |ss|
  {
    var m1 := m[ss[0].id := ss[0]];
    assert Store(m, ss) == Store(m1, ss[1..]);
    if i == 0 {
      assert ss[0].id !in Ids(ss[1..]) by {
        forall k | 0 <= k < |ss[1..]|
          ensures Ids(ss[1..])[k] != ss[0].id
        {
          assert ss[1..][k] == ss[k + 1];
        }
      }
    } else {
      assert LastOfId(ss[1..], i - 1) by {
        forall k | i - 1 < k < |ss[1..]|
          ensures ss[1..][k].id != ss[1..][i - 1].id
        {
          assert ss[1..][k] == ss[k + 1];
        }
      }
      StoreLastWins(m1, ss[1..], i - 1);
    }
  }

  /** The three index entries `saveAssetSecurityShare` writes for a new share. */
  function ShareIndex(s: Share): set<IndexEntry>
  {
    { IndexOf(NsShare, IdxShareAssetHash, [s.assetHash, s.id]),
      IndexOf(NsShare, IdxShareAsset, [s.assetName, s.id]),
      IndexOf(NsShare, IdxShareOwner, [s.ownerEmail, s.id]) }
  }

  function IndexAll(ss: seq<Share>): (es: set<IndexEntry>)
    ensures forall i :: 0 <= i < |ss| ==> ShareIndex(ss[i]) <= es
  {
    if ss == [] then {} else ShareIndex(ss[0]) + IndexAll(ss[1..])
  }

  /** Some share of the asset called `name` is already stored. */
  predicate HasShares(w: World, name: string)
  {
    exists id :: id in w.shares && w.shares[id].assetName == name
  }

  /**
   `initAssetSecurityShares`: an asset in 12 that has no shares yet is split
   into one share per stored claim and one frozen share of the rest, all
   stamped with the asset hash; the asset moves to 20.
   */
  function InitShares(w: World, name: string, sig: string, rows: seq<Claim>, fm: Formats): (r: Reply)
    requires IsClaimScan(w, name, rows)
    ensures r.outcome.Ok? <==>
      name != "" && name in w.assets && w.assets[name].status == StUnderwriteSucceeded && !HasShares(w, name)
    ensures r.outcome.Ok? ==>
      && var a := w.assets[name];
      && var ss := Issued(w, name, rows, fm);
      && r.world.shares == Store(w.shares, ss)
      && r.world.index == w.index + IndexAll(ss)
      && name in r.world.assets
      && r.world.assets[name] == a.(ihtSig := sig, status := StUnitsInitialized, comment := DescUnitsInitialized,
                                    assetHash := AssetHash(a, rows, fm))
      && (forall s :: s in ss ==> s.assetHash == s.inputHash == AssetHash(a, rows, fm))
      && OnlyAsset(w.(shares := r.world.shares, index := r.world.index), r.world, name)
    ensures !r.outcome.Ok? ==> r.world == w
  {
    if name == "" then Fail(BadArguments, w)
    else if name !in w.assets then Fail(NotFound, w)
    else
      var a := w.assets[name];
      if a.status != StUnderwriteSucceeded then Fail(WrongStatus, w)
      else if HasShares(w, name) then Fail(AlreadyExists, w)
      else
        var ss := Issued(w, name, rows, fm);
        var h := AssetHash(a, rows, fm);
        var w1 := w.(shares := Store(w.shares, ss), index := w.index + IndexAll(ss));
        Done(w1.WithAsset(name, a.(ihtSig := sig, status := StUnitsInitialized, comment := DescUnitsInitialized, assetHash := h)))
  }

  /** Sum of the values of a list of shares. */
  function TotalValue(ss: seq<Share>): real
  {
    if ss == [] then 0.0 else ss[0].amt + TotalValue(ss[1..])
  }

  lemma {:induction false} TotalValueAppend(xs: seq<Share>, ys: seq<Share>)
    ensures TotalValue(xs + ys) == TotalValue(xs) + TotalValue(ys)
    decreases |xs|
  {
    if xs == [] {
      assert xs + ys == ys;
    } else {
      assert (xs + ys)[1..] == xs[1..] + ys;
      TotalValueAppend(xs[1..], ys);
    }
  }

  /** `x` taken `parts` times. */
  function Times(x: real, parts: int): real
  {
    x * parts as real
  }

  /** The claim shares of a list of claims are together worth the value of the claimed units. */
  lemma {:induction false} ClaimValuesAddUp(ss: seq<Share>, claims: seq<Claim>, amt: real, parts: int)
    requires parts != 0 && |ss| == |claims|
    requires forall i :: 0 <= i < |claims| ==> ss[i].amt == ShareValue(amt, claims[i].units, parts)
    ensures Times(TotalValue(ss), parts) == Times(amt, UnitsSum(claims))
    decreases |ss|
  {
    if ss != [] {
      ClaimValuesAddUp(ss[1..], claims[1..], amt, parts);
      ShareValueScales(amt, claims[0].units, parts);
      calc {
        TotalValue(ss) * parts as real;
        ss[0].amt * parts as real + TotalValue(ss[1..]) * parts as real;
        amt * claims[0].units as real + amt * UnitsSum(claims[1..]) as real;
        amt * UnitsSum(claims) as real;
      }
    }
  }

  lemma {:induction false} StampedKeepsValue(ss: seq<Share>, h: string)
    ensures TotalValue(Stamped(ss, h)) == TotalValue(ss)
    decreases |ss|
  {
    if ss != [] {
      assert Stamped(ss, h)[1..] == Stamped(ss[1..], h);
      StampedKeepsValue(ss[1..], h);
    }
  }

  /**
   Shares worth their claims' fraction of `amt`, followed (unless the claims
   take every part) by one share worth the fraction left, add up to `amt`.
   */
  lemma ValuesAddUp(ss: seq<Share>, claims: seq<Claim>, amt: real, parts: int)
    requires parts > 0
    requires |claims| <= |ss| <= |claims| + 1
    requires forall i :: 0 <= i < |claims| ==> ss[i].amt == ShareValue(amt, claims[i].units, parts)
    requires |ss| > |claims| ==> ss[|claims|].amt == ShareValue(amt, parts - UnitsSum(claims), parts)
    requires |ss| == |claims| ==> UnitsSum(claims) == parts
    ensures TotalValue(ss) == amt
  {
    var n := |claims|;
    var head, tail := ss[..n], ss[n..];
    assert ss == head + tail;
    TotalValueAppend(head, tail);
    assert forall i :: 0 <= i < n ==> head[i] == ss[i];
    ClaimValuesAddUp(head, claims, amt, parts);
    TailValue(ss, n);
    var h, t := TotalValue(head), TotalValue(tail);
    assert TotalValue(ss) == h + t;
    if |ss| > n {
      WithRest(h, t, amt, parts, UnitsSum(claims));
    } else {
      WithoutRest(h, t, amt, parts, UnitsSum(claims));
    }
  }

  /** The value of the at most one share after position `n`. */
  lemma TailValue(ss: seq<Share>, n: nat)
    requires n <= |ss| <= n + 1
    ensures TotalValue(ss[n..]) == if |ss| > n then ss[n].amt else 0.0
  {
    if |ss| > n {
      assert ss[n..] == [ss[n]];
      assert ss[n..][1..] == [];
    } else {
      assert ss[n..] == [];
    }
  }

  /** The claimed fraction plus the value of the rest is the whole. */
  lemma WithRest(head: real, tail: real, amt: real, parts: int, claimed: int)
    requires parts > 0
    requires Times(head, parts) == Times(amt, claimed)
    requires tail == ShareValue(amt, parts - claimed, parts)
    ensures head + tail == amt
  {
    var p := parts as real;
    var c := claimed as real;
    ShareValueScales(amt, parts - claimed, parts);
    assert tail * p == amt * (p - c);
    assert (head + tail) * p == amt * p;
    assert (head + tail - amt) * p == 0.0;
  }

  /** When the claims take every part, their fraction is the whole. */
  lemma WithoutRest(head: real, tail: real, amt: real, parts: int, claimed: int)
    requires parts > 0 && claimed == parts && tail == 0.0
    requires Times(head, parts) == Times(amt, claimed)
    ensures head + tail == amt
  {
    assert (head - amt) * parts as real == 0.0;
  }

  /** When the claims fit in the parts, the laid-out shares are together worth the asset's value. */
  lemma LayoutValueIsAssetValue(a: Asset, claims: seq<Claim>, fm: Formats)
    requires a.parts > 0 && UnitsSum(claims) <= a.parts
    ensures TotalValue(Layout(a, claims, fm)) == a.amt
  {
    UnitsSumIsPrefix(claims);
    ValuesAddUp(Layout(a, claims, fm), claims, a.amt, a.parts);
  }

  /**
   When the claims fit in the parts, the shares issued for an asset are
   together worth exactly the asset's value.
   */
  lemma IssuedValueIsAssetValue(w: World, name: string, rows: seq<Claim>, fm: Formats)
    requires name in w.assets && w.assets[name].parts > 0
    requires IsClaimScan(w, name, rows) && Subscribed(w, name) <= w.assets[name].parts
    ensures TotalValue(Issued(w, name, rows, fm)) == w.assets[name].amt
  {
    var a := w.assets[name];
    var claims := rows;
    UnitsSumPermutation(rows, ClaimsOf(w.claims, name));
    StampedKeepsValue(Layout(a, claims, fm), AssetHash(a, claims, fm));
    LayoutValueIsAssetValue(a, claims, fm);
  }

  /** The unit runs of a list of shares. */
  function Runs(ss: seq<Share>): (rs: seq<UnitRange>)
    ensures |rs| == |ss| && forall i :: 0 <= i < |ss| ==> rs[i] == ss[i].units
  {
    seq(|ss|, i requires 0 <= i < |ss| => ss[i].units)
  }

  /**
   Under the corrected underwriting rule every claim of the asset is positive
   and they fit in the parts; the shares issued then partition its unit
   numbers 1..parts.
   */
  lemma IssuedSharesPartitionUnits(w: World, name: string, rows: seq<Claim>, fm: Formats)
    requires Underwriting.WithinSupply(w, name) && IsClaimScan(w, name, rows)
    ensures Partitions(Runs(Issued(w, name, rows, fm)), w.assets[name].parts)
  {
    var a := w.assets[name];
    var u := Units(rows);
    UnitsSumPermutation(rows, ClaimsOf(w.claims, name));
    forall i | 0 <= i < |u|
      ensures u[i] > 0
    {
      ScannedClaimPositive(w, name, rows, i);
    }
    UnitsSumIsPrefix(rows);
    SplitPartitions(u, a.parts);
    assert Runs(Issued(w, name, rows, fm)) == AllRanges(u, a.parts);
  }

  // ---------------------------------------------------------------------
  // Ownership transfer
  // ---------------------------------------------------------------------

  /** A share from a claim that is still in its initial status. */
  predicate Eligible(s: Share)
  {
    s.claimId != "" && s.status == ShareInit
  }

  /** What the transfer makes of one share: an eligible share whose claim is found passes to the claiming institution. */
  function Transferred(w: World, s: Share): Share
  {
    var c := FindClaim(w.claims, s.claimId);
    if Eligible(s) && c.Some? then
      s.(status := ShareValid, statusDesc := ShareDescValid, ownerEmail := c.value.fininstEmail)
    else s
  }

  /** An eligible share of the asset whose claim cannot be found stops the transfer. */
  predicate Blocked(w: World, id: string, name: string)
  {
    id in w.shares && w.shares[id].assetName == name && Eligible(w.shares[id])
    && FindClaim(w.claims, w.shares[id].claimId).None?
  }

  /** `scan` is the order in which the rich query returns the shares of the asset: each exactly once. */
  ghost predicate IsScan(w: World, name: string, scan: seq<string>)
  {
    && (forall k, l :: 0 <= k < l < |scan| ==> scan[k] != scan[l])
    && (forall id :: id in scan <==> id in w.shares && w.shares[id].assetName == name)
  }

  /**
   The transfer stopped at `scan[k]`, the first blocked share in query
   order: the shares before it are rewritten, every other share is as it was.
   */
  predicate StoppedAt(w: World, name: string, scan: seq<string>, k: int, shares: map<string, Share>)
  {
    && 0 <= k < |scan| && Blocked(w, scan[k], name)
    && (forall j :: 0 <= j < k ==> !Blocked(w, scan[j], name))
    && (forall id :: id in w.shares ==>
          id in shares && shares[id] == if id in scan[..k] then Transferred(w, w.shares[id]) else w.shares[id])
  }

  /**
   The loop of the transfer over the shares of `name` in query order. It
   stops at the first eligible share whose claim cannot be found, with the
   shares before it already rewritten.
   */
  method TransferShares(w: World, name: string, scan: seq<string>) returns (shares: map<string, Share>, complete: bool)
    requires IsScan(w, name, scan)
    ensures forall id :: id in shares <==> id in w.shares
    ensures complete <==> forall id :: !Blocked(w, id, name)
    ensures complete ==> forall id :: id in w.shares ==>
      shares[id] == if w.shares[id].assetName == name then Transferred(w, w.shares[id]) else w.shares[id]
    ensures !complete ==> exists k :: StoppedAt(w, name, scan, k, shares)
    ensures forall id :: id in w.shares ==> shares[id] == w.shares[id] || shares[id] == Transferred(w, w.shares[id])
  {
    shares := w.shares;
    var i := 0;
    while i < |scan|
      invariant 0 <= i <= |scan|
      invariant forall id :: id in shares <==> id in w.shares
      invariant forall id :: id in w.shares ==>
        shares[id] == if id in scan[..i] then Transferred(w, w.shares[id]) else w.shares[id]
      invariant forall k :: 0 <= k < i ==> !Blocked(w, scan[k], name)
    {
      var id := scan[i];
      assert id !in scan[..i];
      var s := shares[id];
      if Eligible(s) {
        var c := FindClaim(w.claims, s.claimId);
        if c.None? {
          assert Blocked(w, id, name);
          assert StoppedAt(w, name, scan, i, shares);
          return shares, false;
        }
        shares := shares[id := s.(status := ShareValid, statusDesc := ShareDescValid, ownerEmail := c.value.fininstEmail)];
      }
      assert scan[..i + 1] == scan[..i] + [id];
      i := i + 1;
    }
    assert scan[..i] == scan;
    forall id | id in scan
      ensures !Blocked(w, id, name)
    {
      var k :| 0 <= k < |scan| && scan[k] == id;
    }
    complete := true;
  }

  /**
   `enableUnderwroteAssetSharesOwnerships`: for an asset in 20, every claimed
   share still in 00 becomes valid and passes to the institution of its
   claim; the frozen remainder stays with the owner; the asset moves to 21.
   A claim that cannot be found ends the call with an error after the shares
   before it in `scan` were already rewritten, and the error reply commits
   them.
   */
  method Enable(w: World, name: string, sig: string, scan: seq<string>) returns (r: Reply)
    requires IsScan(w, name, scan)
    ensures r.outcome.Ok? <==>
      name in w.assets && w.assets[name].status == StUnitsInitialized && forall id :: !Blocked(w, id, name)
    ensures r.outcome.Ok? ==>
      && name in r.world.assets
      && r.world.assets[name] == w.assets[name].(ihtSig := sig, status := StOwnershipEffected, comment := DescOwnershipEffected)
      && OnlyAsset(w.(shares := r.world.shares), r.world, name)
      && (forall id :: id in r.world.shares <==> id in w.shares)
      && (forall id :: id in w.shares ==>
            r.world.shares[id] == if w.shares[id].assetName == name then Transferred(w, w.shares[id]) else w.shares[id])
    ensures !r.outcome.Ok? ==>
      && r.world == w.(shares := r.world.shares)
      && (forall id :: id in r.world.shares <==> id in w.shares)
      && (forall id :: id in w.shares ==>
            r.world.shares[id] == w.shares[id] || r.world.shares[id] == Transferred(w, w.shares[id]))
    ensures name in w.assets && w.assets[name].status == StUnitsInitialized && !r.outcome.Ok? ==>
      r.outcome == AppError(NotFound) && exists k :: StoppedAt(w, name, scan, k, r.world.shares)
    ensures !(name in w.assets && w.assets[name].status == StUnitsInitialized) ==> r.world == w
  {
    if name !in w.assets {
      return Fail(NotFound, w);
    }
    var a := w.assets[name];
    if a.status != StUnitsInitialized {
      return Fail(WrongStatus, w);
    }
    var shares, complete := TransferShares(w, name, scan);
    if !complete {
      return Reply(AppError(NotFound), w.(shares := shares));
    }
    var w1 := w.(shares := shares);
    r := Done(w1.WithAsset(name, a.(ihtSig := sig, status := StOwnershipEffected, comment := DescOwnershipEffected)));
  }

  /**
   The transfer changes only status and holder: the units, the value and
   the claim of every share stay as they were, and a share passes only to
   the institution named in its own claim.
   */
  lemma TransferKeepsUnits(w: World, s: Share)
    ensures Transferred(w, s).units == s.units && Transferred(w, s).amt == s.amt
    ensures Transferred(w, s).claimId == s.claimId && Transferred(w, s).assetName == s.assetName
    ensures Transferred(w, s).ownerEmail != s.ownerEmail ==>
      exists c :: c in w.claims && c.id == s.claimId && Transferred(w, s).ownerEmail == c.fininstEmail
    ensures !Eligible(s) ==> Transferred(w, s) == s
  {
    var c := FindClaim(w.claims, s.claimId);
    if Eligible(s) && c.Some? {
      assert c.value in w.claims;
    }
  }
}

=== FILE: split.dfy ===
/**
 How `initAssetSecurityShares` numbers the units of an asset: the claims, in
 query order, take consecutive runs of unit numbers starting at 1, and the
 units nobody claimed go to one remainder run ending at the number of parts.
 */
module Split {
  import opened State
  import opened Decimal
  import opened Results

  /** The units of each claim, in order. */
  function Units(claims: seq<Claim>): (u: seq<int>)
    ensures |u| == |claims|
    ensures forall i :: 0 <= i < |claims| ==> u[i] == claims[i].units
  {
    seq(|claims|, i requires 0 <= i < |claims| => claims[i].units)
  }

  /** Sum of the first `k` entries of `u`. */
  function Prefix(u: seq<int>, k: nat): int
    requires k <= |u|
  {
    if k == 0 then 0 else u[0] + Prefix(u[1..], k - 1)
  }

  /** Consecutive runs of the given lengths, the first starting at `next`. */
  function Ranges(u: seq<int>, next: int): (rs: seq<UnitRange>)
    ensures |rs| == |u|
  {
    if u == [] then [] else [UnitRange(next, next + u[0] - 1)] + Ranges(u[1..], next + u[0])
  }

  /** The run of unit numbers left to the owner when the claims total `claimed`. */
  function Remainder(claimed: int, parts: int): seq<UnitRange>
  {
    if claimed < parts then [UnitRange(claimed + 1, parts)] else []
  }

  /** Every run produced for an asset of `parts` units, claims first. */
  function AllRanges(u: seq<int>, parts: int): seq<UnitRange>
  {
    Ranges(u, 1) + Remainder(Prefix(u, |u|), parts)
  }

  predicate AllPositive(u: seq<int>)
  {
    forall i :: 0 <= i < |u| ==> u[i] > 0
  }

  /** Some run holds unit number `x`. */
  ghost predicate Covered(rs: seq<UnitRange>, x: int)
  {
    exists i :: 0 <= i < |rs| && rs[i].Contains(x)
  }

  /** No unit number lies in two runs. */
  ghost predicate Disjoint(rs: seq<UnitRange>)
  {
    forall i, j, x :: 0 <= i < |rs| && 0 <= j < |rs| && i != j && rs[i].Contains(x) ==> !rs[j].Contains(x)
  }

  /** Each unit number from 1 to `parts` lies in exactly one run, and no run leaves that interval. */
  ghost predicate Partitions(rs: seq<UnitRange>, parts: int)
  {
    && (forall x :: 1 <= x <= parts ==> Covered(rs, x))
    && Disjoint(rs)
    && (forall i, x :: 0 <= i < |rs| && rs[i].Contains(x) ==> 1 <= x <= parts)
  }

  lemma {:induction false} UnitsSumIsPrefix(claims: seq<Claim>)
    ensures UnitsSum(claims) == Prefix(Units(claims), |claims|)
    decreases |claims|
  {
    if claims != [] {
      assert Units(claims)[1..] == Units(claims[1..]);
      UnitsSumIsPrefix(claims[1..]);
    }
  }

  lemma {:induction false} PrefixStep(u: seq<int>, k: nat)
    requires k < |u|
    ensures Prefix(u, k + 1) == Prefix(u, k) + u[k]
    decreases k
  {
    if k > 0 {
      PrefixStep(u[1..], k - 1);
    }
  }

  /** With positive lengths the partial sums strictly increase. */
  lemma {:induction false} PrefixIncreasing(u: seq<int>, i: nat, j: nat)
    requires AllPositive(u)
    requires i < j <= |u|
    ensures Prefix(u, i) < Prefix(u, j)
    decreases i
  {
    if i == 0 {
      PrefixNonNegative(u[1..], j - 1);
    } else {
      PrefixIncreasing(u[1..], i - 1, j - 1);
    }
  }

  lemma {:induction false} PrefixNonNegative(u: seq<int>, k: nat)
    requires AllPositive(u)
    requires k <= |u|
    ensures Prefix(u, k) >= 0
    decreases k
  {
    if k > 0 {
      PrefixNonNegative(u[1..], k - 1);
    }
  }

  /** Run `i` starts one past the units of the claims before it and holds exactly `u[i]` numbers. */
  lemma {:induction false} RangesAt(u: seq<int>, next: int, i: nat)
    requires i < |u|
    ensures Ranges(u, next)[i] == UnitRange(next + Prefix(u, i), next + Prefix(u, i + 1) - 1)
    decreases i
  {
    if i > 0 {
      RangesAt(u[1..], next + u[0], i - 1);
    }
  }

  /** The runs cover every number from `next` up to the total, whatever the signs of the lengths. */
  lemma {:induction false} RangesCover(u: seq<int>, next: int, x: int)
    requires next <= x < next + Prefix(u, |u|)
    ensures exists i :: 0 <= i < |u| && Ranges(u, next)[i].Contains(x)
    decreases |u|
  {
    assert u != [];
    if x > next + u[0] - 1 {
      assert Prefix(u, |u|) == u[0] + Prefix(u[1..], |u| - 1);
      RangesCover(u[1..], next + u[0], x);
      var i :| 0 <= i < |u| - 1 && Ranges(u[1..], next + u[0])[i].Contains(x);
      assert Ranges(u, next)[i + 1] == Ranges(u[1..], next + u[0])[i];
    } else {
      assert Ranges(u, next)[0].Contains(x);
    }
  }

  /** With positive lengths, an earlier run ends before a later one starts. */
  lemma RangesOrdered(u: seq<int>, next: int, i: nat, j: nat)
    requires AllPositive(u)
    requires i < j < |u|
    ensures Ranges(u, next)[i].hi < Ranges(u, next)[j].lo
  {
    RangesAt(u, next, i);
    RangesAt(u, next, j);
    if i + 1 < j {
      PrefixIncreasing(u, i + 1, j);
    }
  }

  /** The claim runs and the remainder run together reach every unit number up to the parts. */
  lemma SplitCovers(u: seq<int>, parts: int, x: int)
    requires 1 <= x <= parts
    ensures Covered(AllRanges(u, parts), x)
  {
    var total := Prefix(u, |u|);
    var rs := AllRanges(u, parts);
    if x <= total {
      RangesCover(u, 1, x);
      var i :| 0 <= i < |u| && Ranges(u, 1)[i].Contains(x);
      assert rs[i] == Ranges(u, 1)[i];
    } else {
      assert rs[|u|] == UnitRange(total + 1, parts);
    }
  }

  /** With positive lengths, a claim run lies within 1..total. */
  lemma ClaimRunBounded(u: seq<int>, i: nat, x: int)
    requires AllPositive(u)
    requires i < |u| && Ranges(u, 1)[i].Contains(x)
    ensures 1 <= x <= Prefix(u, |u|)
  {
    RangesAt(u, 1, i);
    PrefixNonNegative(u, i);
    if i + 1 < |u| {
      PrefixIncreasing(u, i + 1, |u|);
    }
  }

  /** With positive lengths that fit in the parts, no unit number lies in two runs. */
  lemma SplitDisjoint(u: seq<int>, parts: int)
    requires AllPositive(u)
    ensures Disjoint(AllRanges(u, parts))
  {
    var rs := AllRanges(u, parts);
    forall i, j, x | 0 <= i < |rs| && 0 <= j < |rs| && i != j && rs[i].Contains(x)
      ensures !rs[j].Contains(x)
    {
      if i < |u| && j < |u| {
        if i < j { RangesOrdered(u, 1, i, j); } else { RangesOrdered(u, 1, j, i); }
      } else if i < |u| {
        assert rs[i] == Ranges(u, 1)[i];
        ClaimRunBounded(u, i, x);
      } else if j < |u| {
        assert rs[j] == Ranges(u, 1)[j];
        if rs[j].Contains(x) {
          ClaimRunBounded(u, j, x);
        }
      }
    }
  }

  /** With positive lengths that fit in the parts, every run stays within 1..parts. */
  lemma SplitBounded(u: seq<int>, parts: int, i: nat, x: int)
    requires AllPositive(u)
    requires Prefix(u, |u|) <= parts
    requires i < |AllRanges(u, parts)| && AllRanges(u, parts)[i].Contains(x)
    ensures 1 <= x <= parts
  {
    if i < |u| {
      assert AllRanges(u, parts)[i] == Ranges(u, 1)[i];
      ClaimRunBounded(u, i, x);
    } else {
      PrefixNonNegative(u, |u|);
    }
  }

  /**
   When every claim asks for at least one unit and together they fit in the
   parts, the claim runs and the remainder run partition 1..parts.
   */
  lemma SplitPartitions(u: seq<int>, parts: int)
    requires AllPositive(u)
    requires Prefix(u, |u|) <= parts
    ensures Partitions(AllRanges(u, parts), parts)
  {
    var rs := AllRanges(u, parts);
    forall x | 1 <= x <= parts
      ensures Covered(rs, x)
    {
      SplitCovers(u, parts, x);
    }
    SplitDisjoint(u, parts);
    forall i, x | 0 <= i < |rs| && rs[i].Contains(x)
      ensures 1 <= x <= parts
    {
      SplitBounded(u, parts, i, x);
    }
  }

  /** Claims of 5, -3 and 5 units give the runs 1-5, 6-2 and 3-7: unit 4 lies in two runs. */
  lemma NegativeClaimOverlaps()
    ensures AllRanges([5, -3, 5], 10) == [UnitRange(1, 5), UnitRange(6, 2), UnitRange(3, 7), UnitRange(8, 10)]
    ensures AllRanges([5, -3, 5], 10)[0].Contains(4) && AllRanges([5, -3, 5], 10)[2].Contains(4)
    ensures !Partitions(AllRanges([5, -3, 5], 10), 10)
  {
    var u := [5, -3, 5];
    assert Prefix(u, 3) == 7 by {
      assert u[1..] == [-3, 5];
      assert u[1..][1..] == [5];
    }
    assert Ranges(u, 1) == [UnitRange(1, 5), UnitRange(6, 2), UnitRange(3, 7)] by {
      assert u[1..] == [-3, 5];
      assert u[1..][1..] == [5];
    }
    var rs := AllRanges(u, 10);
    assert rs[0].Contains(4) && rs[2].Contains(4);
    assert !Disjoint(rs);
  }

  // ---------------------------------------------------------------------
  // Unit-number labels
  // ---------------------------------------------------------------------

  /** The label "m-n" of a run of unit numbers. */
  function RangeLabel(r: UnitRange): string
  {
    Itoa(r.lo) + "-" + Itoa(r.hi)
  }

  /** Reads a label back: "m-n" is the run from m to n, a lone "o" is the run of unit o. */
  function ParseLabel(s: string): (r: Option<UnitRange>)
  {
    var k := FirstIndex(s, '-');
    if k == |s| then
      (var o := ParseDigits(s); if o.None? then None else Some(UnitRange(o.value, o.value)))
    else
      var lo := ParseDigits(s[..k]);
      var hi := ParseInt(s[k + 1..]);
      if lo.None? || hi.None? then None else Some(UnitRange(lo.value, hi.value))
  }

  /** A run that starts at a non-negative number reads back from its label. */
  lemma RangeLabelRoundTrip(r: UnitRange)
    requires r.lo >= 0
    ensures ParseLabel(RangeLabel(r)) == Some(r)
  {
    var s := RangeLabel(r);
    var k := |Itoa(r.lo)|;
    assert s[k] == '-';
    assert forall j :: 0 <= j < k ==> s[j] == Itoa(r.lo)[j];
    assert FirstIndex(s, '-') == k;
    assert s[..k] == NatText(r.lo);
    assert s[k + 1..] == Itoa(r.hi);
    NatTextRoundTrip(r.lo);
    ItoaRoundTrip(r.hi);
  }

  /** A single unit number reads back as the run of that unit alone. */
  lemma UnitLabelRoundTrip(o: nat)
    ensures ParseLabel(Itoa(o)) == Some(UnitRange(o, o))
  {
    NatTextRoundTrip(o);
  }
}

=== FILE: state.dfy ===
/**
 The documents of the asset-management chaincode and the world state that
 holds them. Every namespace is a map from the document's own key (e-mail,
 asset name, share id, payment id) to the decoded document, except the
 underwriting claims: claims are only ever appended, and the model keeps them
 in the order the ledger's rich query returns them.
 */
module State {
  import opened Results
  import opened Ledger
  import opened Codes

  /** The review role of a registered party: asset owner or financial institution. */
  datatype Role = Owner | Fininst

  function Other(role: Role): (o: Role)
    ensures o != role
  {
    if role == Owner then Fininst else Owner
  }

  /** `asset_owner` / `fininst`: the login record of a party. */
  datatype Party = Party(email: string, nickname: string, pwdHash: string, status: string, comment: string)

  /** `asset_owner_detail` / `fininst_detail`: the identity documents of a party. */
  datatype Detail = Detail(
    email: string, realname: string, contact: string,
    identityPics: seq<string>,   // three picture hashes
    proofPics: seq<string>,      // four picture hashes
    status: string, comment: string, sig: string)

  /**
   `asset_securitized`. Amounts, the dividend and percentages are reals;
   the three RFC3339 times are seconds, `None` standing for the empty string
   the record starts with.
   */
  datatype Asset = Asset(
    ownerEmail: string, name: string, picHashs: string, desc: string, assetType: string,
    ccy: string, amt: real, parts: int, dividend: real,
    repurchasePeriod: int, underwritePeriod: int, bottomPercent: real,
    allowDelegate: bool, proofHashs: string,
    status: string, comment: string,
    underwriteStart: Option<int>, underwriteDue: Option<int>, repurchaseDue: Option<int>,
    percent: real, currentClaim: string, assetHash: string,
    ownerSig: string, ihtSig: string)

  /** `asset_security_underwrote`: units of an asset claimed by a financial institution. */
  datatype Claim = Claim(
    id: string, fininstEmail: string, ownerEmail: string, assetName: string,
    units: int, time: int, sig: string)

  /** Inclusive range of unit numbers; empty when `hi < lo`. */
  datatype UnitRange = UnitRange(lo: int, hi: int)
  {
    predicate Contains(x: int) { lo <= x <= hi }
  }

  /**
   `asset_security_share`. The record stores its units only as the decimal
   strings in `unitNos`; `units` keeps the same range as numbers.
   */
  datatype Share = Share(
    inputHash: string, id: string, outputHash: string,
    unitNos: seq<string>, units: UnitRange,
    claimId: string, ownerEmail: string, assetName: string,
    ccy: string, amt: real, unitTotal: int, dividend: real,
    repurchaseTime: Option<int>, allowDelegate: bool,
    status: string, statusDesc: string, assetHash: string, prevOwnerSig: string)

  /** One debit or credit leg of a payment. */
  datatype Leg = Leg(ccy: string, acct: string, sub: string, amt: real, owner: string)

  /** `payment_txn_booking`. */
  datatype Booking = Booking(
    assetHash: string, shareId: string, id: string,
    debit1: Leg, credit1: Leg, debit2: Leg, credit2: Leg, desc: string)

  /**
   Where a role's records live in the ledger. As written, a login record is
   stored under `asset_owner_` (`fininst_`) followed by the e-mail and an
   identity record under `asset_owner_detail_` (`fininst_detail_`) followed
   by the e-mail; the first namespace is a prefix of the second, so the two
   kinds share one key space. `Separated` stores login records under
   `asset_owner_login_` (`fininst_login_`), a prefix of no identity key.
   */
  datatype Layout = AsWritten | Separated

  /**
   What is stored under a key of a role's namespaces: the JSON of a login
   record or of an identity record. Either is read back with the struct the
   reading operation expects (`AsParty`, `AsDetail`).
   */
  datatype PartyDoc = LoginDoc(p: Party) | IdentityDoc(d: Detail)

  /**
   `json.Unmarshal` of a stored document into the login struct. An identity
   document shares only the e-mail and the platform comment with it; its
   status is `detail_status`, not the login status, so that stays empty.
   */
  function AsParty(doc: PartyDoc): Party
  {
    match doc
    case LoginDoc(p) => p
    case IdentityDoc(d) => Party(d.email, "", "", "", d.comment)
  }

  /** `json.Unmarshal` of a stored document into the identity struct. */
  function AsDetail(doc: PartyDoc): Detail
  {
    match doc
    case IdentityDoc(d) => d
    case LoginDoc(p) => Detail(p.email, "", "", ["", "", ""], ["", "", "", ""], "", p.comment, "")
  }

  /**
   The ledger. The records of each role are one map from the full ledger
   key to the stored document; the other kinds keep their own maps, keyed by
   the document's own key, since their namespaces are apart
   (`DocNamespacesApart`, `RoleNamespacesApart`, `RolesApart`).
   */
  datatype World = World(
    layout: Layout,
    ownerDocs: map<string, PartyDoc>, fininstDocs: map<string, PartyDoc>,
    assets: map<string, Asset>,
    claims: seq<Claim>,
    shares: map<string, Share>,
    bookings: map<string, Booking>,
    index: set<IndexEntry>)
  {
    function Docs(role: Role): map<string, PartyDoc>
    {
      if role == Owner then ownerDocs else fininstDocs
    }

    /** The key `getDocWithNamespace` reads for the login record of `email`. */
    function LoginKey(role: Role, email: string): string
    {
      DocKey(PartyNs(layout, role), email)
    }

    /** The key of the identity record of `email`; never the login key of the same e-mail. */
    function IdentityKey(role: Role, email: string): (k: string)
      ensures k != LoginKey(role, email)
    {
      assert |DetailNs(role)| > |PartyNs(layout, role)|;
      DocKey(DetailNs(role), email)
    }

    /** The login record of `email` as the operations unmarshal it, if one is stored. */
    function Login(role: Role, email: string): Option<Party>
    {
      var k := LoginKey(role, email);
      if k in Docs(role) then Some(AsParty(Docs(role)[k])) else None
    }

    /** The identity record of `email` as the operations unmarshal it, if one is stored. */
    function Identity(role: Role, email: string): Option<Detail>
    {
      var k := IdentityKey(role, email);
      if k in Docs(role) then Some(AsDetail(Docs(role)[k])) else None
    }

    /** An approved login record (02) is stored for `email`. */
    predicate LoginApproved(role: Role, email: string)
    {
      Login(role, email).Some? && Login(role, email).value.status == StApproved
    }

    /** An approved identity record (02) is stored for `email`. */
    predicate IdentityApproved(role: Role, email: string)
    {
      Identity(role, email).Some? && Identity(role, email).value.status == StApproved
    }

    /** Everything but the records of `role` is the same in `w`. */
    predicate SameBeyond(w: World, role: Role)
    {
      && w.layout == layout
      && w.assets == assets && w.claims == claims && w.shares == shares && w.bookings == bookings
      && w.index == index
      && w.Docs(Other(role)) == Docs(Other(role))
    }

    /** `PutState` of `doc` under `key` among the records of `role`. */
    function WithDoc(role: Role, key: string, doc: PartyDoc): (w: World)
      ensures w.Docs(role) == Docs(role)[key := doc]
      ensures SameBeyond(w, role)
      ensures OnlyAt(this, w, role, {key})
    {
      if role == Owner then this.(ownerDocs := ownerDocs[key := doc])
      else this.(fininstDocs := fininstDocs[key := doc])
    }

    function WithLogin(role: Role, email: string, p: Party): (w: World)
      ensures w.Login(role, email) == Some(p)
      ensures OnlyAt(this, w, role, {LoginKey(role, email)})
    {
      WithDoc(role, LoginKey(role, email), LoginDoc(p))
    }

    function WithIdentity(role: Role, email: string, d: Detail): (w: World)
      ensures w.Identity(role, email) == Some(d)
      ensures OnlyAt(this, w, role, {IdentityKey(role, email)})
    {
      WithDoc(role, IdentityKey(role, email), IdentityDoc(d))
    }

    /** Stores `a` under `key`; the record's own name field is not consulted. */
    function WithAsset(key: string, a: Asset): (w: World)
      ensures key in w.assets && w.assets[key] == a
      ensures OnlyAsset(this, w, key)
    {
      this.(assets := assets[key := a])
    }

    function Indexed(e: IndexEntry): World
    {
      this.(index := index + {e})
    }
  }

  /** What a transaction answers and the world state it commits. */
  datatype Reply = Reply(outcome: Outcome, world: World)

  function Fail(kind: ErrorKind, w: World): (r: Reply)
    ensures !r.outcome.Ok? && r.world == w
  {
    Reply(AppError(kind), w)
  }

  /** A rolled-back transaction leaves the world as it found it. */
  function Abort(w: World): (r: Reply)
    ensures r.outcome.Aborted? && r.world == w
  {
    Reply(Aborted, w)
  }

  function Done(w: World): (r: Reply)
    ensures r.outcome.Ok? && r.world == w
  {
    Reply(Ok, w)
  }

  /** `m'` keeps every entry of `m` except possibly the one under `k`, and adds none but `k`. */
  predicate AgreeExcept<V(==)>(m: map<string, V>, m': map<string, V>, k: string)
  {
    && (forall e :: e in m ==> e in m')
    && (forall e :: e in m' && e != k ==> e in m && m'[e] == m[e])
  }

  /** `w'` differs from `w` at most in the asset record stored under `name`. */
  predicate OnlyAsset(w: World, w': World, name: string)
  {
    w' == w.(assets := w'.assets) && AgreeExcept(w.assets, w'.assets, name)
  }

  /** Namespace of the login records of a role. */
  function PartyNs(layout: Layout, role: Role): string
  {
    match layout
    case AsWritten => if role == Owner then "asset_owner_" else "fininst_"
    case Separated => if role == Owner then "asset_owner_login_" else "fininst_login_"
  }

  /** Namespace of the identity records of a role. */
  function DetailNs(role: Role): string
  {
    if role == Owner then "asset_owner_detail_" else "fininst_detail_"
  }

  /** Only the records of `role` stored under `keys` may differ between `w` and `w'`. */
  predicate OnlyAt(w: World, w': World, role: Role, keys: set<string>)
  {
    && w.SameBeyond(w', role)
    && (forall k :: k in w.Docs(role) ==> k in w'.Docs(role))
    && (forall k :: k in w'.Docs(role) && k !in keys ==> k in w.Docs(role) && w'.Docs(role)[k] == w.Docs(role)[k])
  }

  /** Under `OnlyAt`, a record whose key was not written reads back as before. */
  lemma Untouched(w: World, w': World, role: Role, keys: set<string>, e: string)
    requires OnlyAt(w, w', role, keys)
    ensures w.LoginKey(role, e) !in keys ==> w'.Login(role, e) == w.Login(role, e)
    ensures w.IdentityKey(role, e) !in keys ==> w'.Identity(role, e) == w.Identity(role, e)
  {
  }

  /** Keys under two namespaces meet only when one namespace is a prefix of the other. */
  lemma KeysMeetOnlyUnderPrefix(ns1: string, k1: string, ns2: string, k2: string)
    requires DocKey(ns1, k1) == DocKey(ns2, k2)
    ensures ns1 <= ns2 || ns2 <= ns1
  {
    var key := DocKey(ns1, k1);
    if |ns1| <= |ns2| {
      assert ns2[..|ns1|] == key[..|ns1|] == ns1;
    } else {
      assert ns1[..|ns2|] == key[..|ns2|] == ns2;
    }
  }

  /** Neither string is a prefix of the other. */
  predicate Apart(a: string, b: string)
  {
    !(a <= b) && !(b <= a)
  }

  /** Two strings that differ at a common position are apart. */
  lemma ApartAt(a: string, b: string, i: int)
    requires 0 <= i < |a| && i < |b| && a[i] != b[i]
    ensures Apart(a, b)
  {
  }

  /**
   The namespaces the model keeps in maps of their own (the asset, claim,
   share and booking records, and the records of each role) are apart, so by
   `KeysMeetOnlyUnderPrefix` none of their keys meet. This lemma and the
   two after it cover every pair of them.
   */
  lemma DocNamespacesApart()
    ensures Apart(NsAsset, NsClaim) && Apart(NsAsset, NsShare) && Apart(NsClaim, NsShare)
    ensures Apart(NsAsset, NsBooking) && Apart(NsClaim, NsBooking) && Apart(NsShare, NsBooking)
  {
    ApartAt(NsAsset, NsClaim, 13);
    ApartAt(NsAsset, NsShare, 13);
    ApartAt(NsClaim, NsShare, 15);
    ApartAt(NsAsset, NsBooking, 0);
    ApartAt(NsClaim, NsBooking, 0);
    ApartAt(NsShare, NsBooking, 0);
  }

  /** The namespaces of a role's records are apart from those of the asset, claim, share and booking records. */
  lemma RoleNamespacesApart(layout: Layout, role: Role)
    ensures Apart(NsAsset, PartyNs(layout, role)) && Apart(NsClaim, PartyNs(layout, role))
         && Apart(NsShare, PartyNs(layout, role)) && Apart(NsBooking, PartyNs(layout, role))
    ensures Apart(NsAsset, DetailNs(role)) && Apart(NsClaim, DetailNs(role))
         && Apart(NsShare, DetailNs(role)) && Apart(NsBooking, DetailNs(role))
  {
    var i := if role == Owner then 6 else 0;
    ApartAt(NsAsset, PartyNs(layout, role), i);
    ApartAt(NsClaim, PartyNs(layout, role), i);
    ApartAt(NsShare, PartyNs(layout, role), i);
    ApartAt(NsBooking, PartyNs(layout, role), 0);
    ApartAt(NsAsset, DetailNs(role), i);
    ApartAt(NsClaim, DetailNs(role), i);
    ApartAt(NsShare, DetailNs(role), i);
    ApartAt(NsBooking, DetailNs(role), 0);
  }

  /**
   The namespaces of the two roles are apart; within one role the login
   namespace is apart from the identity one exactly when separated.
   */
  lemma RolesApart(layout: Layout, role: Role)
    ensures Apart(PartyNs(layout, Owner), PartyNs(layout, Fininst)) && Apart(PartyNs(layout, Owner), DetailNs(Fininst))
         && Apart(DetailNs(Owner), PartyNs(layout, Fininst)) && Apart(DetailNs(Owner), DetailNs(Fininst))
    ensures Apart(PartyNs(layout, role), DetailNs(role)) <==> layout == Separated
  {
    ApartAt(PartyNs(layout, Owner), PartyNs(layout, Fininst), 0);
    ApartAt(PartyNs(layout, Owner), DetailNs(Fininst), 0);
    ApartAt(DetailNs(Owner), PartyNs(layout, Fininst), 0);
    ApartAt(DetailNs(Owner), DetailNs(Fininst), 0);
    if layout == Separated {
      ApartAt(PartyNs(layout, role), DetailNs(role), if role == Owner then 12 else 8);
    } else {
      assert DetailNs(role) == PartyNs(layout, role) + "detail_";
    }
  }

  /**
   A login key and an identity key of one role are the same ledger key
   exactly when the layout is as written and the login e-mail is `detail_`
   followed by the identity's e-mail.
   */
  lemma LoginKeyIsIdentityKey(w: World, role: Role, e: string, x: string)
    ensures w.LoginKey(role, e) == w.IdentityKey(role, x) <==> w.layout == AsWritten && e == "detail_" + x
  {
    if w.layout == AsWritten {
      AsWrittenKeysMeet(role, e, x);
    } else {
      SeparatedKeysApart(role, e, x);
    }
  }

  /** As written, the identity namespace is the login namespace followed by `detail_`. */
  lemma AsWrittenKeysMeet(role: Role, e: string, x: string)
    ensures DocKey(PartyNs(AsWritten, role), e) == DocKey(DetailNs(role), x) <==> e == "detail_" + x
  {
    var ns := PartyNs(AsWritten, role);
    assert DetailNs(role) == ns + "detail_";
    assert DocKey(DetailNs(role), x) == ns + ("detail_" + x);
    if DocKey(ns, e) == DocKey(DetailNs(role), x) {
      assert e == (ns + e)[|ns|..] == (ns + ("detail_" + x))[|ns|..] == "detail_" + x;
    }
  }

  /** Separated, no login key is an identity key. */
  lemma SeparatedKeysApart(role: Role, e: string, x: string)
    ensures DocKey(PartyNs(Separated, role), e) != DocKey(DetailNs(role), x)
  {
    var ns := PartyNs(Separated, role);
    if DocKey(ns, e) == DocKey(DetailNs(role), x) {
      ApartAt(ns, DetailNs(role), if role == Owner then 12 else 8);
      KeysMeetOnlyUnderPrefix(ns, e, DetailNs(role), x);
      assert false;
    }
  }

  function PartyStatusIdx(role: Role): string
  {
    if role == Owner then "owner_status_2_owner_email" else "fininst_status_2_fininst_email"
  }

  function DetailStatusIdx(role: Role): string
  {
    if role == Owner then "detail_status_2_owner_email" else "detail_status_2_fininst_email"
  }

  /** The claims of one asset, in query order. */
  function ClaimsOf(claims: seq<Claim>, name: string): (r: seq<Claim>)
    ensures |r| <= |claims|
    ensures forall c :: c in r <==> c in claims && c.assetName == name
  {
    if claims == [] then []
    else (if claims[0].assetName == name then [claims[0]] else []) + ClaimsOf(claims[1..], name)
  }

  /** Total of the units a list of claims asks for. */
  function UnitsSum(claims: seq<Claim>): int
  {
    if claims == [] then 0 else claims[0].units + UnitsSum(claims[1..])
  }

  /** Units claimed so far on an asset, over every stored claim. */
  function Subscribed(w: World, name: string): int
  {
    UnitsSum(ClaimsOf(w.claims, name))
  }

  lemma {:induction false} ClaimsOfAppend(claims: seq<Claim>, c: Claim, name: string)
    ensures ClaimsOf(claims + [c], name) == ClaimsOf(claims, name) + (if c.assetName == name then [c] else [])
    decreases |claims|
  {
    if claims != [] {
      assert (claims + [c])[1..] == claims[1..] + [c];
      ClaimsOfAppend(claims[1..], c, name);
    }
  }

  lemma {:induction false} UnitsSumAppend(claims: seq<Claim>, extra: seq<Claim>)
    ensures UnitsSum(claims + extra) == UnitsSum(claims) + UnitsSum(extra)
    decreases |claims|
  {
    if claims == [] {
      assert claims + extra == extra;
    } else {
      assert (claims + extra)[1..] == claims[1..] + extra;
      UnitsSumAppend(claims[1..], extra);
    }
  }

  /** The total does not depend on the order the claims come in. */
  lemma {:induction false} UnitsSumPermutation(xs: seq<Claim>, ys: seq<Claim>)
    requires multiset(xs) == multiset(ys)
    ensures UnitsSum(xs) == UnitsSum(ys)
    decreases |xs|
  {
    if xs == [] {
      assert |ys| == |multiset(ys)| == 0;
    } else {
      var x := xs[0];
      assert x in multiset(ys);
      var k :| 0 <= k < |ys| && ys[k] == x;
      var rest := ys[..k] + ys[k + 1..];
      WithoutOne(ys, k);
      assert xs == [x] + xs[1..];
      assert multiset(xs) == multiset{x} + multiset(xs[1..]);
      assert multiset(xs[1..]) == multiset(xs) - multiset{x};
      assert multiset(rest) == multiset(ys) - multiset{x};
      UnitsSumPermutation(xs[1..], rest);
    }
  }

  /** Taking one claim out of a list takes it out of the multiset and its units out of the total. */
  lemma WithoutOne(ys: seq<Claim>, k: int)
    requires 0 <= k < |ys|
    ensures multiset(ys) == multiset(ys[..k] + ys[k + 1..]) + multiset{ys[k]}
    ensures UnitsSum(ys) == ys[k].units + UnitsSum(ys[..k] + ys[k + 1..])
  {
    MultisetWithoutOne(ys, k);
    UnitsSumWithoutOne(ys, k);
  }

  /** The multiset half of `WithoutOne`. */
  lemma MultisetWithoutOne(ys: seq<Claim>, k: int)
    requires 0 <= k < |ys|
    ensures multiset(ys) == multiset(ys[..k] + ys[k + 1..]) + multiset{ys[k]}
  {
    var x, before, after := ys[k], ys[..k], ys[k + 1..];
    assert ys == before + ([x] + after);
    assert multiset(ys) == multiset(before) + (multiset{x} + multiset(after));
    assert multiset(before + after) == multiset(before) + multiset(after);
  }

  /** The units half of `WithoutOne`. */
  lemma UnitsSumWithoutOne(ys: seq<Claim>, k: int)
    requires 0 <= k < |ys|
    ensures UnitsSum(ys) == ys[k].units + UnitsSum(ys[..k] + ys[k + 1..])
  {
    var x, before, after := ys[k], ys[..k], ys[k + 1..];
    assert ys == before + ([x] + after);
    UnitsSumAppend(before, [x] + after);
    UnitsSumAppend(before, after);
    assert ([x] + after)[1..] == after;
  }

  /** Appending a claim adds its units to its own asset and to no other. */
  lemma SubscribedAfterClaim(w: World, c: Claim, name: string)
    ensures Subscribed(w.(claims := w.claims + [c]), name)
         == Subscribed(w, name) + (if c.assetName == name then c.units else 0)
  {
    ClaimsOfAppend(w.claims, c, name);
    UnitsSumAppend(ClaimsOf(w.claims, name), if c.assetName == name then [c] else []);
    if c.assetName == name {
      assert UnitsSum([c]) == c.units + UnitsSum([]);
    }
  }

  /** First stored claim with the given id. */
  function FindClaim(claims: seq<Claim>, id: string): (r: Option<Claim>)
    ensures r.Some? ==> r.value in claims && r.value.id == id
    ensures r.None? <==> forall i :: 0 <= i < |claims| ==> claims[i].id != id
  {
    if claims == [] then None
    else if claims[0].id == id then Some(claims[0])
    else FindClaim(claims[1..], id)
  }
}

=== FILE: underwriting.dfy ===
/**
 Financial institutions claiming units of an asset during its underwriting
 window (`underwrite`), as the source writes it and as it is evidently meant.

 The source guards a new claim with the percentage cached on the asset,
 truncated back to units, but it recomputes that cache from a rich query over
 every stored claim of the asset. The two agree only until `startUnderwrite`
 resets the cache, and nothing requires the claimed units to be positive.
 Sums of units are Go `int`s, which wrap around at 64 bits.
 `Underwrite` models the code as written and the lemmas at the end exhibit
 both gaps; `UnderwriteChecked` is the corrected operation.
 */
module Underwriting {
  import opened Results
  import opened Ledger
  import opened Codes
  import opened State
  import Lifecycle
  import Float64

  const MinInt: int := -0x8000_0000_0000_0000
  const MaxInt: int := 0x7fff_ffff_ffff_ffff

  /** Whether x is a Go `int` (64 bits): what `strconv.Atoi` accepts. */
  predicate IsInt(x: int)
  {
    MinInt <= x <= MaxInt
  }

  /** Go's 64-bit `int` arithmetic: x brought into the `int` range modulo 2^64. */
  function Wrap(x: int): (r: int)
    ensures IsInt(r)
    ensures IsInt(x) ==> r == x
    ensures (x - r) % 0x1_0000_0000_0000_0000 == 0
  {
    (x - MinInt) % 0x1_0000_0000_0000_0000 + MinInt
  }

  /**
   Wrapping after every addition, as the count loop does, gives the wrap of
   the exact sum.
   */
  lemma WrapAdd(x: int, y: int)
    ensures Wrap(Wrap(x) + y) == Wrap(x + y)
  {
    var m := 0x1_0000_0000_0000_0000;
    var k := (x - MinInt) / m;
    assert x - MinInt == k * m + (Wrap(x) - MinInt);
    assert Wrap(x) + y - MinInt == (x + y - MinInt) - k * m;
    ModShift(x + y - MinInt, k, m);
  }

  lemma ModShift(a: int, k: int, m: int)
    requires m > 0
    ensures (a - k * m) % m == a % m
  {
    var q := a / m;
    assert a - k * m == (q - k) * m + a % m;
    ModUnique(a - k * m, m, q - k, a % m);
  }

  /** Euclidean division is unique: a quotient and a remainder in [0, m) are the ones `/` and `%` give. */
  lemma ModUnique(a: int, m: int, q: int, r: int)
    requires m > 0 && 0 <= r < m && a == q * m + r
    ensures a % m == r
  {
    var q', r' := a / m, a % m;
    assert (q - q') * m == r' - r;
    if q > q' {
      AtLeastOnce(q - q', m);
      assert false;
    } else if q < q' {
      AtLeastOnce(q' - q, m);
      assert false;
    }
  }

  lemma AtLeastOnce(d: int, m: int)
    requires d >= 1 && m > 0
    ensures d * m >= m
  {
  }

  /** Go's conversion of a float to an int: truncation toward zero. */
  function Trunc(x: real): (n: int)
    ensures x >= 0.0 ==> n as real <= x < n as real + 1.0
    ensures x < 0.0 ==> n as real - 1.0 < x <= n as real
  {
    if x >= 0.0 then x.Floor else -((-x).Floor)
  }

  /**
   The percentage `float64(n) / float64(d)` of n units among d parts, the
   division rounded by `round`; a zero divisor yields zero.
   */
  function Ratio(round: real -> real, n: int, d: int): (q: real)
    ensures d == 0 ==> q == 0.0
    ensures d != 0 && Float64.Faithful(round) ==> Float64.Near(n as real / d as real, q)
  {
    if d == 0 then 0.0 else Float64.Div(round, n as real, d as real)
  }

  /** The units the cached percentage of an asset stands for, as the guard reads it back. */
  function CachedUnits(round: real -> real, a: Asset): int
  {
    Trunc(Float64.Mul(round, a.percent, a.parts as real))
  }

  /** The cached percentage of `name` reflects every stored claim of it, their sum taken as a Go `int`. */
  predicate CacheConsistent(round: real -> real, w: World, name: string)
  {
    name in w.assets && w.assets[name].percent == Ratio(round, Wrap(Subscribed(w, name)), w.assets[name].parts)
  }

  /** The three index entries written for a claim. */
  function ClaimIndex(c: Claim): set<IndexEntry>
  {
    { IndexOf(NsClaim, IdxClaimFininst, [c.fininstEmail, c.id]),
      IndexOf(NsClaim, IdxClaimOwner, [c.ownerEmail, c.id]),
      IndexOf(NsClaim, IdxClaimAsset, [c.assetName, c.id]) }
  }

  /**
   The checks `underwrite` makes before its business rules, in the source's
   order: an approved institution with an approved identity record, an
   asset that is underwriting, a fresh claim id, and a parsable due time
   that is not before `now`.
   */
  function Admission(w: World, id: string, fininstEmail: string, assetName: string, now: int): (e: Option<ErrorKind>)
    ensures e.None? <==>
      && w.LoginApproved(Fininst, fininstEmail) && w.IdentityApproved(Fininst, fininstEmail)
      && assetName in w.assets && w.assets[assetName].status == StUnderwriting
      && FindClaim(w.claims, id).None?
      && w.assets[assetName].underwriteDue.Some? && w.assets[assetName].underwriteDue.value >= now
  {
    if w.Login(Fininst, fininstEmail).None? then Some(NotFound)
    else if w.Login(Fininst, fininstEmail).value.status != StApproved then Some(NotApproved)
    else if w.Identity(Fininst, fininstEmail).None? then Some(NotFound)
    else if w.Identity(Fininst, fininstEmail).value.status != StApproved then Some(NotApproved)
    else if assetName !in w.assets then Some(NotFound)
    else if w.assets[assetName].status != StUnderwriting then Some(WrongStatus)
    else if FindClaim(w.claims, id).Some? then Some(AlreadyExists)
    else if w.assets[assetName].underwriteDue.None? then Some(BadTime)
    else if w.assets[assetName].underwriteDue.value < now then Some(DeadlinePassed)
    else None
  }

  /**
   Stores the claim, its three index entries and the refreshed asset: the
   current claim id, and the percentage recomputed from the claims stored
   before this transaction plus the new one (a rich query does not see the
   transaction's own writes). Both the count and the total are Go `int`s;
   `WrapAdd` shows that wrapping the exact total gives the same value.
   */
  function Record(round: real -> real, w: World, id: string, fininstEmail: string, assetName: string, units: int, sig: string, now: int): (w': World)
    requires assetName in w.assets
    ensures w'.claims == w.claims + [Claim(id, fininstEmail, w.assets[assetName].ownerEmail, assetName, units, now, sig)]
    ensures w'.index == w.index + ClaimIndex(w'.claims[|w.claims|])
    ensures OnlyAsset(w.(claims := w'.claims, index := w'.index), w', assetName)
    ensures Subscribed(w', assetName) == Subscribed(w, assetName) + units
    ensures CacheConsistent(round, w', assetName)
    ensures w'.assets[assetName] == w.assets[assetName].(currentClaim := id, percent := w'.assets[assetName].percent)
  {
    var a := w.assets[assetName];
    var c := Claim(id, fininstEmail, a.ownerEmail, assetName, units, now, sig);
    var total := Wrap(Subscribed(w, assetName) + units);
    var w1 := w.(claims := w.claims + [c], index := w.index + ClaimIndex(c));
    SubscribedAfterClaim(w, c, assetName);
    w1.WithAsset(assetName, a.(currentClaim := id, percent := Ratio(round, total, a.parts)))
  }

  /**
   `underwrite` as written: the units must be a Go `int`, and the new units
   plus the cached percentage times the number of parts, truncated, summed
   as a Go `int`, must not exceed the parts. On an asset of zero parts the
   new percentage is a float64 division by zero (NaN or an infinity), which
   `json.Marshal` refuses, so the transaction is rolled back.
   */
  function Underwrite(round: real -> real, w: World, id: string, fininstEmail: string, assetName: string, units: int, sig: string, now: int): (r: Reply)
    ensures !IsInt(units) ==> r == Fail(BadArguments, w)
    ensures r.outcome.Ok? <==>
      && IsInt(units)
      && Admission(w, id, fininstEmail, assetName, now).None?
      && Wrap(units + CachedUnits(round, w.assets[assetName])) <= w.assets[assetName].parts
      && w.assets[assetName].parts != 0
    ensures r.outcome.Aborted? <==>
      && IsInt(units)
      && Admission(w, id, fininstEmail, assetName, now).None?
      && w.assets[assetName].parts == 0
      && Wrap(units + CachedUnits(round, w.assets[assetName])) <= 0
    ensures r.outcome.Ok? ==>
      && r.world.claims == w.claims + [Claim(id, fininstEmail, w.assets[assetName].ownerEmail, assetName, units, now, sig)]
      && r.world.index == w.index + ClaimIndex(r.world.claims[|w.claims|])
      && Subscribed(r.world, assetName) == Subscribed(w, assetName) + units
      && CacheConsistent(round, r.world, assetName)
      && r.world.assets[assetName] == w.assets[assetName].(currentClaim := id, percent := r.world.assets[assetName].percent)
      && OnlyAsset(w.(claims := r.world.claims, index := r.world.index), r.world, assetName)
    ensures !r.outcome.Ok? ==> r.world == w
  {
    var gate := Admission(w, id, fininstEmail, assetName, now);
    if !IsInt(units) then Fail(BadArguments, w)
    else if gate.Some? then Fail(gate.value, w)
    else
      var a := w.assets[assetName];
      if Wrap(units + CachedUnits(round, a)) > a.parts then Fail(Oversubscribed, w)
      else if a.parts == 0 then Abort(w)
      else Done(Record(round, w, id, fininstEmail, assetName, units, sig, now))
  }

  /**
   The corrected `underwrite`: the claim must ask for at least one unit, and
   the stored claims plus the new one must not exceed the parts, compared
   without overflow (in Go, `units > parts - count` with the stored count).
   An asset of zero parts still aborts on the percentage it cannot store.
   */
  function UnderwriteChecked(round: real -> real, w: World, id: string, fininstEmail: string, assetName: string, units: int, sig: string, now: int): (r: Reply)
    ensures !IsInt(units) ==> r == Fail(BadArguments, w)
    ensures r.outcome.Ok? <==>
      && IsInt(units)
      && Admission(w, id, fininstEmail, assetName, now).None?
      && units > 0
      && Subscribed(w, assetName) + units <= w.assets[assetName].parts
      && w.assets[assetName].parts != 0
    ensures r.outcome.Ok? ==>
      && r.world.claims == w.claims + [Claim(id, fininstEmail, w.assets[assetName].ownerEmail, assetName, units, now, sig)]
      && assetName in r.world.assets
      && Subscribed(r.world, assetName) <= r.world.assets[assetName].parts
      && CacheConsistent(round, r.world, assetName)
    ensures !r.outcome.Ok? ==> r.world == w
  {
    var gate := Admission(w, id, fininstEmail, assetName, now);
    if !IsInt(units) then Fail(BadArguments, w)
    else if gate.Some? then Fail(gate.value, w)
    else if units <= 0 then Fail(NonPositiveUnits, w)
    else if Subscribed(w, assetName) + units > w.assets[assetName].parts then Fail(Oversubscribed, w)
    else if w.assets[assetName].parts == 0 then Abort(w)
    else Done(Record(round, w, id, fininstEmail, assetName, units, sig, now))
  }

  /** Every stored claim of `name` asks for at least one unit, and together they fit in its parts. */
  predicate WithinSupply(w: World, name: string)
  {
    && name in w.assets
    && (forall i :: 0 <= i < |w.claims| && w.claims[i].assetName == name ==> w.claims[i].units > 0)
    && Subscribed(w, name) <= w.assets[name].parts
  }

  /** The corrected operation keeps every asset within its supply. */
  lemma UnderwriteCheckedKeepsSupply(round: real -> real, w: World, id: string, fininstEmail: string, assetName: string, units: int, sig: string, now: int, name: string)
    requires WithinSupply(w, name)
    ensures WithinSupply(UnderwriteChecked(round, w, id, fininstEmail, assetName, units, sig, now).world, name)
  {
    var r := UnderwriteChecked(round, w, id, fininstEmail, assetName, units, sig, now);
    if r.outcome.Ok? {
      var c := Claim(id, fininstEmail, w.assets[assetName].ownerEmail, assetName, units, now, sig);
      SubscribedAfterClaim(w, c, name);
      assert r.world.claims == w.claims + [c];
      forall i | 0 <= i < |r.world.claims| && r.world.claims[i].assetName == name
        ensures r.world.claims[i].units > 0
      {
        if i < |w.claims| {
          assert r.world.claims[i] == w.claims[i];
        }
      }
    }
  }

  /**
   While the cache is consistent, the guard reads back the subscribed units
   n, or one fewer: `float64(n) / float64(parts)` times `float64(parts)`
   lands within one of n, and truncation drops anything short of n to n - 1
   (for a negative total it moves toward zero instead).
   */
  lemma CachedGuardReadBack(round: real -> real, a: Asset, n: int)
    requires Float64.Faithful(round)
    requires a.parts != 0 && -Float64.MaxCount <= n <= Float64.MaxCount
    requires a.percent == Ratio(round, n, a.parts)
    ensures n >= 0 ==> n - 1 <= CachedUnits(round, a) <= n
    ensures n <= 0 ==> n <= CachedUnits(round, a) <= n + 1
  {
    Float64.QuotientTimesDivisor(round, n, a.parts);
  }

  /**
   Hence, between a start and the next reset, a successful as-written claim
   keeps the cache consistent, and it leaves more than one unit claimed
   beyond the parts only when the guard's sum wraps around.
   */
  lemma UnderwriteOvershootsAtMostOne(round: real -> real, w: World, id: string, fininstEmail: string, assetName: string, units: int, sig: string, now: int)
    requires Float64.Faithful(round)
    requires CacheConsistent(round, w, assetName) && w.assets[assetName].parts != 0
    requires -Float64.MaxCount <= Subscribed(w, assetName) <= Float64.MaxCount
    ensures var r := Underwrite(round, w, id, fininstEmail, assetName, units, sig, now);
            r.outcome.Ok? ==>
              && CacheConsistent(round, r.world, assetName)
              && (|| Subscribed(r.world, assetName) <= r.world.assets[assetName].parts + 1
                  || !IsInt(units + CachedUnits(round, w.assets[assetName])))
  {
    var n := Subscribed(w, assetName);
    assert Wrap(n) == n;
    CachedGuardReadBack(round, w.assets[assetName], n);
    var r := Underwrite(round, w, id, fininstEmail, assetName, units, sig, now);
    if r.outcome.Ok? {
      assert r.world.assets[assetName].parts == w.assets[assetName].parts;
    }
  }

  /** Any claim of zero or fewer units passes the as-written guard while the cache is consistent and within supply. */
  lemma NonPositiveClaimAccepted(round: real -> real, w: World, id: string, fininstEmail: string, assetName: string, units: int, sig: string, now: int)
    requires Float64.Faithful(round)
    requires Admission(w, id, fininstEmail, assetName, now).None?
    requires CacheConsistent(round, w, assetName) && w.assets[assetName].parts != 0
    requires 0 <= Subscribed(w, assetName) <= w.assets[assetName].parts && Subscribed(w, assetName) <= Float64.MaxCount
    requires MinInt <= units <= 0
    ensures Underwrite(round, w, id, fininstEmail, assetName, units, sig, now).outcome.Ok?
    ensures !UnderwriteChecked(round, w, id, fininstEmail, assetName, units, sig, now).outcome.Ok?
  {
    var n := Subscribed(w, assetName);
    assert Wrap(n) == n;
    CachedGuardReadBack(round, w.assets[assetName], n);
  }

  // ---------------------------------------------------------------------
  // Concrete oversubscriptions, with Go's float64 rounding
  // ---------------------------------------------------------------------

  const Bank := "bank@example.com"
  const Lot := "lot-1"

  /** An approved institution and an asset of `parts` parts whose window closes at time 100. */
  function Setting(parts: int): World
  {
    var party := Party(Bank, "bank", "pwd", StApproved, DescApproved);
    var detail := Detail(Bank, "Bank", "contact", ["a", "b", "c"], ["d", "e", "f", "g"], StApproved, DescApproved, "sig");
    var lot := Asset("owner@example.com", Lot, "pics00", "", "bond", "CNY", 1000.0, parts, 0.05,
                     30, 7, 0.5, false, "proofs", StUnderwriting, DescUnderwriting,
                     Some(0), Some(100), Some(2000), 0.0, "", "", "osig", "isig");
    var docs := map[DocKey(PartyNs(AsWritten, Fininst), Bank) := LoginDoc(party),
                    DocKey(DetailNs(Fininst), Bank) := IdentityDoc(detail)];
    World(AsWritten, map[], docs, map[Lot := lot], [], map[], map[], {})
  }

  /**
   Within one window on a hundred parts, a claim of 29 units caches
   29 / 100, which reads back as 28.999999999999996 and truncates to 28, so
   a second claim of 72 passes the guard and 101 units end up claimed.
   */
  lemma OversubscribedByRounding()
    ensures var w1 := Underwrite(Float64.Round, Setting(100), "c1", Bank, Lot, 29, "s1", 0);
            var w2 := Underwrite(Float64.Round, w1.world, "c2", Bank, Lot, 72, "s2", 1);
            && w1.outcome.Ok? && w2.outcome.Ok?
            && Subscribed(w2.world, Lot) == 101 > w2.world.assets[Lot].parts == 100
  {
    var w0 := Setting(100);
    assert Subscribed(w0, Lot) == 0;
    assert Admission(w0, "c1", Bank, Lot, 0).None?;
    assert CachedUnits(Float64.Round, w0.assets[Lot]) == 0 by {
      assert Float64.Round(0.0) == 0.0;
    }
    var w1 := Underwrite(Float64.Round, w0, "c1", Bank, Lot, 29, "s1", 0);
    assert w1.outcome.Ok?;
    Float64.TwentyNineHundredths();
    assert w1.world.assets[Lot].percent == Float64.Div(Float64.Round, 29.0, 100.0);
    assert CachedUnits(Float64.Round, w1.world.assets[Lot]) == 28;
    assert FindClaim(w1.world.claims, "c2").None?;
    assert Admission(w1.world, "c2", Bank, Lot, 1).None?;
  }

  /** The corrected operation refuses the second claim of that sequence, whatever the rounding. */
  lemma CheckedRefusesRoundedClaim(round: real -> real)
    ensures var w1 := UnderwriteChecked(round, Setting(100), "c1", Bank, Lot, 29, "s1", 0);
            && w1.outcome.Ok?
            && UnderwriteChecked(round, w1.world, "c2", Bank, Lot, 72, "s2", 1) == Fail(Oversubscribed, w1.world)
  {
    var w0 := Setting(100);
    assert Subscribed(w0, Lot) == 0;
    assert Admission(w0, "c1", Bank, Lot, 0).None?;
    var w1 := UnderwriteChecked(round, w0, "c1", Bank, Lot, 29, "s1", 0);
    assert Subscribed(w1.world, Lot) == 29;
    assert FindClaim(w1.world.claims, "c2").None?;
    assert Admission(w1.world, "c2", Bank, Lot, 1).None?;
  }

  /**
   Eight units claimed on ten parts, the asset approved again (the review
   decision does not look at the status) and underwriting restarted: the
   restart zeroes the cached percentage, so a second claim of eight passes
   the guard and the asset ends with sixteen units claimed against ten parts.
   Any faithful rounding, Go's included, gives this.
   */
  lemma OversubscribedAfterRestart(round: real -> real)
    requires Float64.Faithful(round)
    ensures var w1 := Underwrite(round, Setting(10), "c1", Bank, Lot, 8, "s1", 0);
            var w2 := Lifecycle.ApproveAsset(w1.world, Lot, "p1");
            var w3 := Lifecycle.StartUnderwrite(w2.world, Lot, "p2", 50);
            var w4 := Underwrite(round, w3.world, "c2", Bank, Lot, 8, "s2", 60);
            && w1.outcome.Ok? && w2.outcome.Ok? && w3.outcome.Ok? && w4.outcome.Ok?
            && Subscribed(w4.world, Lot) == 16 > w4.world.assets[Lot].parts == 10
  {
    var w0 := Setting(10);
    assert Subscribed(w0, Lot) == 0;
    assert Admission(w0, "c1", Bank, Lot, 0).None?;
    assert Float64.Near(0.0, round(0.0));
    assert CachedUnits(round, w0.assets[Lot]) == 0;
    var w1 := Underwrite(round, w0, "c1", Bank, Lot, 8, "s1", 0);
    var w2 := Lifecycle.ApproveAsset(w1.world, Lot, "p1");
    var w3 := Lifecycle.StartUnderwrite(w2.world, Lot, "p2", 50);
    assert w3.world.claims == w1.world.claims;
    assert w3.world.assets[Lot].underwriteDue == Some(50 + 7 * SecondsPerDay);
    assert CachedUnits(round, w3.world.assets[Lot]) == 0;
    assert FindClaim(w1.world.claims, "c2").None?;
    assert Admission(w3.world, "c2", Bank, Lot, 60).None?;
    var w4 := Underwrite(round, w3.world, "c2", Bank, Lot, 8, "s2", 60);
    assert w4.outcome.Ok?;
  }

  /** The corrected operation refuses the second claim of the restart sequence, whatever the rounding. */
  lemma CheckedRefusesAfterRestart(round: real -> real)
    ensures var w1 := UnderwriteChecked(round, Setting(10), "c1", Bank, Lot, 8, "s1", 0);
            var w2 := Lifecycle.ApproveAsset(w1.world, Lot, "p1");
            var w3 := Lifecycle.StartUnderwrite(w2.world, Lot, "p2", 50);
            && w1.outcome.Ok? && w3.outcome.Ok?
            && UnderwriteChecked(round, w3.world, "c2", Bank, Lot, 8, "s2", 60) == Fail(Oversubscribed, w3.world)
  {
    var w0 := Setting(10);
    assert Subscribed(w0, Lot) == 0;
    assert Admission(w0, "c1", Bank, Lot, 0).None?;
    var w1 := UnderwriteChecked(round, w0, "c1", Bank, Lot, 8, "s1", 0);
    var w2 := Lifecycle.ApproveAsset(w1.world, Lot, "p1");
    var w3 := Lifecycle.StartUnderwrite(w2.world, Lot, "p2", 50);
    assert w3.world.claims == w1.world.claims;
    assert Subscribed(w3.world, Lot) == 8;
    assert FindClaim(w1.world.claims, "c2").None?;
    assert Admission(w3.world, "c2", Bank, Lot, 60).None?;
  }

  /**
   On a hundred parts, a claim of 2 units caches 2 / 100, which reads back
   as 1 or 2; a second claim of 2^63 - 1 units then makes the guard's sum
   wrap around to a negative number, so it passes, and 2^63 + 1 units end up
   claimed. Any faithful rounding, Go's included, gives this.
   */
  lemma OversubscribedByWrap(round: real -> real)
    requires Float64.Faithful(round)
    ensures var w1 := Underwrite(round, Setting(100), "c1", Bank, Lot, 2, "s1", 0);
            var w2 := Underwrite(round, w1.world, "c2", Bank, Lot, MaxInt, "s2", 1);
            && w1.outcome.Ok? && w2.outcome.Ok?
            && Subscribed(w2.world, Lot) == MaxInt + 2 > w2.world.assets[Lot].parts == 100
  {
    var w0 := Setting(100);
    assert Subscribed(w0, Lot) == 0;
    assert Admission(w0, "c1", Bank, Lot, 0).None?;
    assert Float64.Near(0.0, round(0.0));
    assert CachedUnits(round, w0.assets[Lot]) == 0;
    var w1 := Underwrite(round, w0, "c1", Bank, Lot, 2, "s1", 0);
    assert w1.outcome.Ok?;
    assert Subscribed(w1.world, Lot) == 2;
    CachedGuardReadBack(round, w1.world.assets[Lot], 2);
    var c := CachedUnits(round, w1.world.assets[Lot]);
    assert 1 <= c <= 2;
    assert Wrap(MaxInt + c) == MaxInt + c - 0x1_0000_0000_0000_0000;
    assert FindClaim(w1.world.claims, "c2").None?;
    assert Admission(w1.world, "c2", Bank, Lot, 1).None?;
  }

  /** The corrected operation refuses the second claim of that sequence, whatever the rounding. */
  lemma CheckedRefusesWrappedClaim(round: real -> real)
    ensures var w1 := UnderwriteChecked(round, Setting(100), "c1", Bank, Lot, 2, "s1", 0);
            && w1.outcome.Ok?
            && UnderwriteChecked(round, w1.world, "c2", Bank, Lot, MaxInt, "s2", 1) == Fail(Oversubscribed, w1.world)
  {
    var w0 := Setting(100);
    assert Subscribed(w0, Lot) == 0;
    assert Admission(w0, "c1", Bank, Lot, 0).None?;
    var w1 := UnderwriteChecked(round, w0, "c1", Bank, Lot, 2, "s1", 0);
    assert Subscribed(w1.world, Lot) == 2;
    assert FindClaim(w1.world.claims, "c2").None?;
    assert Admission(w1.world, "c2", Bank, Lot, 1).None?;
  }
}
